=== FILE: README.md ===
# Germ selection and processor-spec availability, modelled in Dafny

This project models two pieces of pyGSTi that are sequential and self-contained:

1. **The discrete decision layer of germ selection** (`pygsti/algorithms/germselection.py`).
   It covers these parts:
   - the composite germ-set score: the amplified-parameter count `N_AC`, the minor score and the penalised major score;
   - the score and flag handling of the two compact-EVD scorers;
   - the memory pre-flight and cache-mode fall-back of `find_germs_breadthfirst_rev1`;
   - its forced-germ initialisation and its greedy outer loop;
   - the model-list helpers (`randomize_model_list`, `test_germs_list_completeness`, `_get_model_params`);
   - circuit de-duplication (`clean_germ_list`) and random dropping (`drop_random_germs`);
   - the discrete parts of the integer-slack search (validation, forced indices, the slack score guard, one-flip neighbours).

   All numerical linear algebra is abstracted away:
   - the eigenvalue aggregation (`list_score`) is an uninterpreted `seq<real> -> real`;
   - eigenvalue spectra are given sequences of reals;
   - the matrix distance in de-duplication is an uninterpreted `(V, V) -> real`;
   - the per-candidate, per-model composite score of the greedy loop is a score oracle;
   - the completeness test of one model is a pass/fail oracle.

2. **Gate availability in `QubitProcessorSpec`** (`pygsti/processors/processorspec.py`).
   It covers the constructor's validation and default availability, and `gate_num_qubits`.
   It covers the resolution of `'all-permutations'`, `'all-combinations'`, `'all-edges'`, explicit lists, user functions and `'*'`/`'arbitrary'` into tuple and function forms.
   It covers `is_available`, `available_gatenames`, `available_gatelabels` and `primitive_op_labels`.
   It covers `subset` and `map_qubit_labels`.
   Qubit labels are integers. `itertools.permutations` and `itertools.combinations` are defined in the order they yield.

The constructor's documentation says an unspecified availability means `'all-permutations'`. The code (`pygsti/processors/processorspec.py:186` and `:298`) stores and resolves `'all-edges'`. The model follows the code.

Python exceptions become `Outcomes.Failure(e)` values carrying the exception class.
Python floats are `real`. The non-finite values the code produces on purpose (`+inf`, `-inf`) are the extra points of `Scores.ExtReal`.
Germ selection builds every score as `CompositeScore(major, minor, N)` (`pygsti/algorithms/germselection.py:638-640`) and keeps the smallest.
`pygsti/algorithms/scoring.py`, which defines that class and its comparison, is not part of this model. `Scores.ScoreLt` takes the order to be lexicographic on `(major, minor)`.

Files:
- `outcomes.dfy`, `seqs.dfy`, `scores.dfy`: shared vocabulary.
- `composite_score.dfy`, `low_rank_scores.dfy`: scoring.
- `memory.dfy`, `forced_germs.dfy`, `gram_init.dfy`, `greedy.dfy`: the breadth-first search.
- `model_list.dfy`, `integer_slack.dfy`, `dedup.dfy`, `random_drop.dfy`: helpers of germ selection.
- `combinatorics.dfy`, `qubit_graph.dfy`, `processor_spec.dfy`, `availability.dfy`, `processor_transforms.dfy`: the processor specification.

## Model

| member | source | states |
|---|---|---|
| CompositeScoring.ScanFrom | pygsti/algorithms/germselection.py:623-631 | The scan returns nothing exactly when the first window fails or the range is empty. Otherwise it returns the last passing `N`: every window from the start up to it passes, and the next one fails or does not exist. |
| CompositeScoring.AmplifiedCountIsLargest | pygsti/algorithms/germselection.py:617-640 | `N_AC` is the largest `N` such that every window `init_n..N` of the top eigenvalues stays at or under `threshold_ac`, and the minor score is the aggregated score at `N_AC`. If the first window fails, the result is `N_AC = 0` and minor `+inf`. Always `0 <= N_AC <= num_nongauge_params`. This is stated for the corrected slicing, where the top 0 eigenvalues are none (Findings rows 3 and 4). It matches the source as written whenever `num_nongauge_params >= 1` and `init_n >= 1` (`CompositeScoring.SlicingsAgreeFromOne`). As written, `num_nongauge_params == 0` gives `N_AC = 1`. |
| CompositeScoring.ComposeScore | pygsti/algorithms/germselection.py:605-640 | The major score is the penalty minus `N_AC`, and `N` is always a finite count. |
| CompositeScoring.OpScore | pygsti/algorithms/germselection.py:607-608 | The length penalty is exactly zero when `op_penalty` is zero, whatever the lengths. |
| CompositeScoring.ResolveLengths | pygsti/algorithms/germselection.py:608-615 | A non-zero `op_penalty` with neither `germ_lengths` nor `partial_germs_list` is a ValueError, and nothing else fails. Given lengths are used as they are; otherwise each length is the length of the corresponding germ of `partial_germs_list`. |
| CompositeScoring.CompositeGermSetScore | pygsti/algorithms/germselection.py:605-640 | The score fails, with ValueError, exactly when `op_penalty` is non-zero and neither lengths nor germs are given. Otherwise it is the composite score of the spectrum with the lengths `ResolveLengths` picks, so its major score is the length penalty on those lengths plus `l1_penalty` times the germ count, minus `N_AC` (see `ComposeScore`). |
| CompositeScoring.MoreAmplifiedIsBetter | pygsti/algorithms/germselection.py:636-640 | With zero penalties, a set that amplifies more parameters has a strictly smaller score, whatever the minor scores are. |
| CompositeScoring.PyLast | pygsti/algorithms/germselection.py:620-624 | Python's `xs[-k:]` is the whole list for `k == 0` and for `k >= len(xs)`, and the last `k` elements otherwise. |
| CompositeScoring.SlicingsAgreeFromOne | pygsti/algorithms/germselection.py:620-631 | When `num_nongauge_params >= 1` and `init_n >= 1`, the source's slicing gives the same composite score as the top-`N` reading. |
| CompositeScoring.NoNonGaugeParamsObservesEverything | pygsti/algorithms/germselection.py:620 | With `num_nongauge_params == 0`, the source observes the whole spectrum and reports `N_AC = 1`. The top-0 reading reports 0. |
| CompositeScoring.InitZeroScoresWholeSpectrum | pygsti/algorithms/germselection.py:623-631 | With `init_n == 0`, the source scores the whole spectrum at `N = 0` and can stop at `N_AC = 0` even though `N = 1` passes. |
| LowRankScoring.PadLeft | pygsti/algorithms/germselection.py:3695 | Left-padding with zeros gives exactly `num_params` entries ending in the given spectrum. A spectrum longer than `num_params` is a ValueError. |
| LowRankScoring.CompactEvdScore | pygsti/algorithms/germselection.py:3658-3724 | Missing germ lengths are a ValueError. A candidate with no surviving new direction gets the rank-failure score `(+inf, -inf, -inf)`, whether or not a rank increase is forced. Otherwise an updated spectrum longer than `num_params` is a ValueError, and the result is the composite score of the zero-padded updated spectrum. |
| LowRankScoring.LowRankTraceScore | pygsti/algorithms/germselection.py:3819-3862 | Missing germ lengths are a ValueError. Otherwise the result is the rank-failure score exactly when no direction survives and a rank increase is forced. Otherwise `N` is the old rank plus the surviving directions, the minor score is the pseudo-inverse trace, and the major score is the length and L1 penalties minus `N`, with the germ count defaulting to the number of lengths. |
| LowRankScoring.RankFailureIsWorst | pygsti/algorithms/germselection.py:3687-3691 | A rank-failing candidate is strictly worse than every score with a finite major part. |
| LowRankScoring.ForcedRankIncreaseGrowsRank | pygsti/algorithms/germselection.py:3050-3053 | Under a forced rank increase, every non-failing trace score counts strictly more directions than the current spectrum. |
| MemoryPreflight.ChooseMode | pygsti/algorithms/germselection.py:3264-3290 | A MemoryError is raised exactly when a limit is given and the single-Jac estimate exceeds it. The mode changes from all-Jac to single-Jac exactly when all-Jac was asked for and its estimate exceeds the limit. No other mode changes. |
| MemoryPreflight.ChosenModeFits | pygsti/algorithms/germselection.py:3277-3290 | When the pre-flight passes with a limit, the estimate for the mode it settles on fits within the limit. |
| MemoryPreflight.SingleJacIsCheaper | pygsti/algorithms/germselection.py:3264-3273 | With at least three candidate germs, the single-Jac estimate never exceeds the all-Jac one. |
| MemoryPreflight.FallbackExample | pygsti/algorithms/germselection.py:3264-3290 | For 5 models, 1000 germs, 100 parameters, dim 4 and 16-byte elements, the estimates are 928,000,000 and 2,784,000 bytes. A 500 MB limit falls back to single-Jac. |
| ForcedGerms.FirstIndex | pygsti/algorithms/germselection.py:3258 | `list.index` finds the first position holding the circuit, or nothing when the circuit is absent. |
| ForcedGerms.MarkForced | pygsti/algorithms/germselection.py:3257-3258 | It fails with ValueError exactly when a forced circuit is not in the pool. Otherwise each weight becomes 1 at the first occurrence of a forced circuit and is unchanged elsewhere. |
| ForcedGerms.InitialSelection | pygsti/algorithms/germselection.py:3250-3259 | With "singletons", `weights[i] == 1` exactly when germ `i` has length 1, and `goodGerms` is the length-1 germs in pool order. With an explicit list, `goodGerms` is that list and the weights mark its first occurrences. Without forcing, all weights are 0 and `goodGerms` is empty. |
| ForcedGerms.SingletonsAgree | pygsti/algorithms/germselection.py:3253-3255 | With "singletons", `goodGerms` is exactly the germs the weight vector selects, in pool order. |
| ForcedGerms.ExplicitAgrees | pygsti/algorithms/germselection.py:3256-3259 | With an explicit list, the weight vector selects exactly the circuits of `goodGerms`. |
| GramInit.OnesIndices | pygsti/algorithms/germselection.py:3328 | The result lists, in ascending order, exactly the positions whose weight is 1. |
| GramInit.InitialIndicesAsWritten | pygsti/algorithms/germselection.py:3321-3403 | all-Jac starts from the weight-1 germs. single-Jac starts from the first `len(goodGerms)` germs of the pool, and is an IndexError exactly when `goodGerms` is longer than the pool (an explicit force list that repeats a circuit, :3258-3259, :3345). compactEVD starts from the weight-1 germs, and fails on an unbound name exactly when there are none. An unknown mode is a ValueError. |
| GramInit.SingleJacStartsFromWrongGerms | pygsti/algorithms/germselection.py:3330-3345 | For the pool `[GxGy, Gx]` with the singletons forced, single-Jac starts from the unselected germ 0 while all-Jac starts from germ 1. |
| GramInit.SingleJacDuplicateForceOverruns | pygsti/algorithms/germselection.py:3256-3259 | For the pool `[Gx]` and the force list `[Gx, Gx]`, the weights are `[1]`: all-Jac starts from germ 0, while single-Jac indexes germ 1 and raises IndexError. |
| GramInit.InitialIndices | pygsti/algorithms/germselection.py:3321-3403 | Corrected start: every known mode sums exactly the germs whose weight is 1. An unknown mode is a ValueError. |
| GramInit.ModesAgreeOnStart | pygsti/algorithms/germselection.py:3321-3403 | With the corrected start, the three modes begin from the same germs, and that start is the all-Jac start as written. |
| Scores.PyMax | pygsti/algorithms/germselection.py:3462 | Python's `max` of two scores returns one of them, no smaller than either. It returns the second only when the second is strictly larger. |
| GreedySelection.WorstOver | pygsti/algorithms/germselection.py:3445-3513 | A candidate's worst score is at least its score for every model and at least the `-1e100` start. It is either that start or one of the per-model scores. |
| GreedySelection.FirstBestUnique | pygsti/algorithms/germselection.py:3519-3523 | At most one unused candidate is the first-best one. |
| GreedySelection.PickBest | pygsti/algorithms/germselection.py:3427-3523 | When a candidate is chosen, it is unused and its worst-case score beats the `1e100` sentinel. No unused candidate scores strictly lower, and every earlier unused candidate scores strictly higher, so ties go to the first. Nothing is chosen exactly when no unused candidate beats the sentinel. |
| GreedySelection.RankFailuresExhaustSearch | pygsti/algorithms/germselection.py:3427-3429 | When every unused candidate fails the rank increase on some model, no candidate beats the sentinel. |
| GreedySelection.FindGermsGreedy | pygsti/algorithms/germselection.py:3414-3567 | Each outer step sets exactly one previously-zero weight to 1 and appends that germ to `goodGerms`. No weight is cleared and no germ is picked twice. The loop ends with no zero weight left or with `initN == numNonGaugeParams`, and no step is taken once `init_n` equals `numNonGaugeParams` (:3420-3421). Every step picked the first-best candidate for the weights and `init_n` in force, and `init_n` is 1 at the start and afterwards the previous winner's `N`. It fails, with TypeError (the source indexes the germ list with `None`), exactly at a state where unused germs remain, `init_n` has not reached the target, and no unused candidate beats the sentinel. |
| ModelList.RandomizeModelList | pygsti/algorithms/germselection.py:855-870 | More than one model together with `num_copies` is a ValueError, and copies of an empty list are an IndexError. Otherwise the result has one randomisation per model (several models) or `num_copies` of model 0 (default 1). Randomisation `i` uses seed `seed + i`, or no seed. |
| ModelList.RandomizationSeedsDiffer | pygsti/algorithms/germselection.py:859-870 | With a seed, no two randomisations share a seed. Without one, all are unseeded. |
| ModelList.TestGermsListCompleteness | pygsti/algorithms/germselection.py:908-916 | The result is -1 exactly when the germ set is complete for every model. Otherwise it is the index of the first model for which it is not. |
| ModelList.GetModelParams | pygsti/algorithms/germselection.py:459-487 | An empty list is an IndexError. Any disagreement in gauge, non-gauge or gate counts is a ValueError. Otherwise the result is the shared counts. |
| ModelList.GetModelParamsIgnoresOrder | pygsti/algorithms/germselection.py:459-487 | Reordering the model list gives the same verdict and the same counts. |
| IntegerSlack.ValidateSlack | pygsti/algorithms/germselection.py:1972-1973 | It succeeds exactly when one of `fixed_slack` and `slack_frac` is truthy, and fails with ValueError otherwise. |
| IntegerSlack.InitialWeights | pygsti/algorithms/germselection.py:1975-1984 | A length mismatch is a ValueError. Otherwise the weights are all ones by default, or 1 exactly where the given weight is truthy. |
| IntegerSlack.ForceIndices | pygsti/algorithms/germselection.py:2018-2024 | No forced indices for an absent or empty `force`. The length-1 positions for "singletons". The position of each forced circuit otherwise, with ValueError for a missing circuit. |
| IntegerSlack.SlackScore | pygsti/algorithms/germselection.py:802-820 | It returns `force_score` whenever a forced germ has weight `<= 0`. Otherwise it returns the spectrum score past the gauge eigenvalues plus the L1 and length penalties. It records the score in the cache under `(model, weights)` when a cache is given. An out-of-range forced index is an IndexError. |
| IntegerSlack.MissingForcedGermScoresAlike | pygsti/algorithms/germselection.py:802-803 | Any two weight vectors that drop a forced germ score the same, whatever the Gram data. |
| IntegerSlack.GetNeighbors | pygsti/algorithms/germselection.py:2051-2055 | Neighbour `i` toggles entry `i` and keeps every other entry. |
| IntegerSlack.NeighborsOfBinary | pygsti/algorithms/germselection.py:2051-2055 | On a 0/1 vector each neighbour is a 0/1 vector differing in exactly one entry. Toggling the same entry again gives the original back, so the neighbour relation is symmetric. |
| GermDedup.Unique | pygsti/algorithms/germselection.py:2447-2463 | The first input circuit is always kept. |
| GermDedup.UniqueIsSubseq | pygsti/algorithms/germselection.py:2447-2463 | The kept circuits are an order-preserving sub-list of the input. |
| GermDedup.UniqueIsSeparated | pygsti/algorithms/germselection.py:2447-2463 | No kept circuit is near an earlier kept circuit. |
| GermDedup.UniqueCovers | pygsti/algorithms/germselection.py:2447-2463 | Every input circuit is kept, or is near a kept circuit that comes earlier in the input: of a group of duplicates the first is kept. |
| GermDedup.CleanGermList | pygsti/algorithms/germselection.py:2426-2474 | The output is an order-preserving sub-list that starts with the first input. No two outputs are within the threshold. Every input is kept or is within the threshold of a kept circuit earlier in the input. The returned cache holds exactly the kept circuits' matrices. |
| GermDedup.UniqueOfSeparated | pygsti/algorithms/germselection.py:2447-2463 | A list none of whose circuits is near an earlier one comes back unchanged. |
| GermDedup.CleanIsIdempotent | pygsti/algorithms/germselection.py:2426-2474 | Cleaning the cleaned list with the cleaned cache returns the same list and cache. |
| RandomDrop.BareCircuits | pygsti/algorithms/germselection.py:2555 | One single-gate circuit per gate label, in label order. |
| RandomDrop.Choice | pygsti/algorithms/germselection.py:2561-2562 | Sampling without replacement succeeds exactly when `0 <= size <= n`. It gives `size` distinct indices below `n`. |
| RandomDrop.DropRandomGerms | pygsti/algorithms/germselection.py:2545-2581 | The result keeps exactly `n - floor(rand_frac * n)` of the `n` candidates in the pool (the non-bare ones under `keep_bare`), drawn without replacement, so no candidate is taken more often than it occurs. With `keep_bare`, the bare circuits come first and no sampled candidate is bare. With `rand_frac = 0`, every candidate is kept. A size outside `0..n` is a ValueError. |
| RandomDrop.PickIsSubMultiset | pygsti/algorithms/germselection.py:2565 | Reading distinct positions never takes an element more often than the pool holds it. |
| RandomDrop.FractionInRangeSucceeds | pygsti/algorithms/germselection.py:2561-2562 | A fraction between 0 and 1 never makes the draw fail. |
| RandomDrop.FractionOutOfRangeFails | pygsti/algorithms/germselection.py:2561-2562 | A negative fraction of a non-empty pool, or one dropping at least one candidate more than the pool holds, is a ValueError. |
| ProcessorSpecs.GateStep | pygsti/processors/processorspec.py:130-160 | A non-standard factory needs a 2-D `shape`: without one it is a ValueError, and a wrong one is an AssertionError. An inferred idle needs a list availability. An unknown name is a ValueError. Idle gates without a given availability default to `[None]`. |
| ProcessorSpecs.GateLoop | pygsti/processors/processorspec.py:130-160 | The gate loop succeeds exactly when every gate name is accepted. |
| ProcessorSpecs.GateLoopUnitaries | pygsti/processors/processorspec.py:130-160 | The gate table has exactly the gate names as keys, each with its non-standard unitary, standard unitary or idle qubit count. |
| ProcessorSpecs.GateLoopDefaults | pygsti/processors/processorspec.py:139-156 | After the loop, the availability is the given one plus `[None]` for the idle gates that default to it. |
| ProcessorSpecs.GateLoopError | pygsti/processors/processorspec.py:130-160 | A failing loop fails on the first rejected gate, with that gate's exception. |
| ProcessorSpecs.FinalAvailability | pygsti/processors/processorspec.py:185-187 | The availability has exactly one entry per gate name. |
| ProcessorSpecs.Init | pygsti/processors/processorspec.py:115-187 | More than one qubit with neither availability nor geometry is an AssertionError. Unknown gate names are rejected. The chosen labels must number `num_qubits`. On success, the spec keeps the gate names in order and its availability has one entry per gate name. That entry is the given one, else `[None]` for defaulted idles, else `'all-edges'`. |
| ProcessorSpecs.ReinitRoundTrip | pygsti/processors/processorspec.py:115-187 | Rebuilding a spec from its own gate table, availability, graph and labels gives it back. |
| ProcessorSpecs.QubitsOfDimension | pygsti/processors/processorspec.py:270 | For `d >= 1`, `round(log2(d))` is the `k >= 0` with `d^2 < 2^(2k+1)` and, when `k > 0`, `2^(2k-1) <= d^2`. `d = 0` is an OverflowError. |
| ProcessorSpecs.PowerOfTwoDimension | pygsti/processors/processorspec.py:270 | A `2^q`-dimensional unitary acts on `q` qubits. |
| ProcessorSpecs.GateNumQubits | pygsti/processors/processorspec.py:254-270 | `None` acts on all qubits, an integer on that many, and a matrix or factory on the rounded `log2` of its first dimension. |
| Combinatorics.PermsMembers | pygsti/processors/processorspec.py:317-322 | Over distinct labels, `permutations(labels, k)` holds exactly the duplicate-free `k`-tuples of labels. |
| Combinatorics.CombsMembers | pygsti/processors/processorspec.py:310-315 | `combinations(labels, k)` holds exactly the order-preserving `k`-element sub-lists of the labels. |
| Availability.Singletons | pygsti/processors/processorspec.py:335 | One `(i,)` per qubit label, in label order. |
| Availability.EdgePairs | pygsti/processors/processorspec.py:336 | The graph's directed edge list, both directions when undirected, as pairs. |
| Availability.Resolve | pygsti/processors/processorspec.py:302-349 | The function form never yields a tuple list. A negative arity in tuple form is a ValueError. `'all-edges'` needs a 1- or 2-qubit gate and is an AssertionError otherwise. An unrecognised string is a ValueError. `'*'` and `'arbitrary'`, and nothing else, give the wildcard signal. An explicit target list is returned unchanged in tuple form. |
| Availability.ResolvedAvailability | pygsti/processors/processorspec.py:272-300 | An unknown gate is a KeyError. Otherwise the gate's entry is resolved, defaulting to `'all-edges'`. |
| Availability.TargetsPassTest | pygsti/processors/processorspec.py:310-349 | Every target listed by the tuple form passes the function form. For `'all-combinations'` this needs sorted labels (see Findings); no other entry needs any condition on the labels. |
| Availability.TestPassImpliesTarget | pygsti/processors/processorspec.py:310-349 | With sorted qubit labels for `'all-combinations'` (repeats allowed, and no condition for the other forms), every duplicate-free arrangement of the gate's arity that the function form accepts is a tuple-form target. |
| Availability.UnsortedLabelsSplitCombinations | pygsti/processors/processorspec.py:313-315 | With qubit labels `[1, 0]`, the tuple form of `'all-combinations'` lists `(1, 0)`, but the function form rejects it. |
| Availability.InOrderTestMatchesCombinations | pygsti/processors/processorspec.py:313-315 | For any qubit labels, a test that accepts the sub-sequences of the labels in their order accepts an `nq`-tuple exactly when the tuple form lists it. |
| Availability.InOrderTestAgreesWhenSorted | pygsti/processors/processorspec.py:313 | With strictly increasing labels, that in-order test agrees with the source's sorted-subset test on every tuple without repeats. |
| Availability.Call | pygsti/processors/processorspec.py:366-370 | Calling the wildcard signal fails with TypeError as written, and is "available" under the intended reading. |
| Availability.IsAvailable | pygsti/processors/processorspec.py:364-370 | A `'*'` or `'arbitrary'` gate is always available. A gate whose availability cannot be resolved fails. |
| Availability.AnyAvailable | pygsti/processors/processorspec.py:394 | `any(...)` is true only if some arrangement is accepted. When no call raises, it is true exactly then. |
| Availability.FilterAvailable | pygsti/processors/processorspec.py:418-419 | When no call raises, the kept arrangements are an order-preserving sub-list of exactly the accepted ones. Otherwise the first exception propagates. |
| Availability.AvailableGatelabels | pygsti/processors/processorspec.py:415-419 | An unknown gate is a KeyError. The result is empty when the gate needs more qubits than given. Otherwise every label is named `gate_name`, a label is present exactly for a `k`-permutation of `sslbls` that the availability function accepts, and the targets come in `itertools.permutations` order. |
| Availability.GatelabelsAgreeWithIsAvailable | pygsti/processors/processorspec.py:398-419 | `available_gatelabels` lists exactly the arrangements of the given labels that `is_available` accepts. |
| Availability.GateFits | pygsti/processors/processorspec.py:391-394 | A gate is kept only if it fits in `sslbls` and some arrangement is accepted. |
| Availability.AvailableGatenames | pygsti/processors/processorspec.py:389-396 | The query fails exactly when some gate's fit test fails. Otherwise the kept names are, in gate order, exactly the gates whose fit test holds. |
| Availability.GatenamesAgreeWithGatelabels | pygsti/processors/processorspec.py:389-419 | A gate is in `available_gatenames(sslbls)` exactly when `available_gatelabels(g, sslbls)` is non-empty. |
| Availability.LabelsOf | pygsti/processors/processorspec.py:251 | A gate's labels are one per tuple-form target, in target order, all named after the gate. A `'*'` resolution gives the single label `Label(g, '*')`, and a test function gives none. |
| Availability.PrimitiveOpLabels | pygsti/processors/processorspec.py:245-252 | It fails exactly when some non-implicit gate's tuple form fails to resolve. The labels on targets are exactly the tuple-form targets of every gate whose name is not of the implicit form `(...)`. A `Label(g, '*')` is present exactly for such a gate resolving to `'*'`. The labels come in gate order. |
| Availability.PrimitiveLabelsAreAvailable | pygsti/processors/processorspec.py:245-252 | Every primitive label on targets is available according to `is_available`, provided the labels are sorted when some gate uses `'all-combinations'`. |
| Availability.WildcardBreaksQueries | pygsti/processors/processorspec.py:392-419 | As written, a fitting `'*'` gate makes `available_gatenames` and `available_gatelabels` raise TypeError, while `is_available` accepts it. |
| Availability.WildcardGatesAreListed | pygsti/processors/processorspec.py:366-368 | Read as intended, a fitting `'*'` gate is available on every arrangement and is listed by `available_gatenames`. |
| Availability.WildcardSpecIsConstructed | pygsti/processors/processorspec.py:115-187 | The constructor accepts one qubit with a `'*'`-available gate factory. |
| Availability.WildcardExample | pygsti/processors/processorspec.py:389-396 | On that spec, `is_available` accepts the gate on qubit 0, but `available_gatenames((0,))` raises TypeError as written. Under the intended reading it lists the gate. |
| ProcessorTransforms.RestrictEntry | pygsti/processors/processorspec.py:688-697 | A list entry keeps, in their order, exactly the targets that are `None` or inside the kept qubits. Other entries are unchanged. |
| ProcessorTransforms.Subset | pygsti/processors/processorspec.py:665-702 | A label to keep that is not in the spec is a ValueError. Otherwise the gate names are the requested ones that exist, in request order, with unchanged unitaries. Each list availability is restricted to the kept qubits and the graph to the kept nodes. |
| ProcessorTransforms.SubsetIsSelfContained | pygsti/processors/processorspec.py:688-702 | Every listed target and every edge of a subset lies within its qubits. |
| ProcessorTransforms.SubsetOfAllIsIdentity | pygsti/processors/processorspec.py:678-679 | `subset('all', 'all')` of a self-contained spec is the spec itself. |
| ProcessorTransforms.MapTarget | pygsti/processors/processorspec.py:727-728 | `None` stays `None`. A tuple is relabelled element by element, keeping its length and order, and fails with KeyError exactly when a dictionary mapper lacks one of its labels. A function mapper never fails. |
| ProcessorTransforms.MapTargets | pygsti/processors/processorspec.py:726-728 | A list entry is relabelled target by target, keeping its length. It fails exactly when some target fails. |
| ProcessorTransforms.MapEntry | pygsti/processors/processorspec.py:725-733 | Non-list entries are unchanged. A list entry fails exactly when one of its targets does. Otherwise target `i` of the result is target `i` relabelled. |
| ProcessorTransforms.MapAvailability | pygsti/processors/processorspec.py:724-733 | The relabelled availability has the same gates, each entry relabelled. |
| ProcessorTransforms.MapQubitLabels | pygsti/processors/processorspec.py:704-738 | `num_qubits`, the gate names and the unitaries are preserved. The labels, list availabilities and graph are relabelled elementwise. A function mapper never fails. |
| ProcessorTransforms.MapIsRelabelled | pygsti/processors/processorspec.py:704-738 | With a function mapper, the result is exactly the spec with its parts relabelled. |
| ProcessorTransforms.MapQubitLabelsRoundTrip | pygsti/processors/processorspec.py:704-738 | Relabelling by `f` and then by an inverse of `f` gives the spec back. |

## Left out

- Numerical linear algebra is left out: eigendecompositions, SVD, pivoted QR, pseudo-inverses, Cholesky, twirling superoperators, Kronecker products and the Jacobian-Gramian (DDD) computations. Their correctness is analytic and floating-point. They appear only as oracle outputs: a spectrum, a count of surviving new directions, or a pseudo-inverse trace.
- The low-rank update engine's updated rank is taken as the old rank plus the surviving columns. Whether its spectrum matches a direct diagonalisation is not modelled.
- Model and simulator calls are left out: `product`, `dproduct`, `bulk_dproduct`, `randomize_with_unitary`, `_remove_spam_vectors` and `test_germ_set_infl`. A randomised model is a record of its source index and seed. The completeness test of one model is a pass/fail oracle. A SPAM-stripped model is its three counts.
- MPI work distribution, `Allreduce`, `allreduce` and `Bcast` exist only for concurrency. The greedy loop is modelled for a single worker.
- The GRASP search, the depth-first search, the older breadth-first search, the `find_germs` driver and `compute_germ_set_score` call modules that are not part of this model. `pygsti/algorithms/grasp.py` and `pygsti/algorithms/scoring.py` are among them.
- The integer-slack local search loop is left out (the neighbour iteration, slack acceptance and `max_iter`). Only its validation, forced indices, scoring guard and neighbour generation are modelled.
- The optional pretest of `find_germs_breadthfirst_rev1` is not wired into `GreedySelection.FindGermsGreedy`. Its decision is `ModelList.TestGermsListCompleteness`.
- Saving and loading the compact-EVD cache (`np.savez`, `np.load`) is file I/O and is left out. So is the ValueError raised when saving with more than one model.
- Printing, progress logging, verbosity and the dtype print are left out.
- `compute_composite_germ_set_score` can compute the Gram data or `num_nongauge_params` from a model, and raises when neither is given. Those paths need model calls and are left out. The model starts from the sorted spectrum.
- The element size `float_type(0).itemsize` is a parameter, and so is the standard gate-name table.
- Python's `int` and numpy `int64` are unbounded integers, so numpy overflow in the memory estimates is not modelled.
- `pygsti/baseobjs/qubitgraph.py` is not part of this model. `QubitGraphs` states only the behaviour the processor spec relies on: node list, edge list, direct connection, sub-graph and relabelling. The graph built for a named geometry is a parameter.
- Qubit labels are integers only. The source also allows strings, but sorting in `'all-combinations'` needs an order.
- Converting a plain tuple to a `Label` in `is_available` is left out. A label is a gate name and an optional target tuple.
- The `tuple_or_function` assertion cannot fail, because the form is a three-valued datatype. `'auto'` behaves like `'tuple'`, except that a user function is returned as it is, in function form (`pygsti/processors/processorspec.py:308`).
- The `type(num_qubits) is int` assertion is left out, because the argument is typed.
- Symplectic representations, `aux_info`, `compiled_from`, serialisation, the `lru_cache` gate-relation methods and `idle_gate_names` are left out. They need numpy matrix comparisons or serialisers that are not shown.
- Availability.GateFits: states only that a kept gate fits and has an accepted arrangement. The converse is stated by `Availability.AnyAvailable` and `Availability.GatenamesAgreeWithGatelabels`.
- CompositeScoring.ComposeScore: the penalty arithmetic is exact on reals, not IEEE doubles.

## Findings

| source | as written | input that shows it | evidently intended | confidence | as-written member | corrected member |
|---|---|---|---|---|---|---|
| pygsti/algorithms/germselection.py:3330-3345 | single-Jac mode builds the starting Gram matrix from `germs_list[i]` for `i in range(len(goodGerms))`, the first germs of the pool | pool `[GxGy, Gx]` with `force="singletons"`: `goodGerms == [Gx]`, but germ 0 (`GxGy`) is summed | sum the selected germs (weight 1), as all-Jac and compactEVD do | high; not executed | GramInit.SingleJacStartsFromWrongGerms | GramInit.ModesAgreeOnStart |
| pygsti/processors/processorspec.py:392-419 | `available_gatenames` and `available_gatelabels` call the resolved availability, which is the string `'*'` for `'*'`/`'arbitrary'` entries | one qubit, gate factory `Gfactory` with availability `'*'`, `available_gatenames((0,))` raises TypeError | treat `'*'` as available everywhere, as `is_available` does | high; not executed | Availability.WildcardBreaksQueries | Availability.WildcardGatesAreListed |
| pygsti/algorithms/germselection.py:620 | `sortedEigenvals[-num_nongauge_params:]` with `num_nongauge_params == 0` is the whole spectrum | spectrum `[1.0]`, `num_nongauge_params = 0`, always-passing score: `N_AC = 1` | observe no eigenvalue, so `N_AC <= num_nongauge_params` | medium; not executed | CompositeScoring.NoNonGaugeParamsObservesEverything | CompositeScoring.AmplifiedCountIsLargest |
| pygsti/algorithms/germselection.py:623-624 | with `init_n == 0` the first window `observableEigenvals[-0:]` is the whole list; the greedy loop feeds a winner's `N_AC = 0` back as `init_n` | spectrum `[1.0, 2.0]`, score = window length, threshold 1.5: `N_AC = 0` although the top eigenvalue alone passes | the top-0 window is empty, so the scan continues to `N_AC = 1` | medium; not executed | CompositeScoring.InitZeroScoresWholeSpectrum | CompositeScoring.AmplifiedCountIsLargest |
| pygsti/processors/processorspec.py:313-315 | the function form of `'all-combinations'` accepts a tuple when it is inside the labels and sorted; the tuple form lists the `itertools.combinations` of the labels, which keep the labels' own order | qubit labels `[1, 0]`: the tuple form lists `(1, 0)`, which the function form rejects, so `is_available` rejects a label `primitive_op_labels` lists | the function form accepts exactly the tuples the tuple form lists, i.e. sub-sequences of the labels in their order | medium; not executed | Availability.UnsortedLabelsSplitCombinations | Availability.InOrderTestMatchesCombinations |

`Availability.Resolve` keeps the source's sorted-subset test for `'all-combinations'`, so that the queries built on it behave as written; the in-order test of the last row is stated beside it.

=== FILE: availability.dfy ===
/** Availability queries of `QubitProcessorSpec`: resolving an availability
    entry into a list of targets or a test function, and the queries built
    on it (`is_available`, `available_gatenames`, `available_gatelabels`,
    `primitive_op_labels`). */
module Availability {
  import opened Outcomes
  import opened Seqs
  import opened Combinatorics
  import opened QubitGraphs
  import opened ProcessorSpecs

  /** The `tuple_or_function` argument. */
  datatype Form = TupleForm | FunctionForm | AutoForm

  /** A test function: `None` stands for a label without targets; a call
      may raise. */
  type TargetTest = Option<seq<int>> -> Result<bool>

  /** A resolved availability: the available targets, a test function, or
      the `'*'` signal (the gate factory decides). */
  datatype Resolved = Targets(targets: seq<Option<seq<int>>>) | Test(test: TargetTest) | Wildcard

  /** Every element of `t` is one of `labels` (`set(t).issubset(labels)`). */
  predicate Within(t: seq<int>, labels: seq<int>) {
    forall e :: e in t ==> e in labels
  }

  function Somes(ts: seq<seq<int>>): (r: seq<Option<seq<int>>>)
    ensures |r| == |ts|
    ensures forall t :: Some(t) in r <==> t in ts
    ensures None !in r
  {
    var r := seq(|ts|, i requires 0 <= i < |ts| => Some(ts[i]));
    assert forall t :: t in ts ==> Some(t) in r by {
      forall t | t in ts ensures Some(t) in r {
        var i :| 0 <= i < |ts| && ts[i] == t;
        assert r[i] == Some(t);
      }
    }
    r
  }

  /** A user-supplied boolean function. */
  function UserTest(p: Option<seq<int>> -> bool): TargetTest {
    (t: Option<seq<int>>) => Success(p(t))
  }

  /** A user function applied to a target tuple. */
  function Accepts(p: Option<seq<int>> -> bool): seq<int> -> bool {
    (t: seq<int>) => p(Some(t))
  }

  /** The function form of `'all-combinations'`: within the labels and in
      sorted order. `set(None)` raises TypeError. */
  function CombinationsTest(labels: seq<int>): TargetTest {
    (t: Option<seq<int>>) => if t.None? then Failure(TypeError) else Success(Within(t.value, labels) && IsSorted(t.value))
  }

  /** The function form of `'all-permutations'`: within the labels. */
  function PermutationsTest(labels: seq<int>): TargetTest {
    (t: Option<seq<int>>) => if t.None? then Failure(TypeError) else Success(Within(t.value, labels))
  }

  /** The function form of `'all-edges'`: any single label, a directly
      connected pair, NotImplementedError for other lengths, and TypeError
      for `len(None)`. */
  function EdgesTest(graph: QubitGraph): TargetTest {
    (t: Option<seq<int>>) => if t.None? then Failure(TypeError)
         else if |t.value| == 1 then Success(true)
         else if |t.value| == 2 then Success(IsDirectlyConnected(graph, t.value[0], t.value[1]))
         else Failure(NotImplementedError)
  }

  /** The function form of an explicit list: membership. */
  function ListTest(targets: seq<Option<seq<int>>>): TargetTest {
    (t: Option<seq<int>>) => Success(t in targets)
  }

  /** The `(i,)` singletons of the qubit labels. */
  function Singletons(labels: seq<int>): (r: seq<seq<int>>)
    ensures forall t :: t in r <==> |t| == 1 && t[0] in labels
    ensures |r| == |labels| && forall i :: 0 <= i < |labels| ==> r[i] == [labels[i]]
  {
    var r := seq(|labels|, i requires 0 <= i < |labels| => [labels[i]]);
    assert forall t :: |t| == 1 && t[0] in labels ==> t in r by {
      forall t | |t| == 1 && t[0] in labels ensures t in r {
        var i :| 0 <= i < |labels| && labels[i] == t[0];
        assert r[i] == t;
      }
    }
    r
  }

  /** `edges(double_for_undirected=True)` as target pairs. */
  function EdgePairs(graph: QubitGraph): (r: seq<seq<int>>)
    ensures forall t :: t in r <==> |t| == 2 && (t[0], t[1]) in EdgeList(graph)
  {
    var es := EdgeList(graph);
    var r := seq(|es|, i requires 0 <= i < |es| => [es[i].0, es[i].1]);
    assert forall t :: |t| == 2 && (t[0], t[1]) in es ==> t in r by {
      forall t | |t| == 2 && (t[0], t[1]) in es ensures t in r {
        var i :| 0 <= i < |es| && es[i] == (t[0], t[1]);
        assert r[i] == t;
      }
    }
    r
  }

  /** `_resolve_availability(entry, nq, tuple_or_function)`. */
  function Resolve(s: Spec, entry: AvailEntry, nq: int, form: Form): (r: Result<Resolved>)
    ensures form == FunctionForm && r.Success? ==> !r.value.Targets?
    ensures form != FunctionForm && r.Success? ==> !r.value.Test? || entry.Predicate?
    ensures r.Success? <==>
              match entry
              case Predicate(_) => form == TupleForm ==> nq >= 0
              case Listed(_) => true
              case Named(name) =>
                if name == "all-combinations" || name == "all-permutations" then form == FunctionForm || nq >= 0
                else if name == "all-edges" then nq == 1 || nq == 2
                else name == "arbitrary" || name == "*"
    ensures r == Success(Wildcard) <==> entry.Named? && (entry.name == "*" || entry.name == "arbitrary")
    ensures entry == Named("all-edges") && nq != 1 && nq != 2 ==> r == Failure(AssertionError)
    ensures r.Failure? && entry != Named("all-edges") ==> r.error == ValueError
    ensures entry.Listed? && form != FunctionForm ==> r == Success(Targets(entry.targets))
  {
    match entry
    case Predicate(p) =>
      if form == TupleForm then
        if nq < 0 then Failure(ValueError)
        else Success(Targets(Somes(Filter(Perms(s.labels, nq), Accepts(p)))))
      else Success(Test(UserTest(p)))
    case Listed(targets) =>
      if form == FunctionForm then Success(Test(ListTest(targets))) else Success(Targets(targets))
    case Named(name) =>
      if name == "all-combinations" then
        if form == FunctionForm then Success(Test(CombinationsTest(s.labels)))
        else if nq < 0 then Failure(ValueError)
        else Success(Targets(Somes(Combs(s.labels, nq))))
      else if name == "all-permutations" then
        if form == FunctionForm then Success(Test(PermutationsTest(s.labels)))
        else if nq < 0 then Failure(ValueError)
        else Success(Targets(Somes(Perms(s.labels, nq))))
      else if name == "all-edges" then
        if nq != 1 && nq != 2 then Failure(AssertionError)
        else if form == FunctionForm then Success(Test(EdgesTest(s.graph)))
        else if nq == 1 then Success(Targets(Somes(Singletons(s.labels))))
        else Success(Targets(Somes(EdgePairs(s.graph))))
      else if name == "arbitrary" || name == "*" then Success(Wildcard)
      else Failure(ValueError)
  }

  /** The entry `resolved_availability` looks up: unlisted gates are
      `'all-edges'`. */
  function EntryOf(s: Spec, g: string): AvailEntry {
    if g in s.availability then s.availability[g] else Named("all-edges")
  }

  /** `resolved_availability(g, form)`. */
  function ResolvedAvailability(s: Spec, g: string, form: Form): (r: Result<Resolved>)
    ensures g !in s.unitaries ==> r == Failure(KeyError)
    ensures GateNumQubits(s, g).Success? ==> r == Resolve(s, EntryOf(s, g), GateNumQubits(s, g).value, form)
  {
    var nq :- GateNumQubits(s, g);
    Resolve(s, EntryOf(s, g), nq, form)
  }

  /** How `available_gatenames` and `available_gatelabels` treat the `'*'`
      signal: as written they call it, which raises TypeError; the intended
      reading, the one `is_available` implements, is "available". */
  datatype WildcardHandling = AsWritten | Intended

  /** Calling a resolved function-form availability on a target. */
  function Call(fn: Resolved, t: Option<seq<int>>, h: WildcardHandling): (r: Result<bool>)
    ensures fn.Wildcard? ==> r == (if h == AsWritten then Failure(TypeError) else Success(true))
  {
    match fn
    case Test(f) => f(t)
    case Wildcard => if h == AsWritten then Failure(TypeError) else Success(true)
    case Targets(_) => Failure(TypeError)
  }

  /** `is_available(Label(g, sslbls))`. */
  function IsAvailable(s: Spec, g: string, sslbls: Option<seq<int>>): (r: Result<bool>)
    ensures ResolvedAvailability(s, g, FunctionForm) == Success(Wildcard) ==> r == Success(true)
    ensures ResolvedAvailability(s, g, FunctionForm).Failure? ==> r.Failure?
  {
    var fn :- ResolvedAvailability(s, g, FunctionForm);
    if fn.Wildcard? then Success(true) else Call(fn, sslbls, Intended)
  }

  /** Python `any(fn(p) for p in perms)`: stops at the first true or the
      first exception. */
  function AnyAvailable(fn: Resolved, perms: seq<seq<int>>, h: WildcardHandling): (r: Result<bool>)
    ensures r == Success(true) ==> exists i :: 0 <= i < |perms| && Call(fn, Some(perms[i]), h) == Success(true)
    ensures (forall p :: p in perms ==> Call(fn, Some(p), h).Success?) ==>
              (r == Success(true) <==> exists i :: 0 <= i < |perms| && Call(fn, Some(perms[i]), h) == Success(true))
    ensures (forall p :: p in perms ==> Call(fn, Some(p), h).Success?) ==> r.Success?
  {
    if |perms| == 0 then Success(false)
    else
      var b :- Call(fn, Some(perms[0]), h);
      if b then Success(true)
      else
        var rest := AnyAvailable(fn, perms[1..], h);
        assert forall i :: 1 <= i < |perms| ==> perms[1..][i - 1] == perms[i];
        rest
  }

  /** The targets among `perms` that `fn` accepts, stopping at the first
      exception. */
  function FilterAvailable(fn: Resolved, perms: seq<seq<int>>, h: WildcardHandling): (r: Result<seq<seq<int>>>)
    ensures r.Success? <==> forall p :: p in perms ==> Call(fn, Some(p), h).Success?
    ensures r.Success? ==> forall p :: p in r.value <==> p in perms && Call(fn, Some(p), h) == Success(true)
    ensures r.Success? ==> IsSubseq(r.value, perms)
    ensures r.Failure? ==> exists p :: p in perms && Call(fn, Some(p), h) == Failure(r.error)
  {
    if |perms| == 0 then Success([])
    else
      var b :- Call(fn, Some(perms[0]), h);
      assert forall p :: p in perms <==> p == perms[0] || p in perms[1..];
      var rest :- FilterAvailable(fn, perms[1..], h);
      if b then
        SubseqCons(perms[0], rest, perms[1..]);
        Success([perms[0]] + rest)
      else
        SubseqSkip(perms[0], rest, perms[1..]);
        Success(rest)
  }

  /** A gate label produced by `primitive_op_labels`: a gate on targets
      (`None` meaning all qubits), or the gate name with the `'*'` signal. */
  datatype OpLabel = OpLabel(name: string, sslbls: Option<seq<int>>) | WildcardLabel(name: string)

  /** The target tuple of a gate label on explicit targets. */
  function TupleOf(l: OpLabel): seq<int> {
    if l.OpLabel? && l.sslbls.Some? then l.sslbls.value else []
  }

  /** The target tuples of a list of gate labels, in order. */
  function Tuples(ls: seq<OpLabel>): (r: seq<seq<int>>)
    ensures |r| == |ls| && forall i :: 0 <= i < |ls| ==> r[i] == TupleOf(ls[i])
  {
    seq(|ls|, i requires 0 <= i < |ls| => TupleOf(ls[i]))
  }

  /** `available_gatelabels(g, sslbls)`. */
  function AvailableGatelabels(s: Spec, g: string, sslbls: seq<int>, h: WildcardHandling): (r: Result<seq<OpLabel>>)
    ensures g !in s.unitaries ==> r == Failure(KeyError)
    ensures r.Success? ==> GateNumQubits(s, g).Success? && ResolvedAvailability(s, g, FunctionForm).Success?
    ensures r.Success? ==> forall l :: l in r.value ==> l.OpLabel? && l.name == g && l.sslbls.Some?
    ensures r.Success? ==> forall p ::
              OpLabel(g, Some(p)) in r.value <==>
                && 0 <= GateNumQubits(s, g).value <= |sslbls|
                && p in Perms(sslbls, GateNumQubits(s, g).value)
                && Call(ResolvedAvailability(s, g, FunctionForm).value, Some(p), h) == Success(true)
    ensures r.Success? && 0 <= GateNumQubits(s, g).value <= |sslbls| ==>
              IsSubseq(Tuples(r.value), Perms(sslbls, GateNumQubits(s, g).value))
  {
    var nq :- GateNumQubits(s, g);
    var fn :- ResolvedAvailability(s, g, FunctionForm);
    if nq > |sslbls| then Success([])
    else if nq < 0 then Failure(ValueError)
    else
      var kept :- FilterAvailable(fn, Perms(sslbls, nq), h);
      var r := seq(|kept|, i requires 0 <= i < |kept| => OpLabel(g, Some(kept[i])));
      assert Tuples(r) == kept;
      assert forall p :: OpLabel(g, Some(p)) in r <==> p in kept by {
        forall p ensures OpLabel(g, Some(p)) in r <==> p in kept {
          if p in kept {
            var i :| 0 <= i < |kept| && kept[i] == p;
            assert r[i] == OpLabel(g, Some(p));
          }
        }
      }
      Success(r)
  }

  /** Does `available_gatenames` keep `g`? */
  function GateFits(s: Spec, g: string, sslbls: seq<int>, h: WildcardHandling): (r: Result<bool>)
    ensures r.Success? ==> GateNumQubits(s, g).Success? && ResolvedAvailability(s, g, FunctionForm).Success?
    ensures r == Success(true) ==>
              && 0 <= GateNumQubits(s, g).value <= |sslbls|
              && exists p :: p in Perms(sslbls, GateNumQubits(s, g).value)
                             && Call(ResolvedAvailability(s, g, FunctionForm).value, Some(p), h) == Success(true)
  {
    var nq :- GateNumQubits(s, g);
    var fn :- ResolvedAvailability(s, g, FunctionForm);
    if nq > |sslbls| then Success(false)
    else if nq < 0 then Failure(ValueError)
    else AnyAvailable(fn, Perms(sslbls, nq), h)
  }

  /** `available_gatenames(sslbls)`: the gates, in order, available on some
      arrangement of some of `sslbls`. */
  function AvailableGatenames(s: Spec, sslbls: seq<int>, h: WildcardHandling): (r: Result<seq<string>>)
    ensures r.Success? <==> forall g :: g in s.gateNames ==> GateFits(s, g, sslbls, h).Success?
    ensures r.Success? ==> forall g :: g in r.value <==> g in s.gateNames && GateFits(s, g, sslbls, h) == Success(true)
    ensures r.Success? ==> IsSubseq(r.value, s.gateNames)
  {
    GatenamesAmong(s, s.gateNames, sslbls, h)
  }

  function GatenamesAmong(s: Spec, names: seq<string>, sslbls: seq<int>, h: WildcardHandling): (r: Result<seq<string>>)
    ensures r.Success? <==> forall g :: g in names ==> GateFits(s, g, sslbls, h).Success?
    ensures r.Success? ==> forall g :: g in r.value <==> g in names && GateFits(s, g, sslbls, h) == Success(true)
    ensures r.Success? ==> IsSubseq(r.value, names)
  {
    if |names| == 0 then Success([])
    else
      var keep :- GateFits(s, names[0], sslbls, h);
      assert forall g :: g in names <==> g == names[0] || g in names[1..];
      var rest :- GatenamesAmong(s, names[1..], sslbls, h);
      if keep then
        SubseqCons(names[0], rest, names[1..]);
        Success([names[0]] + rest)
      else
        SubseqSkip(names[0], rest, names[1..]);
        Success(rest)
  }

  /** Gate names of the form `(...)` are implicit and have no labels. */
  predicate IsImplicit(g: string) {
    |g| >= 1 && g[0] == '(' && g[|g| - 1] == ')'
  }

  /** The labels `primitive_op_labels` emits for one gate. */
  function LabelsOf(g: string, fn: Resolved): (r: seq<OpLabel>)
    ensures fn.Targets? ==> forall t :: OpLabel(g, t) in r <==> t in fn.targets
    ensures fn.Targets? ==> |r| == |fn.targets| && forall i :: 0 <= i < |r| ==> r[i] == OpLabel(g, fn.targets[i])
    ensures WildcardLabel(g) in r <==> fn.Wildcard?
    ensures forall l :: l in r ==> l.name == g && (l.OpLabel? <==> fn.Targets?)
  {
    match fn
    case Targets(ts) =>
      var r := seq(|ts|, i requires 0 <= i < |ts| => OpLabel(g, ts[i]));
      assert forall t :: t in ts ==> OpLabel(g, t) in r by {
        forall t | t in ts ensures OpLabel(g, t) in r {
          var i :| 0 <= i < |ts| && ts[i] == t;
          assert r[i] == OpLabel(g, t);
        }
      }
      r
    case Wildcard => [WildcardLabel(g)]
    case Test(_) => []
  }

  /** `primitive_op_labels`: the tuple-form targets of every explicit gate,
      in gate order. */
  function PrimitiveOpLabels(s: Spec): (r: Result<seq<OpLabel>>)
    ensures r.Success? <==>
              forall g :: g in s.gateNames && !IsImplicit(g) ==> ResolvedAvailability(s, g, TupleForm).Success?
    ensures r.Success? ==> forall g, t :: OpLabel(g, t) in r.value <==>
              && g in s.gateNames && !IsImplicit(g)
              && ResolvedAvailability(s, g, TupleForm).value.Targets?
              && t in ResolvedAvailability(s, g, TupleForm).value.targets
    ensures r.Success? ==> forall g :: WildcardLabel(g) in r.value <==>
              && g in s.gateNames && !IsImplicit(g)
              && ResolvedAvailability(s, g, TupleForm).value.Wildcard?
    ensures r.Success? ==> InGateOrder(s.gateNames, r.value)
  {
    var r :- LabelsAmong(s, s.gateNames);
    LabelsAmongWildcards(s, s.gateNames);
    LabelsAmongInOrder(s, s.gateNames);
    Success(r)
  }

  function LabelsAmong(s: Spec, names: seq<string>): (r: Result<seq<OpLabel>>)
    ensures r.Success? <==>
              forall g :: g in names && !IsImplicit(g) ==> ResolvedAvailability(s, g, TupleForm).Success?
    ensures r.Success? ==> forall g, t :: OpLabel(g, t) in r.value <==>
              && g in names && !IsImplicit(g)
              && ResolvedAvailability(s, g, TupleForm).value.Targets?
              && t in ResolvedAvailability(s, g, TupleForm).value.targets
  {
    if |names| == 0 then Success([])
    else
      assert forall g :: g in names <==> g == names[0] || g in names[1..];
      if IsImplicit(names[0]) then LabelsAmong(s, names[1..])
      else
        var fn :- ResolvedAvailability(s, names[0], TupleForm);
        var rest :- LabelsAmong(s, names[1..]);
        Success(LabelsOf(names[0], fn) + rest)
  }

  /** The `'*'` labels are those of the explicit gates whose availability is
      `'arbitrary'` or `'*'`. */
  lemma {:induction false} LabelsAmongWildcards(s: Spec, names: seq<string>)
    requires LabelsAmong(s, names).Success?
    ensures forall g :: WildcardLabel(g) in LabelsAmong(s, names).value <==>
              && g in names && !IsImplicit(g)
              && ResolvedAvailability(s, g, TupleForm).value.Wildcard?
    decreases |names|
  {
    if |names| > 0 {
      assert forall g :: g in names <==> g == names[0] || g in names[1..];
      LabelsAmongWildcards(s, names[1..]);
    }
  }

  /** Gate `x` occurs no later than gate `y` in `names`. */
  predicate GateBefore(names: seq<string>, x: string, y: string) {
    exists a, b :: 0 <= a <= b < |names| && names[a] == x && names[b] == y
  }

  /** Each label's gate occurs no later than the next labels' gates. */
  predicate InGateOrder(names: seq<string>, r: seq<OpLabel>) {
    forall i, j :: 0 <= i < j < |r| ==> GateBefore(names, r[i].name, r[j].name)
  }

  /** The labels come in gate order: a label never precedes one of an
      earlier gate. */
  lemma {:induction false} LabelsAmongInOrder(s: Spec, names: seq<string>)
    requires LabelsAmong(s, names).Success?
    ensures forall l :: l in LabelsAmong(s, names).value ==> l.name in names
    ensures InGateOrder(names, LabelsAmong(s, names).value)
    decreases |names|
  {
    if |names| > 0 {
      LabelsAmongInOrder(s, names[1..]);
      var rest := LabelsAmong(s, names[1..]).value;
      if IsImplicit(names[0]) {
        LaterNamesInOrder(names, [], rest);
        assert [] + rest == rest;
      } else {
        var fn := ResolvedAvailability(s, names[0], TupleForm).value;
        LaterNamesInOrder(names, LabelsOf(names[0], fn), rest);
      }
    }
  }

  /** Labels of the first gate followed by labels in gate order of the
      remaining gates are in gate order. */
  lemma LaterNamesInOrder(names: seq<string>, head: seq<OpLabel>, rest: seq<OpLabel>)
    requires |names| > 0
    requires forall l :: l in head ==> l.name == names[0]
    requires forall l :: l in rest ==> l.name in names[1..]
    requires InGateOrder(names[1..], rest)
    ensures forall l :: l in head + rest ==> l.name in names
    ensures InGateOrder(names, head + rest)
  {
    var r := head + rest;
    forall i, j | 0 <= i < j < |r| ensures GateBefore(names, r[i].name, r[j].name) {
      if i >= |head| {
        assert r[i] == rest[i - |head|] && r[j] == rest[j - |head|];
        assert GateBefore(names[1..], r[i].name, r[j].name);
        var a, b :| 0 <= a <= b < |names[1..]| && names[1..][a] == r[i].name && names[1..][b] == r[j].name;
        assert names[a + 1] == r[i].name && names[b + 1] == r[j].name;
      } else {
        assert r[i] in head;
        if j < |head| {
          assert r[j] in head;
          assert names[0] == r[i].name && names[0] == r[j].name;
        } else {
          assert r[j] == rest[j - |head|];
          assert r[j].name in names[1..];
          var b :| 0 <= b < |names[1..]| && names[1..][b] == r[j].name;
          assert names[0] == r[i].name && names[b + 1] == r[j].name;
        }
      }
    }
    forall l | l in r ensures l.name in names {
      if l in rest { assert l.name in names[1..]; }
    }
  }

  /** Every target the tuple form lists passes the function form's test,
      provided, for `'all-combinations'`, the qubit labels are sorted. */
  lemma TargetsPassTest(s: Spec, entry: AvailEntry, nq: int, t: Option<seq<int>>)
    requires entry == Named("all-combinations") ==> IsSorted(s.labels)
    requires Resolve(s, entry, nq, TupleForm).Success? && Resolve(s, entry, nq, TupleForm).value.Targets?
    requires t in Resolve(s, entry, nq, TupleForm).value.targets
    ensures Resolve(s, entry, nq, FunctionForm).Success?
    ensures Call(Resolve(s, entry, nq, FunctionForm).value, t, Intended) == Success(true)
  {
    match entry
    case Predicate(p) =>
      assert Some(t.value) in Somes(Filter(Perms(s.labels, nq), Accepts(p)));
    case Listed(_) =>
    case Named(name) =>
      if name == "all-combinations" {
        assert Some(t.value) in Somes(Combs(s.labels, nq));
        CombsMembers(s.labels, nq, t.value);
        SubseqMembers(t.value, s.labels);
        SubseqOfSorted(t.value, s.labels);
      } else if name == "all-permutations" {
        assert Some(t.value) in Somes(Perms(s.labels, nq));
        PermsWithin(s.labels, nq, t.value);
      } else if name == "all-edges" {
        if nq == 1 {
          assert Some(t.value) in Somes(Singletons(s.labels));
        } else {
          assert Some(t.value) in Somes(EdgePairs(s.graph));
        }
      }
  }

  /** Conversely, a duplicate-free arrangement of `nq` qubit labels that the
      function form accepts is one of the tuple form's targets. */
  lemma TestPassImpliesTarget(s: Spec, entry: AvailEntry, nq: int, p: seq<int>)
    requires |p| == nq && Distinct(p) && Within(p, s.labels)
    requires entry == Named("all-combinations") ==> IsSorted(s.labels)
    requires Resolve(s, entry, nq, TupleForm).Success? && Resolve(s, entry, nq, TupleForm).value.Targets?
    requires Resolve(s, entry, nq, FunctionForm).Success?
    requires Call(Resolve(s, entry, nq, FunctionForm).value, Some(p), Intended) == Success(true)
    ensures Some(p) in Resolve(s, entry, nq, TupleForm).value.targets
  {
    var k: nat := |p|;
    match entry
    case Predicate(test) =>
      assert Resolve(s, entry, nq, FunctionForm) == Success(Test(UserTest(test)));
      assert test(Some(p));
      InPerms(s.labels, k, p);
      assert p in Filter(Perms(s.labels, k), Accepts(test));
    case Listed(_) =>
    case Named(name) =>
      if name == "all-combinations" {
        assert Resolve(s, entry, nq, FunctionForm) == Success(Test(CombinationsTest(s.labels)));
        InCombs(s.labels, k, p);
      } else if name == "all-permutations" {
        InPerms(s.labels, k, p);
      } else if name == "all-edges" && nq == 1 {
        InSingletons(s.labels, p);
        assert Some(p) in Somes(Singletons(s.labels));
      }
  }

  lemma InPerms(labels: seq<int>, k: nat, p: seq<int>)
    requires |p| == k && Distinct(p) && Within(p, labels)
    ensures p in Perms(labels, k)
  {
    assert forall e :: e in p ==> e in labels;
    PermsComplete(labels, k, p);
  }

  lemma InSingletons(labels: seq<int>, p: seq<int>)
    requires |p| == 1 && Within(p, labels)
    ensures p in Singletons(labels)
  {
    assert p[0] in p;
    var i :| 0 <= i < |labels| && labels[i] == p[0];
    assert Singletons(labels)[i] == p;
  }

  lemma InCombs(labels: seq<int>, k: nat, p: seq<int>)
    requires IsSorted(labels)
    requires |p| == k && Distinct(p) && Within(p, labels) && IsSorted(p)
    ensures p in Combs(labels, k)
  {
    assert StrictlyIncreasing(p);
    IncreasingSubseqOfSorted(p, labels);
    CombsMembers(labels, k, p);
  }

  /** With qubit labels out of order, the two forms of `'all-combinations'`
      disagree: the tuple form lists `(1, 0)` (combinations keep list order)
      while the function form rejects it as unsorted. */
  lemma UnsortedLabelsSplitCombinations(s: Spec)
    requires s.labels == [1, 0]
    ensures Some([1, 0]) in Resolve(s, Named("all-combinations"), 2, TupleForm).value.targets
    ensures Call(Resolve(s, Named("all-combinations"), 2, FunctionForm).value, Some([1, 0]), Intended)
         == Success(false)
  {
    CombsMembers([1, 0], 2, [1, 0]);
    SubseqRefl([1, 0]);
  }

  /** The `'all-combinations'` test that matches the tuple form: a
      sub-sequence of the qubit labels, in their order. */
  function CombinationsTestInOrder(labels: seq<int>): TargetTest {
    (t: Option<seq<int>>) => if t.None? then Failure(TypeError) else Success(IsSubseq(t.value, labels))
  }

  /** For ANY qubit labels, the in-order test accepts an `nq`-tuple exactly
      when the tuple form lists it. */
  lemma InOrderTestMatchesCombinations(labels: seq<int>, nq: nat, p: seq<int>)
    requires |p| == nq
    ensures CombinationsTestInOrder(labels)(Some(p)) == Success(true) <==> Some(p) in Somes(Combs(labels, nq))
  {
    CombsMembers(labels, nq, p);
  }

  /** With strictly increasing labels the in-order test agrees with the
      sorted-subset test on every tuple without repeats. */
  lemma InOrderTestAgreesWhenSorted(labels: seq<int>, p: seq<int>)
    requires StrictlyIncreasing(labels) && Distinct(p)
    ensures CombinationsTestInOrder(labels)(Some(p)) == CombinationsTest(labels)(Some(p))
  {
    SubseqOfIncreasing(p, labels);
    if IsSorted(p) {
      assert StrictlyIncreasing(p);
    }
  }

  /** Some gate resolves its availability with `'all-combinations'`. */
  predicate UsesCombinations(s: Spec) {
    exists g :: g in s.gateNames && EntryOf(s, g) == Named("all-combinations")
  }

  /** Every label `primitive_op_labels` lists is available according to
      `is_available`. */
  lemma PrimitiveLabelsAreAvailable(s: Spec)
    requires UsesCombinations(s) ==> IsSorted(s.labels)
    requires PrimitiveOpLabels(s).Success?
    ensures forall g, t :: OpLabel(g, t) in PrimitiveOpLabels(s).value ==> IsAvailable(s, g, t) == Success(true)
  {
    forall g, t | OpLabel(g, t) in PrimitiveOpLabels(s).value
      ensures IsAvailable(s, g, t) == Success(true)
    {
      var nq := GateNumQubits(s, g).value;
      TargetsPassTest(s, EntryOf(s, g), nq, t);
    }
  }

  /** With `'*'` read as intended, calling a function-form availability on
      an arrangement of the right size never raises. */
  lemma CallSucceeds(s: Spec, entry: AvailEntry, nq: int, p: seq<int>)
    requires Resolve(s, entry, nq, FunctionForm).Success?
    requires |p| == nq
    ensures Call(Resolve(s, entry, nq, FunctionForm).value, Some(p), Intended).Success?
  {
  }

  /** `available_gatelabels` lists exactly the arrangements of the given
      labels that `is_available` accepts. */
  lemma GatelabelsAgreeWithIsAvailable(s: Spec, g: string, sslbls: seq<int>, p: seq<int>)
    requires AvailableGatelabels(s, g, sslbls, Intended).Success?
    ensures OpLabel(g, Some(p)) in AvailableGatelabels(s, g, sslbls, Intended).value <==>
              && 0 <= GateNumQubits(s, g).value <= |sslbls|
              && p in Perms(sslbls, GateNumQubits(s, g).value)
              && IsAvailable(s, g, Some(p)) == Success(true)
  {
    var fn := ResolvedAvailability(s, g, FunctionForm).value;
    assert Call(fn, Some(p), Intended) == IsAvailable(s, g, Some(p));
  }

  /** A gate is among `available_gatenames(sslbls)` exactly when
      `available_gatelabels(g, sslbls)` is non-empty. */
  lemma GatenamesAgreeWithGatelabels(s: Spec, sslbls: seq<int>, g: string)
    requires AvailableGatenames(s, sslbls, Intended).Success?
    requires g in s.gateNames
    ensures AvailableGatelabels(s, g, sslbls, Intended).Success?
    ensures g in AvailableGatenames(s, sslbls, Intended).value <==>
              |AvailableGatelabels(s, g, sslbls, Intended).value| > 0
  {
    assert GateFits(s, g, sslbls, Intended).Success?;
    var nq := GateNumQubits(s, g).value;
    var fn := ResolvedAvailability(s, g, FunctionForm).value;
    if 0 <= nq <= |sslbls| {
      forall p | p in Perms(sslbls, nq) ensures Call(fn, Some(p), Intended).Success? {
        PermsLength(sslbls, nq, p);
        CallSucceeds(s, EntryOf(s, g), nq, p);
      }
      var labels := AvailableGatelabels(s, g, sslbls, Intended).value;
      if g in AvailableGatenames(s, sslbls, Intended).value {
        var p :| p in Perms(sslbls, nq) && Call(fn, Some(p), Intended) == Success(true);
        assert OpLabel(g, Some(p)) in labels;
      }
      if |labels| > 0 {
        assert labels[0] in labels;
        var p := labels[0].sslbls.value;
        assert OpLabel(g, Some(p)) in labels;
        var i :| 0 <= i < |Perms(sslbls, nq)| && Perms(sslbls, nq)[i] == p;
        assert GateFits(s, g, sslbls, Intended) == Success(true);
      }
    }
  }

  /** A gate whose availability is `'*'` or `'arbitrary'` and that fits in
      `sslbls`: as written, `available_gatenames` and
      `available_gatelabels` raise TypeError (they call the `'*'` signal),
      although `is_available` accepts every arrangement. */
  lemma WildcardBreaksQueries(s: Spec, g: string, sslbls: seq<int>, p: seq<int>)
    requires g in s.gateNames
    requires EntryOf(s, g) == Named("*") || EntryOf(s, g) == Named("arbitrary")
    requires GateNumQubits(s, g).Success? && 0 <= GateNumQubits(s, g).value <= |sslbls|
    ensures AvailableGatelabels(s, g, sslbls, AsWritten) == Failure(TypeError)
    ensures GateFits(s, g, sslbls, AsWritten) == Failure(TypeError)
    ensures AvailableGatenames(s, sslbls, AsWritten).Failure?
    ensures IsAvailable(s, g, Some(p)) == Success(true)
  {
    PermsNonEmpty(sslbls, GateNumQubits(s, g).value);
  }

  /** Read as intended, such a gate is available on every arrangement, and
      `available_gatenames` keeps it. */
  lemma WildcardGatesAreListed(s: Spec, g: string, sslbls: seq<int>)
    requires g in s.gateNames
    requires EntryOf(s, g) == Named("*") || EntryOf(s, g) == Named("arbitrary")
    requires GateNumQubits(s, g).Success? && 0 <= GateNumQubits(s, g).value <= |sslbls|
    ensures AvailableGatelabels(s, g, sslbls, Intended).Success?
    ensures forall p :: OpLabel(g, Some(p)) in AvailableGatelabels(s, g, sslbls, Intended).value <==>
              p in Perms(sslbls, GateNumQubits(s, g).value)
    ensures AvailableGatenames(s, sslbls, Intended).Success? ==> g in AvailableGatenames(s, sslbls, Intended).value
  {
    var nq := GateNumQubits(s, g).value;
    var perms := Perms(sslbls, nq);
    WildcardResolves(s, g);
    PermsNonEmpty(sslbls, nq);
    assert forall p :: p in perms ==> Call(Wildcard, Some(p), Intended) == Success(true);
    assert Call(Wildcard, Some(perms[0]), Intended) == Success(true);
    assert AnyAvailable(Wildcard, perms, Intended) == Success(true);
    assert GateFits(s, g, sslbls, Intended) == Success(true);
    assert FilterAvailable(Wildcard, perms, Intended).Success?;
  }

  /** The function form of a `'*'` or `'arbitrary'` entry is the signal itself. */
  lemma WildcardResolves(s: Spec, g: string)
    requires EntryOf(s, g) == Named("*") || EntryOf(s, g) == Named("arbitrary")
    requires GateNumQubits(s, g).Success?
    ensures ResolvedAvailability(s, g, FunctionForm) == Success(Wildcard)
  {
  }

  /** A one-qubit processor with a single gate factory whose availability
      is `'*'`. */
  function WildcardSpec(): Spec {
    Spec(["Gfactory"], map["Gfactory" := Factory([2, 2])], EdgelessGraph([0]), [0], map["Gfactory" := Named("*")])
  }

  /** The constructor builds it from one qubit, the factory and the `'*'`
      availability. */
  lemma WildcardSpecIsConstructed()
    ensures Init(1, ["Gfactory"], Some(map["Gfactory" := Factory([2, 2])]), Some(map["Gfactory" := Named("*")]),
                 NoGeometry, None, map[]) == Success(WildcardSpec())
  {
    var r := Init(1, ["Gfactory"], Some(map["Gfactory" := Factory([2, 2])]), Some(map["Gfactory" := Named("*")]),
                  NoGeometry, None, map[]);
    assert GateAccepted("Gfactory", map["Gfactory" := Factory([2, 2])], map[], map["Gfactory" := Named("*")]);
    assert Range(1) == [0];
    assert r.Success?;
    assert r.value.unitaries == WildcardSpec().unitaries;
    assert r.value.availability == WildcardSpec().availability;
  }

  /** On it, `is_available` accepts the gate on qubit 0, but as written
      `available_gatenames((0,))` raises TypeError; read as intended it
      lists the gate. */
  lemma WildcardExample()
    ensures IsAvailable(WildcardSpec(), "Gfactory", Some([0])) == Success(true)
    ensures AvailableGatenames(WildcardSpec(), [0], AsWritten) == Failure(TypeError)
    ensures AvailableGatenames(WildcardSpec(), [0], Intended) == Success(["Gfactory"])
  {
    var s := WildcardSpec();
    PowerOfTwoDimension(1);
    assert Pow2(1) == 2;
    assert GateNumQubits(s, "Gfactory") == Success(1);
    WildcardBreaksQueries(s, "Gfactory", [0], [0]);
    WildcardGatesAreListed(s, "Gfactory", [0]);
    assert AvailableGatenames(s, [0], AsWritten) == GatenamesAmong(s, ["Gfactory"], [0], AsWritten);
    assert ResolvedAvailability(s, "Gfactory", FunctionForm) == Success(Wildcard);
    assert GateFits(s, "Gfactory", [0], Intended).Success?;
    assert AvailableGatenames(s, [0], Intended).Success?;
    var names := AvailableGatenames(s, [0], Intended).value;
    SubseqMembers(names, ["Gfactory"]);
    assert names[0] in names;
    assert names == ["Gfactory"];
  }
}

=== FILE: combinatorics.dfy ===
/** Python's `itertools.permutations` and `itertools.combinations`, in the
    order itertools yields them, with membership characterisations. */
module Combinatorics {
  import opened Seqs

  /** `xs` without its `i`-th element. */
  function Remove<T>(xs: seq<T>, i: nat): (r: seq<T>)
    requires i < |xs|
    ensures |r| == |xs| - 1
  {
    xs[..i] + xs[i + 1..]
  }

  /** Every sequence of `ps` with `x` in front. */
  function Prepend<T>(x: T, ps: seq<seq<T>>): (r: seq<seq<T>>)
    ensures |r| == |ps|
  {
    seq(|ps|, j requires 0 <= j < |ps| => [x] + ps[j])
  }

  lemma PrependMembers<T>(x: T, ps: seq<seq<T>>, s: seq<T>)
    ensures s in Prepend(x, ps) <==> |s| > 0 && s[0] == x && s[1..] in ps
  {
    if |s| > 0 && s[0] == x && s[1..] in ps {
      var j :| 0 <= j < |ps| && ps[j] == s[1..];
      assert Prepend(x, ps)[j] == s;
    }
  }

  /** `itertools.permutations(xs, k)`: ordered selections of `k` distinct
      positions, in lexicographic order of positions. */
  function Perms<T>(xs: seq<T>, k: nat): seq<seq<T>>
    decreases k, |xs| + 1
  {
    if k == 0 then [[]] else PermsFrom(xs, k, 0)
  }

  /** The permutations whose first element comes from position `i` or later. */
  function PermsFrom<T>(xs: seq<T>, k: nat, i: nat): seq<seq<T>>
    requires k >= 1 && i <= |xs|
    decreases k, |xs| - i
  {
    if i == |xs| then []
    else Prepend(xs[i], Perms(Remove(xs, i), k - 1)) + PermsFrom(xs, k, i + 1)
  }

  lemma {:induction false} PermsFromMembers<T>(xs: seq<T>, k: nat, i: nat, s: seq<T>)
    requires k >= 1 && i <= |xs|
    ensures s in PermsFrom(xs, k, i) <==>
              |s| > 0 && exists t :: i <= t < |xs| && s[0] == xs[t] && s[1..] in Perms(Remove(xs, t), k - 1)
    decreases |xs| - i
  {
    if i < |xs| {
      var head := Prepend(xs[i], Perms(Remove(xs, i), k - 1));
      var tail := PermsFrom(xs, k, i + 1);
      assert PermsFrom(xs, k, i) == head + tail;
      PermsFromMembers(xs, k, i + 1, s);
      PrependMembers(xs[i], Perms(Remove(xs, i), k - 1), s);
      if |s| > 0 && s[0] == xs[i] && s[1..] in Perms(Remove(xs, i), k - 1) {
        assert s in head;
      }
      if s in PermsFrom(xs, k, i) && s !in head {
        assert s in tail;
      }
    }
  }

  /** Removing one element of a duplicate-free list keeps the others. */
  lemma RemoveMembers<T>(xs: seq<T>, t: nat, e: T)
    requires Distinct(xs) && t < |xs|
    ensures Distinct(Remove(xs, t))
    ensures e in Remove(xs, t) <==> e in xs && e != xs[t]
  {
    var r := Remove(xs, t);
    forall a, b | 0 <= a < b < |r| ensures r[a] != r[b] {
      var a' := if a < t then a else a + 1;
      var b' := if b < t then b else b + 1;
      assert r[a] == xs[a'] && r[b] == xs[b'];
    }
    if e in xs && e != xs[t] {
      var j :| 0 <= j < |xs| && xs[j] == e;
      if j < t { assert r[j] == e; } else { assert r[j - 1] == e; }
    }
    if e in r {
      var j :| 0 <= j < |r| && r[j] == e;
      var j' := if j < t then j else j + 1;
      assert xs[j'] == e;
    }
  }

  /** Over a duplicate-free list, the permutations of length `k` are exactly
      the duplicate-free sequences of length `k` drawn from it. */
  lemma PermsMembers<T>(xs: seq<T>, k: nat, s: seq<T>)
    requires Distinct(xs)
    ensures s in Perms(xs, k) <==> |s| == k && Distinct(s) && forall e :: e in s ==> e in xs
  {
    if s in Perms(xs, k) {
      PermsSound(xs, k, s);
    }
    if |s| == k && Distinct(s) && (forall e :: e in s ==> e in xs) {
      PermsComplete(xs, k, s);
    }
  }

  lemma {:induction false} PermsSound<T>(xs: seq<T>, k: nat, s: seq<T>)
    requires Distinct(xs)
    requires s in Perms(xs, k)
    ensures |s| == k && Distinct(s) && forall e :: e in s ==> e in xs
    decreases k
  {
    if k > 0 {
      var t := PermsHead(xs, k, s);
      var rest := s[1..];
      RemoveMembers(xs, t, s[0]);
      PermsSound(Remove(xs, t), k - 1, rest);
      forall e | e in rest ensures e in xs && e != s[0] {
        RemoveMembers(xs, t, e);
      }
      assert s == [s[0]] + rest;
      ConsDistinct(s[0], rest);
    } else {
      assert s == [];
    }
  }

  /** A permutation starts with some element of `xs`, followed by a
      permutation of the rest. */
  lemma PermsHead<T>(xs: seq<T>, k: nat, s: seq<T>) returns (t: nat)
    requires k > 0 && s in Perms(xs, k)
    ensures |s| > 0 && t < |xs| && s[0] == xs[t] && s[1..] in Perms(Remove(xs, t), k - 1)
  {
    PermsFromMembers(xs, k, 0, s);
    t :| 0 <= t < |xs| && s[0] == xs[t] && s[1..] in Perms(Remove(xs, t), k - 1);
  }

  lemma ConsDistinct<T>(x: T, rest: seq<T>)
    requires Distinct(rest) && x !in rest
    ensures Distinct([x] + rest)
  {
    var s := [x] + rest;
    forall a, b | 0 <= a < b < |s| ensures s[a] != s[b] {
      assert s[b] == rest[b - 1];
      if a > 0 {
        assert s[a] == rest[a - 1];
      }
    }
  }

  /** Removing position `t` keeps every element different from `xs[t]`,
      over any list. */
  lemma RemoveKeeps<T>(xs: seq<T>, t: nat, e: T)
    requires t < |xs| && e in xs && e != xs[t]
    ensures e in Remove(xs, t)
  {
    var j :| 0 <= j < |xs| && xs[j] == e;
    if j < t { assert Remove(xs, t)[j] == e; } else { assert Remove(xs, t)[j - 1] == e; }
  }

  /** Every duplicate-free sequence of length `k` drawn from `xs` is among
      its permutations, whether or not `xs` repeats an element (itertools
      works on positions, so a repeated label only repeats tuples). */
  lemma {:induction false} PermsComplete<T>(xs: seq<T>, k: nat, s: seq<T>)
    requires |s| == k && Distinct(s) && forall e :: e in s ==> e in xs
    ensures s in Perms(xs, k)
    decreases k
  {
    if k > 0 {
      var x := s[0];
      assert x in s;
      var t :| 0 <= t < |xs| && xs[t] == x;
      forall e | e in s[1..] ensures e in Remove(xs, t) {
        var j :| 0 <= j < |s[1..]| && s[1..][j] == e;
        assert s[j + 1] == e && s[0] != s[j + 1];
        assert e in s;
        RemoveKeeps(xs, t, e);
      }
      assert Distinct(s[1..]) by {
        forall a, b | 0 <= a < b < |s[1..]| ensures s[1..][a] != s[1..][b] {
          assert s[1..][a] == s[a + 1] && s[1..][b] == s[b + 1];
        }
      }
      PermsComplete(Remove(xs, t), k - 1, s[1..]);
      PermsFromMembers(xs, k, 0, s);
    } else {
      assert s == [];
    }
  }

  /** Every permutation has length `k`, over any list. */
  lemma {:induction false} PermsLength<T>(xs: seq<T>, k: nat, s: seq<T>)
    requires s in Perms(xs, k)
    ensures |s| == k
    decreases k
  {
    if k > 0 {
      var t := PermsHead(xs, k, s);
      PermsLength(Remove(xs, t), k - 1, s[1..]);
    }
  }

  /** Every permutation draws its elements from `xs`, over any list. */
  lemma {:induction false} PermsWithin<T>(xs: seq<T>, k: nat, s: seq<T>)
    requires s in Perms(xs, k)
    ensures forall e :: e in s ==> e in xs
    decreases k
  {
    if k > 0 {
      var t := PermsHead(xs, k, s);
      PermsWithin(Remove(xs, t), k - 1, s[1..]);
      forall e | e in s ensures e in xs {
        if e != s[0] {
          assert e in s[1..];
          var j :| 0 <= j < |Remove(xs, t)| && Remove(xs, t)[j] == e;
          assert xs[if j < t then j else j + 1] == e;
        }
      }
    }
  }

  /** There is at least one permutation whenever `k` does not exceed the
      length of the list. */
  lemma {:induction false} PermsNonEmpty<T>(xs: seq<T>, k: nat)
    requires k <= |xs|
    ensures |Perms(xs, k)| > 0
    decreases k
  {
    if k > 0 {
      PermsNonEmpty(Remove(xs, 0), k - 1);
      assert |PermsFrom(xs, k, 0)| >= |Prepend(xs[0], Perms(Remove(xs, 0), k - 1))|;
    }
  }

  /** `itertools.combinations(xs, k)`: selections of `k` positions kept in
      list order, in lexicographic order of positions. */
  function Combs<T>(xs: seq<T>, k: nat): seq<seq<T>>
    decreases |xs|
  {
    if k == 0 then [[]]
    else if |xs| == 0 then []
    else Prepend(xs[0], Combs(xs[1..], k - 1)) + Combs(xs[1..], k)
  }

  /** The combinations of length `k` are exactly the sub-sequences of
      length `k`. */
  lemma {:induction false} CombsMembers<T>(xs: seq<T>, k: nat, s: seq<T>)
    ensures s in Combs(xs, k) <==> |s| == k && IsSubseq(s, xs)
    decreases |xs|
  {
    if k == 0 {
      assert s in Combs(xs, k) <==> s == [];
    } else if |xs| == 0 {
    } else {
      var head := Prepend(xs[0], Combs(xs[1..], k - 1));
      var tail := Combs(xs[1..], k);
      assert Combs(xs, k) == head + tail;
      assert s in head + tail <==> s in head || s in tail;
      PrependMembers(xs[0], Combs(xs[1..], k - 1), s);
      CombsMembers(xs[1..], k, s);
      if |s| > 0 {
        CombsMembers(xs[1..], k - 1, s[1..]);
        assert IsSubseq(s, xs) <==> (s[0] == xs[0] && IsSubseq(s[1..], xs[1..])) || IsSubseq(s, xs[1..]);
      }
    }
  }

  /** Strictly increasing: sorted with no repeats. */
  predicate StrictlyIncreasing(s: seq<int>) {
    forall i, j :: 0 <= i < j < |s| ==> s[i] < s[j]
  }

  /** Equal to its own sorted copy (`tuple(s) == tuple(sorted(s))`). */
  predicate IsSorted(s: seq<int>) {
    forall i, j :: 0 <= i < j < |s| ==> s[i] <= s[j]
  }

  /** A strictly increasing sequence whose elements all occur in a sorted
      list is a sub-sequence of it, repeats in the list notwithstanding. */
  lemma {:induction false} IncreasingSubseqOfSorted(s: seq<int>, xs: seq<int>)
    requires IsSorted(xs) && StrictlyIncreasing(s)
    requires forall e :: e in s ==> e in xs
    ensures IsSubseq(s, xs)
    decreases |xs|
  {
    if |s| > 0 {
      assert s[0] in s;
      var m0 :| 0 <= m0 < |xs| && xs[m0] == s[0];
      assert IsSorted(xs[1..]);
      if s[0] == xs[0] {
        forall e | e in s[1..] ensures e in xs[1..] {
          var j :| 0 <= j < |s[1..]| && s[1..][j] == e;
          assert s[j + 1] == e && s[0] < e;
          assert e in s;
          var m :| 0 <= m < |xs| && xs[m] == e;
          assert xs[1..][m - 1] == e;
        }
        assert StrictlyIncreasing(s[1..]);
        IncreasingSubseqOfSorted(s[1..], xs[1..]);
      } else {
        forall e | e in s ensures e in xs[1..] {
          var j :| 0 <= j < |s| && s[j] == e;
          assert s[0] <= e;
          var m :| 0 <= m < |xs| && xs[m] == e;
          assert m != 0;
          assert xs[1..][m - 1] == e;
        }
        IncreasingSubseqOfSorted(s, xs[1..]);
      }
    }
  }

  /** A sub-sequence of a sorted list is sorted. */
  lemma {:induction false} SubseqOfSorted(s: seq<int>, xs: seq<int>)
    requires IsSorted(xs) && IsSubseq(s, xs)
    ensures IsSorted(s)
    decreases |xs|
  {
    if |s| > 0 {
      assert IsSorted(xs[1..]);
      if s[0] == xs[0] && IsSubseq(s[1..], xs[1..]) {
        SubseqOfSorted(s[1..], xs[1..]);
        SubseqMembers(s[1..], xs[1..]);
        forall i, j | 0 <= i < j < |s| ensures s[i] <= s[j] {
          assert s[j] == s[1..][j - 1];
          if i > 0 {
            assert s[i] == s[1..][i - 1];
          } else {
            assert s[j] in xs[1..];
            var m :| 0 <= m < |xs[1..]| && xs[1..][m] == s[j];
            assert xs[m + 1] == s[j];
          }
        }
      } else {
        SubseqOfSorted(s, xs[1..]);
      }
    }
  }

  /** Within a strictly increasing list, the sub-sequences are exactly the
      strictly increasing sequences of its elements. */
  lemma {:induction false} SubseqOfIncreasing(s: seq<int>, xs: seq<int>)
    requires StrictlyIncreasing(xs)
    ensures IsSubseq(s, xs) <==> StrictlyIncreasing(s) && forall e :: e in s ==> e in xs
    decreases |xs|
  {
    if |s| > 0 && |xs| > 0 {
      assert StrictlyIncreasing(xs[1..]);
      SubseqOfIncreasing(s, xs[1..]);
      SubseqOfIncreasing(s[1..], xs[1..]);
      assert s[0] in s;
      if IsSubseq(s, xs) {
        SubseqMembers(s, xs);
        if s[0] == xs[0] && IsSubseq(s[1..], xs[1..]) {
          forall i, j | 0 <= i < j < |s| ensures s[i] < s[j] {
            assert s[j] in s[1..];
            if i > 0 {
              assert s[i] == s[1..][i - 1] && s[j] == s[1..][j - 1];
            } else {
              var m :| 0 <= m < |xs[1..]| && xs[1..][m] == s[j];
              assert xs[m + 1] == s[j];
            }
          }
        }
      } else if StrictlyIncreasing(s) && (forall e :: e in s ==> e in xs) {
        if s[0] == xs[0] {
          forall e | e in s[1..] ensures e in xs[1..] {
            var j :| 0 <= j < |s[1..]| && s[1..][j] == e;
            assert s[j + 1] == e && s[0] < e;
            assert e in s && e in xs;
            var m :| 0 <= m < |xs| && xs[m] == e;
            assert m != 0;
            assert xs[1..][m - 1] == e;
          }
        }
      }
    } else if |s| > 0 {
      assert s[0] in s;
    }
  }

  /** `range(n)` as a list; empty for `n <= 0`. */
  function Range(n: int): (r: seq<int>)
    ensures |r| == (if n <= 0 then 0 else n)
    ensures forall i :: 0 <= i < |r| ==> r[i] == i
  {
    if n <= 0 then [] else seq(n, i => i)
  }
}

=== FILE: composite_score.dfy ===
/** The composite germ-set score: how many of the largest non-gauge
    eigenvalues a germ set amplifies (`N_AC`), the aggregated eigenvalue score
    at that count (the minor score), and the penalised major score.

    Eigenvalues arrive sorted ascending from an eigensolver that is not part
    of this model; the aggregation function (`sum(1/x)` or `1/min(x)` in the
    source) is an uninterpreted `seq<real> -> real`. */
module CompositeScoring {
  import opened Scores
  import opened Outcomes

  /** Python's `xs[start:]` for any integer `start`. */
  function PySliceFrom<T>(xs: seq<T>, start: int): (r: seq<T>)
    ensures 0 <= start <= |xs| ==> r == xs[start..]
    ensures start < 0 ==> r == xs[if |xs| + start < 0 then 0 else |xs| + start..]
    ensures start > |xs| ==> r == []
  {
    if start < 0 then (if |xs| + start < 0 then xs else xs[|xs| + start..])
    else if start > |xs| then []
    else xs[start..]
  }

  /** Python's `xs[-k:]`. For `k == 0` this is the WHOLE list, since `-0 == 0`. */
  function PyLast<T>(xs: seq<T>, k: int): (r: seq<T>)
    ensures k == 0 ==> r == xs
    ensures 0 < k <= |xs| ==> r == xs[|xs| - k..]
    ensures k >= |xs| ==> r == xs
  {
    PySliceFrom(xs, -k)
  }

  /** The `n` largest entries of an ascending list: its last `n` elements,
      empty when `n <= 0`. */
  function TopN<T>(xs: seq<T>, n: int): (r: seq<T>)
    ensures |r| == if n <= 0 then 0 else if n >= |xs| then |xs| else n
    ensures forall i :: 0 <= i < |r| ==> r[i] == xs[|xs| - |r| + i]
  {
    if n <= 0 then [] else if n >= |xs| then xs else xs[|xs| - n..]
  }

  /** How a window of the `k` largest eigenvalues is cut out: the source's
      Python slicing, or the top-`k` reading its documentation describes. */
  datatype Slicing = AsWritten | Intended

  function Window(sl: Slicing, xs: seq<real>, k: int): seq<real> {
    match sl
    case AsWritten => PyLast(xs, k)
    case Intended => TopN(xs, k)
  }

  /** The parameters every window check shares. */
  datatype ScanParams = ScanParams(sl: Slicing, scoreFn: seq<real> -> real, thresholdAC: real)

  /** Whether the window of size `k` stays under the threshold; the source
      breaks only when the score EXCEEDS `threshold_ac`, so equality passes. */
  predicate Passes(p: ScanParams, obs: seq<real>, k: int) {
    p.scoreFn(Window(p.sl, obs, k)) <= p.thresholdAC
  }

  /** Every window size in `lo..hi` passes. */
  predicate AllPass(p: ScanParams, obs: seq<real>, lo: int, hi: int) {
    forall k :: lo <= k <= hi ==> Passes(p, obs, k)
  }

  /** The loop `for N in range(n, len(obs) + 1)` that stops at the first
      failing `N`: returns the last `N` that passed, or `None` when the very
      first one failed or the range is empty. */
  function ScanFrom(p: ScanParams, obs: seq<real>, n: int): (r: Option<int>)
    ensures r.None? <==> n > |obs| || !Passes(p, obs, n)
    ensures r.Some? ==> n <= r.value <= |obs|
    ensures r.Some? ==> AllPass(p, obs, n, r.value)
    ensures r.Some? ==> r.value == |obs| || !Passes(p, obs, r.value + 1)
    decreases |obs| + 1 - n
  {
    if n > |obs| || !Passes(p, obs, n) then None
    else match ScanFrom(p, obs, n + 1)
      case None => Some(n)
      case Some(m) => Some(m)
  }

  /** `N_AC` and the minor score from a scan started at `initN`: `(0, +inf)`
      when nothing passed. */
  function Amplified(p: ScanParams, obs: seq<real>, initN: int): (r: (int, ExtReal))
  {
    match ScanFrom(p, obs, initN)
    case None => (0, PosInf)
    case Some(m) => (m, Fin(p.scoreFn(Window(p.sl, obs, m))))
  }

  /** `op_penalty * sum(germ_lengths)`, skipped entirely when the penalty is 0. */
  function OpScore(opPenalty: real, germLengths: seq<nat>): (s: real)
    ensures opPenalty == 0.0 ==> s == 0.0
  {
    if opPenalty != 0.0 then opPenalty * Sum(germLengths) as real else 0.0
  }

  function Sum(xs: seq<nat>): nat {
    if |xs| == 0 then 0 else xs[0] + Sum(xs[1..])
  }

  /** The penalties of a germ set. */
  datatype Penalties = Penalties(opPenalty: real, l1Penalty: real, germLengths: seq<nat>, numGerms: nat)

  function PenaltyOf(pen: Penalties): real {
    OpScore(pen.opPenalty, pen.germLengths) + pen.l1Penalty * pen.numGerms as real
  }

  /** The lengths of the germs of a germ list. */
  function Lengths<G>(germs: seq<seq<G>>): (r: seq<nat>)
    ensures |r| == |germs|
    ensures forall i :: 0 <= i < |germs| ==> r[i] == |germs[i]|
  {
    seq(|germs|, i requires 0 <= i < |germs| => |germs[i]|)
  }

  /** The germ lengths the length penalty sums: `germ_lengths` when given,
      otherwise the lengths of the germs in `partial_germs_list`. A non-zero
      penalty with neither is a ValueError; with a zero penalty the lengths
      are never needed. */
  function ResolveLengths<G>(opPenalty: real, germLengths: Option<seq<nat>>,
                             partialGerms: Option<seq<seq<G>>>): (r: Result<seq<nat>>)
    ensures r.Failure? <==> opPenalty != 0.0 && germLengths.None? && partialGerms.None?
    ensures r.Failure? ==> r.error == ValueError
    ensures germLengths.Some? ==> r == Success(germLengths.value)
    ensures germLengths.None? && partialGerms.Some? ==>
              r.Success? && |r.value| == |partialGerms.value|
              && forall i :: 0 <= i < |partialGerms.value| ==> r.value[i] == |partialGerms.value[i]|
  {
    if germLengths.Some? then Success(germLengths.value)
    else if partialGerms.Some? then Success(Lengths(partialGerms.value))
    else if opPenalty != 0.0 then Failure(ValueError)
    else Success([])
  }

  /** The complete `compute_composite_germ_set_score`: length resolution
      (and its ValueError) first, then the scan over the spectrum. */
  function CompositeGermSetScore<G>(p: ScanParams, sortedEigs: seq<real>, numNonGauge: int, initN: int,
                                    opPenalty: real, l1Penalty: real, numGerms: nat,
                                    germLengths: Option<seq<nat>>,
                                    partialGerms: Option<seq<seq<G>>>): (r: Result<CompositeScore>)
    ensures r.Failure? <==> opPenalty != 0.0 && germLengths.None? && partialGerms.None?
    ensures r.Failure? ==> r.error == ValueError
    ensures r.Success? ==>
              r.value == ComposeScore(p, sortedEigs, numNonGauge, initN,
                                      Penalties(opPenalty, l1Penalty,
                                                ResolveLengths(opPenalty, germLengths, partialGerms).value,
                                                numGerms))
  {
    var lengths :- ResolveLengths(opPenalty, germLengths, partialGerms);
    var pen := Penalties(opPenalty, l1Penalty, lengths, numGerms);
    Success(ComposeScore(p, sortedEigs, numNonGauge, initN, pen))
  }

  /** The eigenvalues the score looks at: the top `num_nongauge_params`. */
  function Observable(sl: Slicing, sortedEigs: seq<real>, numNonGauge: int): seq<real> {
    Window(sl, sortedEigs, numNonGauge)
  }

  /** `compute_composite_germ_set_score` once the summed Gram matrix has been
      diagonalised: `sortedEigs` is its ascending spectrum. */
  function ComposeScore(p: ScanParams, sortedEigs: seq<real>, numNonGauge: int, initN: int,
                        pen: Penalties): (s: CompositeScore)
    ensures s.n.Finite?
    ensures s.major == Fin(PenaltyOf(pen) - s.n.k as real)
  {
    var obs := Observable(p.sl, sortedEigs, numNonGauge);
    var (nac, minor) := Amplified(p, obs, initN);
    CompositeScore(MajorOf(Finite(nac), PenaltyOf(pen)), minor, Finite(nac))
  }

  // ---------------------------------------------------------------------
  // Properties of the intended scoring.

  /** `N_AC` is the LARGEST `N` such that every window `initN..N` passes;
      the minor score is the window score at `N_AC`; when the first window
      fails (or there is none) the result is `N_AC = 0`, minor `+inf`; and
      `0 <= N_AC <= num_nongauge_params` always. */
  lemma AmplifiedCountIsLargest(scoreFn: seq<real> -> real, thresholdAC: real,
                                sortedEigs: seq<real>, numNonGauge: nat, initN: nat, pen: Penalties)
    ensures var p := ScanParams(Intended, scoreFn, thresholdAC);
            var obs := Observable(Intended, sortedEigs, numNonGauge);
            var s := ComposeScore(p, sortedEigs, numNonGauge, initN, pen);
            && 0 <= s.n.k <= numNonGauge
            && (s.minor == PosInf <==> initN > |obs| || !Passes(p, obs, initN))
            && (s.minor == PosInf ==> s.n.k == 0)
            && (s.minor != PosInf ==>
                  && initN <= s.n.k <= |obs|
                  && AllPass(p, obs, initN, s.n.k)
                  && s.minor == Fin(scoreFn(TopN(obs, s.n.k)))
                  && forall n :: s.n.k < n <= |obs| ==> !AllPass(p, obs, initN, n))
  {
    var p := ScanParams(Intended, scoreFn, thresholdAC);
    var obs := Observable(Intended, sortedEigs, numNonGauge);
    var r := ScanFrom(p, obs, initN);
    if r.Some? {
      forall n | r.value < n <= |obs| ensures !AllPass(p, obs, initN, n) {
        assert !Passes(p, obs, r.value + 1);
      }
    }
  }

  /** With no penalties, amplifying more parameters gives a strictly smaller
      (better) major score, whatever the minor scores are. */
  lemma MoreAmplifiedIsBetter(p: ScanParams, eigsA: seq<real>, eigsB: seq<real>, numNonGauge: int,
                              initN: int, lengths: seq<nat>, numGerms: nat)
    requires var pen := Penalties(0.0, 0.0, lengths, numGerms);
             ComposeScore(p, eigsA, numNonGauge, initN, pen).n.k
               < ComposeScore(p, eigsB, numNonGauge, initN, pen).n.k
    ensures var pen := Penalties(0.0, 0.0, lengths, numGerms);
            ScoreLt(ComposeScore(p, eigsB, numNonGauge, initN, pen),
                    ComposeScore(p, eigsA, numNonGauge, initN, pen))
  {
  }

  // ---------------------------------------------------------------------
  // The source's slicing, and where it departs from the intended reading.

  /** With `num_nongauge_params == 0` the source observes the whole spectrum
      (`xs[-0:]` is `xs`), so `N_AC` can exceed the number of non-gauge
      parameters; the intended top-0 window observes nothing. */
  lemma NoNonGaugeParamsObservesEverything()
    ensures var p := ScanParams(AsWritten, (xs: seq<real>) => 0.0, 1.0);
            ComposeScore(p, [1.0], 0, 1, Penalties(0.0, 0.0, [], 0)).n == Finite(1)
    ensures var p := ScanParams(Intended, (xs: seq<real>) => 0.0, 1.0);
            ComposeScore(p, [1.0], 0, 1, Penalties(0.0, 0.0, [], 0)).n == Finite(0)
  {
    var p := ScanParams(AsWritten, (xs: seq<real>) => 0.0, 1.0);
    assert PyLast([1.0], 0) == [1.0];
    assert Passes(p, [1.0], 1);
    var q := ScanParams(Intended, (xs: seq<real>) => 0.0, 1.0);
    assert Observable(Intended, [1.0], 0) == [];
  }

  /** With `init_n == 0` the source scores the WHOLE observable list at
      `N = 0`; when that list fails it stops with `N_AC = 0` even though the
      single largest eigenvalue passes. The intended top-0 window is empty. */
  lemma InitZeroScoresWholeSpectrum()
    ensures var p := ScanParams(AsWritten, (xs: seq<real>) => |xs| as real, 1.5);
            && ComposeScore(p, [1.0, 2.0], 2, 0, Penalties(0.0, 0.0, [], 0)).n == Finite(0)
            && ComposeScore(p, [1.0, 2.0], 2, 1, Penalties(0.0, 0.0, [], 0)).n == Finite(1)
    ensures var p := ScanParams(Intended, (xs: seq<real>) => |xs| as real, 1.5);
            ComposeScore(p, [1.0, 2.0], 2, 0, Penalties(0.0, 0.0, [], 0)).n == Finite(1)
  {
    var xs := [1.0, 2.0];
    var p := ScanParams(AsWritten, (xs: seq<real>) => |xs| as real, 1.5);
    assert Observable(AsWritten, xs, 2) == xs;
    assert PyLast(xs, 0) == xs;
    assert !Passes(p, xs, 0);
    assert Passes(p, xs, 1);
    assert !Passes(p, xs, 2);
    var q := ScanParams(Intended, (xs: seq<real>) => |xs| as real, 1.5);
    assert Observable(Intended, xs, 2) == xs;
    assert Passes(q, xs, 0);
    assert Passes(q, xs, 1);
    assert !Passes(q, xs, 2);
    assert ScanFrom(q, xs, 1) == Some(1);
  }

  /** The source's slicing agrees with the intended one whenever
      `num_nongauge_params >= 1` and `init_n >= 1`, the values the greedy
      search starts from. */
  lemma {:induction false} SlicingsAgreeFromOne(scoreFn: seq<real> -> real, thresholdAC: real,
                                                sortedEigs: seq<real>, numNonGauge: int, initN: int,
                                                pen: Penalties)
    requires numNonGauge >= 1 && initN >= 1
    ensures ComposeScore(ScanParams(AsWritten, scoreFn, thresholdAC), sortedEigs, numNonGauge, initN, pen)
         == ComposeScore(ScanParams(Intended, scoreFn, thresholdAC), sortedEigs, numNonGauge, initN, pen)
  {
    var p := ScanParams(AsWritten, scoreFn, thresholdAC);
    var q := ScanParams(Intended, scoreFn, thresholdAC);
    var obs := Observable(AsWritten, sortedEigs, numNonGauge);
    assert obs == Observable(Intended, sortedEigs, numNonGauge);
    ScanAgrees(p, q, obs, initN);
  }

  lemma {:induction false} ScanAgrees(p: ScanParams, q: ScanParams, obs: seq<real>, n: int)
    requires p.sl == AsWritten && q.sl == Intended
    requires p.scoreFn == q.scoreFn && p.thresholdAC == q.thresholdAC
    requires n >= 1
    ensures ScanFrom(p, obs, n) == ScanFrom(q, obs, n)
    ensures ScanFrom(p, obs, n).Some? ==>
              Window(AsWritten, obs, ScanFrom(p, obs, n).value) == Window(Intended, obs, ScanFrom(p, obs, n).value)
    decreases |obs| + 1 - n
  {
    if n <= |obs| {
      assert Window(AsWritten, obs, n) == Window(Intended, obs, n);
      ScanAgrees(p, q, obs, n + 1);
    }
  }
}

=== FILE: dedup.dfy ===
/** `clean_germ_list`: removing circuits whose process matrices duplicate
    an earlier circuit's, within a threshold.

    The circuit cache is a Python dict, so it is modelled as its key list
    (insertion order) together with a map from key to process matrix. The
    matrix norm is an uninterpreted distance. */
module GermDedup {
  import opened Seqs

  /** `a` duplicates `b`: the distance from a's matrix to b's is below the
      threshold. */
  function NearFn<K(!new), V>(cache: map<K, V>, dist: (V, V) -> real, thresh: real): (K, K) -> bool {
    (a: K, b: K) => a in cache && b in cache && dist(cache[a], cache[b]) < thresh
  }

  /** The keys that do not duplicate `h`. */
  function NotNear<K>(near: (K, K) -> bool, h: K): K -> bool {
    k => !near(k, h)
  }

  /** The de-duplication loop: take the first unseen key, keep it, and drop
      every later unseen key that duplicates it. */
  function Unique<K(!new)>(keys: seq<K>, near: (K, K) -> bool): (r: seq<K>)
    ensures |keys| > 0 ==> |r| > 0 && r[0] == keys[0]
    decreases |keys|
  {
    if |keys| == 0 then []
    else [keys[0]] + Unique(Filter(keys[1..], NotNear(near, keys[0])), near)
  }

  /** The kept keys are a sub-sequence of the input: nothing is invented or
      reordered. */
  lemma {:induction false} UniqueIsSubseq<K(!new)>(keys: seq<K>, near: (K, K) -> bool)
    ensures IsSubseq(Unique(keys, near), keys)
    decreases |keys|
  {
    if |keys| > 0 {
      var h := keys[0];
      var rest := Filter(keys[1..], NotNear(near, h));
      UniqueIsSubseq(rest, near);
      FilterIsSubseq(keys[1..], NotNear(near, h));
      SubseqTrans(Unique(rest, near), rest, keys[1..]);
      SubseqCons(h, Unique(rest, near), keys[1..]);
      assert [h] + keys[1..] == keys;
    }
  }

  /** No element of `s` duplicates an earlier one. */
  predicate Separated<K>(s: seq<K>, near: (K, K) -> bool) {
    forall i, j :: 0 <= i < j < |s| ==> !near(s[j], s[i])
  }

  /** No kept key duplicates an earlier kept key. */
  lemma {:induction false} UniqueIsSeparated<K(!new)>(keys: seq<K>, near: (K, K) -> bool)
    ensures Separated(Unique(keys, near), near)
    decreases |keys|
  {
    if |keys| > 0 {
      var h := keys[0];
      var rest := Filter(keys[1..], NotNear(near, h));
      var u := Unique(rest, near);
      UniqueIsSeparated(rest, near);
      UniqueIsSubseq(rest, near);
      SubseqMembers(u, rest);
      var r := [h] + u;
      forall i, j | 0 <= i < j < |r| ensures !near(r[j], r[i]) {
        assert r[j] == u[j - 1];
        if i == 0 {
          assert u[j - 1] in rest;
          assert r[i] == h;
          assert !near(r[j], r[i]);
        } else {
          assert r[i] == u[i - 1];
          assert !near(u[j - 1], u[i - 1]);
        }
      }
    }
  }

  /** Every key is kept or duplicates a kept key. */
  lemma {:induction false} UniqueCoversAny<K(!new)>(keys: seq<K>, near: (K, K) -> bool)
    ensures var r := Unique(keys, near);
            forall k :: k in keys ==> k in r || exists i :: 0 <= i < |r| && near(k, r[i])
    decreases |keys|
  {
    if |keys| > 0 {
      var h := keys[0];
      var rest := Filter(keys[1..], NotNear(near, h));
      var u := Unique(rest, near);
      var r := [h] + u;
      UniqueCoversAny(rest, near);
      forall k | k in keys ensures k in r || exists i :: 0 <= i < |r| && near(k, r[i]) {
        if k != h && !near(k, h) {
          assert k in keys[1..];
          if k !in u {
            var i :| 0 <= i < |u| && near(k, u[i]);
            assert r[i + 1] == u[i];
          }
        } else if k != h {
          assert r[0] == h;
        }
      }
    }
  }

  /** Filtering a prefix gives a prefix of the filtered list. */
  lemma {:induction false} FilterPrefix<T(!new)>(a: seq<T>, b: seq<T>, p: T -> bool)
    requires a <= b
    ensures Filter(a, p) <= Filter(b, p)
    decreases |a|
  {
    if |a| > 0 {
      assert a[1..] <= b[1..];
      FilterPrefix(a[1..], b[1..], p);
    }
  }

  /** De-duplicating a prefix gives a prefix of the de-duplicated list: what
      is kept from the first keys does not depend on the later ones. */
  lemma {:induction false} UniquePrefix<K(!new)>(a: seq<K>, b: seq<K>, near: (K, K) -> bool)
    requires a <= b
    ensures Unique(a, near) <= Unique(b, near)
    decreases |a|
  {
    if |a| > 0 {
      var h := a[0];
      assert a[1..] <= b[1..];
      FilterPrefix(a[1..], b[1..], NotNear(near, h));
      UniquePrefix(Filter(a[1..], NotNear(near, h)), Filter(b[1..], NotNear(near, h)), near);
    }
  }

  /** Every key is kept or duplicates a kept key that comes EARLIER in the
      input: the first of a group of duplicates is the one kept. */
  lemma UniqueCovers<K(!new)>(keys: seq<K>, near: (K, K) -> bool)
    ensures var r := Unique(keys, near);
            forall k :: k in keys ==> k in r || exists i :: 0 <= i < |r| && near(k, r[i])
    ensures forall i :: 0 <= i < |keys| ==>
              exists j :: 0 <= j <= i && keys[j] in Unique(keys, near) && (j == i || near(keys[i], keys[j]))
  {
    UniqueCoversAny(keys, near);
    var r := Unique(keys, near);
    forall i | 0 <= i < |keys|
      ensures exists j :: 0 <= j <= i && keys[j] in r && (j == i || near(keys[i], keys[j]))
    {
      var pre := keys[..i + 1];
      var u := Unique(pre, near);
      UniquePrefix(pre, keys, near);
      UniqueCoversAny(pre, near);
      UniqueIsSubseq(pre, near);
      SubseqMembers(u, pre);
      assert keys[i] == pre[i];
      if keys[i] in u {
        assert u <= r;
        assert keys[i] in r;
      } else {
        var m :| 0 <= m < |u| && near(keys[i], u[m]);
        assert u[m] in pre;
        var j :| 0 <= j < |pre| && pre[j] == u[m];
        assert r[m] == u[m];
        assert keys[j] == u[m];
      }
    }
  }

  /** `clean_germ_list`: the kept circuits in order, and the cache restricted
      to them. */
  function CleanGermList<K(!new), V>(keys: seq<K>, cache: map<K, V>, dist: (V, V) -> real, thresh: real)
    : (r: (seq<K>, map<K, V>))
    requires forall k :: k in keys ==> k in cache
    ensures IsSubseq(r.0, keys)
    ensures forall k :: k in r.0 ==> k in keys
    ensures |keys| > 0 ==> |r.0| > 0 && r.0[0] == keys[0]
    ensures forall i, j :: 0 <= i < j < |r.0| ==> dist(cache[r.0[j]], cache[r.0[i]]) >= thresh
    ensures forall k :: k in keys ==>
              k in r.0 || exists i :: 0 <= i < |r.0| && dist(cache[k], cache[r.0[i]]) < thresh
    ensures forall i :: 0 <= i < |keys| ==>
              exists j :: 0 <= j <= i && keys[j] in r.0 && (j == i || dist(cache[keys[i]], cache[keys[j]]) < thresh)
    ensures r.1.Keys == set k | k in r.0
    ensures forall k :: k in r.1 ==> r.1[k] == cache[k]
  {
    var near := NearFn(cache, dist, thresh);
    var u := Unique(keys, near);
    UniqueIsSubseq(keys, near);
    UniqueIsSeparated(keys, near);
    UniqueCovers(keys, near);
    SubseqMembers(u, keys);
    (u, map k | k in u :: cache[k])
  }

  /** A list none of whose elements duplicates an earlier one is left as it is. */
  lemma {:induction false} UniqueOfSeparated<K(!new)>(s: seq<K>, near: (K, K) -> bool)
    requires Separated(s, near)
    ensures Unique(s, near) == s
    decreases |s|
  {
    if |s| > 0 {
      FilterAll(s[1..], NotNear(near, s[0]));
      UniqueOfSeparated(s[1..], near);
      assert [s[0]] + s[1..] == s;
    }
  }

  /** Cleaning a cleaned list, with its cleaned cache, changes nothing. */
  lemma CleanIsIdempotent<K(!new), V>(keys: seq<K>, cache: map<K, V>, dist: (V, V) -> real, thresh: real)
    requires forall k :: k in keys ==> k in cache
    ensures var (u, c) := CleanGermList(keys, cache, dist, thresh);
            CleanGermList(u, c, dist, thresh) == (u, c)
  {
    var r := CleanGermList(keys, cache, dist, thresh);
    var u, c := r.0, r.1;
    CleanCacheKeepsSeparation(u, c, cache, dist, thresh);
    UniqueOfSeparated(u, NearFn(c, dist, thresh));
    RestrictToAllKeys(u, c);
  }

  /** The cleaned cache holds the same matrices for the kept keys, so the
      kept keys stay pairwise apart under it. */
  lemma CleanCacheKeepsSeparation<K(!new), V>(u: seq<K>, c: map<K, V>, cache: map<K, V>,
                                              dist: (V, V) -> real, thresh: real)
    requires forall k :: k in u ==> k in c && k in cache && c[k] == cache[k]
    requires forall i, j :: 0 <= i < j < |u| ==> dist(cache[u[j]], cache[u[i]]) >= thresh
    ensures Separated(u, NearFn(c, dist, thresh))
  {
    var near := NearFn(c, dist, thresh);
    forall i, j | 0 <= i < j < |u| ensures !near(u[j], u[i]) {
      var a, b := u[i], u[j];
      assert a in u && b in u;
      assert dist(c[b], c[a]) >= thresh;
    }
  }

  lemma RestrictToAllKeys<K, V>(u: seq<K>, c: map<K, V>)
    requires c.Keys == set k | k in u
    ensures (map k | k in u :: c[k]) == c
  {
  }
}

=== FILE: forced_germs.dfy ===
/** The forced-germ initialisation of `find_germs_breadthfirst_rev1`: the
    0/1 weight vector over the candidate pool and the `goodGerms` list the
    greedy search starts from. */
module ForcedGerms {
  import opened Outcomes
  import opened Seqs

  /** A circuit is its sequence of gate labels; its length is the germ length. */
  type Circuit = seq<string>

  /** The `force` argument: nothing (None or an empty list), the string
      "singletons", or an explicit list of circuits. */
  datatype Force = NoForce | Singletons | Explicit(circuits: seq<Circuit>)

  /** Python `list.index`: the first position holding `x`. */
  function FirstIndex<T(==)>(xs: seq<T>, x: T): (r: Option<nat>)
    ensures r.None? <==> x !in xs
    ensures r.Some? ==> r.value < |xs| && xs[r.value] == x
    ensures r.Some? ==> forall j :: 0 <= j < r.value ==> xs[j] != x
  {
    if |xs| == 0 then None
    else if xs[0] == x then Some(0)
    else match FirstIndex(xs[1..], x)
      case None => None
      case Some(i) => Some(i + 1)
  }

  predicate IsSingleton(c: Circuit) {
    |c| == 1
  }

  /** The germs whose weight is 1, in pool order. */
  function Selected(germs: seq<Circuit>, weights: seq<int>): seq<Circuit>
    requires |germs| == |weights|
  {
    if |germs| == 0 then []
    else (if weights[0] == 1 then [germs[0]] else []) + Selected(germs[1..], weights[1..])
  }

  /** Sets the weight of the first occurrence of each forced circuit, or
      fails with ValueError when a forced circuit is not in the pool. */
  function MarkForced(germs: seq<Circuit>, weights: seq<int>, forced: seq<Circuit>): (r: Result<seq<int>>)
    requires |weights| == |germs|
    ensures r.Success? <==> forall c :: c in forced ==> c in germs
    ensures r.Failure? ==> r.error == ValueError
    ensures r.Success? ==> |r.value| == |germs|
    ensures r.Success? ==> forall i :: 0 <= i < |germs| ==>
              (r.value[i] == (if FirstIndex(germs, germs[i]) == Some(i) && germs[i] in forced
                              then 1 else weights[i]))
    decreases |forced|
  {
    if |forced| == 0 then Success(weights)
    else match FirstIndex(germs, forced[0])
      case None => Failure(ValueError)
      case Some(i) =>
        var rest := MarkForced(germs, weights[i := 1], forced[1..]);
        if rest.Success? then
          assert forall c :: c in forced ==> c == forced[0] || c in forced[1..];
          rest
        else rest
  }

  /** The initial search state: `(weights, goodGerms)`. */
  datatype Selection = Selection(weights: seq<int>, goodGerms: seq<Circuit>)

  function InitialSelection(germs: seq<Circuit>, force: Force): (r: Result<Selection>)
    ensures r.Success? ==> |r.value.weights| == |germs|
    ensures r.Success? ==> forall i :: 0 <= i < |germs| ==> r.value.weights[i] in {0, 1}
    ensures force.Singletons? ==> r.Success?
    ensures force.Singletons? ==> forall i :: 0 <= i < |germs| ==>
              (r.value.weights[i] == 1 <==> IsSingleton(germs[i]))
    ensures force.Singletons? ==> r.value.goodGerms == Filter(germs, IsSingleton)
    ensures force.Explicit? ==>
              (r.Success? <==> forall c :: c in force.circuits ==> c in germs)
    ensures force.Explicit? && r.Success? ==>
              && r.value.goodGerms == force.circuits
              && forall i :: 0 <= i < |germs| ==>
                   (r.value.weights[i] == 1 <==> germs[i] in force.circuits && FirstIndex(germs, germs[i]) == Some(i))
    ensures force.NoForce? ==> r == Success(Selection(seq(|germs|, _ => 0), []))
  {
    var zeros := seq(|germs|, _ => 0);
    match force
    case NoForce => Success(Selection(zeros, []))
    case Singletons =>
      Success(Selection(seq(|germs|, i requires 0 <= i < |germs| => if IsSingleton(germs[i]) then 1 else 0),
                        Filter(germs, IsSingleton)))
    case Explicit(forced) =>
      var w :- MarkForced(germs, zeros, forced);
      Success(Selection(w, forced))
  }

  /** With "singletons", `goodGerms` is exactly the germs the weight vector
      selects, in pool order. */
  lemma SingletonsAgree(germs: seq<Circuit>)
    ensures var s := InitialSelection(germs, Singletons).value;
            Selected(germs, s.weights) == s.goodGerms
  {
    var s := InitialSelection(germs, Singletons).value;
    SelectedIsFilter(germs, s.weights);
  }

  lemma {:induction false} SelectedIsFilter(germs: seq<Circuit>, weights: seq<int>)
    requires |germs| == |weights|
    requires forall i :: 0 <= i < |germs| ==> (weights[i] == 1 <==> IsSingleton(germs[i]))
    ensures Selected(germs, weights) == Filter(germs, IsSingleton)
    decreases |germs|
  {
    if |germs| > 0 {
      SelectedIsFilter(germs[1..], weights[1..]);
    }
  }

  /** With an explicit list, the germs the weight vector selects are
      exactly the forced circuits (as a set: `goodGerms` keeps the caller's
      order and repetitions). */
  lemma ExplicitAgrees(germs: seq<Circuit>, forced: seq<Circuit>)
    requires forall c :: c in forced ==> c in germs
    ensures var s := InitialSelection(germs, Explicit(forced)).value;
            forall c :: c in Selected(germs, s.weights) <==> c in s.goodGerms
  {
    var s := InitialSelection(germs, Explicit(forced)).value;
    forall c ensures c in Selected(germs, s.weights) <==> c in forced {
      SelectedMembers(germs, s.weights, c);
      if c in forced {
        var i := FirstIndex(germs, c).value;
        assert germs[i] == c;
      }
    }
  }

  lemma {:induction false} SelectedMembers(germs: seq<Circuit>, weights: seq<int>, c: Circuit)
    requires |germs| == |weights|
    ensures c in Selected(germs, weights) <==> exists i :: 0 <= i < |germs| && germs[i] == c && weights[i] == 1
    decreases |germs|
  {
    if |germs| > 0 {
      SelectedMembers(germs[1..], weights[1..], c);
      if c in Selected(germs[1..], weights[1..]) {
        var i :| 0 <= i < |germs[1..]| && germs[1..][i] == c && weights[1..][i] == 1;
        assert germs[i + 1] == c && weights[i + 1] == 1;
      }
      if exists i :: 0 <= i < |germs| && germs[i] == c && weights[i] == 1 {
        var i :| 0 <= i < |germs| && germs[i] == c && weights[i] == 1;
        if i > 0 {
          assert germs[1..][i - 1] == c && weights[1..][i - 1] == 1;
        }
      }
    }
  }
}

=== FILE: gram_init.dfy ===
/** Which candidate germs the starting accumulated Gram matrix of
    `find_germs_breadthfirst_rev1` is summed from, per cache mode. Only the
    choice of germs is modelled; the matrices themselves are not. */
module GramInit {
  import opened Outcomes
  import opened MemoryPreflight

  /** Indices `i` with `weights[i] == 1`, ascending (`np.where(weights == 1)`). */
  function OnesIndices(weights: seq<int>): (r: seq<nat>)
    ensures forall j :: 0 <= j < |r| ==> r[j] < |weights| && weights[r[j]] == 1
    ensures forall i :: 0 <= i < |weights| && weights[i] == 1 ==> i in r
    ensures forall j, k :: 0 <= j < k < |r| ==> r[j] < r[k]
    decreases |weights|
  {
    if |weights| == 0 then []
    else
      var rest := OnesIndices(weights[..|weights| - 1]);
      if weights[|weights| - 1] == 1 then rest + [|weights| - 1] else rest
  }

  /** The indices into the candidate pool whose contributions the source sums
      into the starting Gram matrix. all-Jac sums the weight-1 germs;
      compactEVD sums the non-zero-weight germs and hits an unbound name
      when there are none; single-Jac sums the FIRST `len(goodGerms)` germs
      of the pool, whichever they are, and indexes past the pool (an
      IndexError) when an explicit force list repeats a circuit so that
      `goodGerms` is longer than the pool. */
  function InitialIndicesAsWritten(mode: Mode, weights: seq<int>, numGoodGerms: nat): (r: Result<seq<nat>>)
    requires forall i :: 0 <= i < |weights| ==> weights[i] in {0, 1}
    ensures mode == Unknown ==> r == Failure(ValueError)
    ensures mode == SingleJac ==> (r == Failure(IndexError) <==> numGoodGerms > |weights|)
    ensures mode == SingleJac && r.Success? ==> r.value == seq(numGoodGerms, i => i)
    ensures mode == AllJac ==> r == Success(OnesIndices(weights))
    ensures mode == CompactEvd ==> (r == Failure(NameError) <==> 1 !in weights)
    ensures mode == CompactEvd && r.Success? ==> r.value == OnesIndices(weights)
  {
    match mode
    case AllJac => Success(OnesIndices(weights))
    case SingleJac =>
      if numGoodGerms > |weights| then Failure(IndexError) else Success(seq(numGoodGerms, i => i))
    case CompactEvd =>
      var nz := OnesIndices(weights);
      if |nz| == 0 then
        Failure(NameError)
      else
        assert weights[nz[0]] == 1;
        Success(nz)
    case Unknown => Failure(ValueError)
  }

  /** The single-Jac start departs from the selected germs: with the pool
      `[GxGy, Gx]` and the singletons forced, `goodGerms == [Gx]` and the
      weights select index 1, but single-Jac sums index 0, an unselected germ. */
  lemma SingleJacStartsFromWrongGerms()
    ensures InitialIndicesAsWritten(AllJac, [0, 1], 1) == Success([1])
    ensures InitialIndicesAsWritten(SingleJac, [0, 1], 1) == Success([0])
  {
    var w: seq<int> := [0, 1];
    assert w[..1] == [0];
    assert [0][..0] == [];
    assert OnesIndices([]) == [];
    assert OnesIndices([0]) == [];
    assert OnesIndices(w) == [1];
    assert seq(1, i => i) == [0];
  }

  /** The intended start: every cache mode sums exactly the selected germs. */
  function InitialIndices(mode: Mode, weights: seq<int>): (r: Result<seq<nat>>)
    requires forall i :: 0 <= i < |weights| ==> weights[i] in {0, 1}
    ensures mode == Unknown <==> r == Failure(ValueError)
    ensures r.Success? ==> forall i :: 0 <= i < |weights| ==> (weights[i] == 1 <==> i in r.value)
    ensures r.Success? ==> forall j :: 0 <= j < |r.value| ==> r.value[j] < |weights|
    ensures mode != Unknown ==> r.Success?
  {
    if mode == Unknown then Failure(ValueError) else Success(OnesIndices(weights))
  }

  /** A repeated forced circuit makes single-Jac index past the pool: with
      the pool `[Gx]` and the force list `[Gx, Gx]`, the weights are `[1]`
      but `goodGerms` has two entries. */
  lemma SingleJacDuplicateForceOverruns()
    ensures InitialIndicesAsWritten(SingleJac, [1], 2) == Failure(IndexError)
    ensures InitialIndicesAsWritten(AllJac, [1], 2) == Success([0])
  {
    var w: seq<int> := [1];
    assert w[..0] == [];
    assert OnesIndices([]) == [];
    assert OnesIndices(w) == [0];
  }

  /** With the intended start, all three modes begin from the same germs. */
  lemma ModesAgreeOnStart(weights: seq<int>)
    requires forall i :: 0 <= i < |weights| ==> weights[i] in {0, 1}
    ensures InitialIndices(AllJac, weights) == InitialIndices(SingleJac, weights)
                                           == InitialIndices(CompactEvd, weights)
    ensures InitialIndices(AllJac, weights) == InitialIndicesAsWritten(AllJac, weights, 0)
  {
  }
}

=== FILE: greedy.dfy ===
/** The greedy outer loop of `find_germs_breadthfirst_rev1`: while some
    candidate is unused and the amplified count has not reached the number
    of non-gauge parameters, add the candidate whose worst score over all
    models is lowest.

    Every Gram-matrix computation is folded into a score oracle: given the
    current weight vector (which determines the accumulated Gram matrices),
    a candidate index, a model index and the current `init_n`, it yields
    that candidate's composite score for that model. The three Gram-cache
    modes differ only in how they compute that score. */
module GreedySelection {
  import opened Scores
  import opened Outcomes
  import opened Seqs
  import opened ForcedGerms
  import opened LowRankScoring

  type ScoreOracle = (seq<int>, nat, nat, Count) -> CompositeScore

  const Big: real := 10000000000000000000000000000000000000000000000000000000000000000000000000000000000000000000000000000.0

  /** `CompositeScore(-1.0e100, 0, None)`: the start of the max over models. */
  const WorstStart := CompositeScore(Fin(-Big), Fin(0.0), Unset)

  /** `CompositeScore(1.0e100, 0, None)`: the score a candidate must beat. */
  const BestStart := CompositeScore(Fin(Big), Fin(0.0), Unset)

  /** The worst score of candidate `cand` over models `0..k-1`, folded
      with Python's `max` from `WorstStart`. */
  function WorstOver(oracle: ScoreOracle, w: seq<int>, cand: nat, initN: Count, k: nat): (r: CompositeScore)
    ensures forall j :: 0 <= j < k ==> !ScoreLt(r, oracle(w, cand, j, initN))
    ensures !ScoreLt(r, WorstStart)
    ensures r == WorstStart || exists j :: 0 <= j < k && r == oracle(w, cand, j, initN)
  {
    if k == 0 then WorstStart
    else
      var prev := WorstOver(oracle, w, cand, initN, k - 1);
      var r := PyMax(prev, oracle(w, cand, k - 1, initN));
      forall j | 0 <= j < k - 1 ensures !ScoreLt(r, oracle(w, cand, j, initN)) {
        NotBelowTransitive(r, prev, oracle(w, cand, j, initN));
      }
      NotBelowTransitive(r, prev, WorstStart);
      r
  }

  /** `a >= b >= c` gives `a >= c` in the score order. */
  lemma NotBelowTransitive(a: CompositeScore, b: CompositeScore, c: CompositeScore)
    requires !ScoreLt(a, b) && !ScoreLt(b, c)
    ensures !ScoreLt(a, c)
  {
  }

  /** `a < b <= c` gives `a < c`. */
  lemma BelowNotBelow(a: CompositeScore, b: CompositeScore, c: CompositeScore)
    requires ScoreLt(a, b) && !ScoreLt(c, b)
    ensures ScoreLt(a, c)
  {
  }

  /** A candidate's score: its worst over all models. */
  function GermScore(oracle: ScoreOracle, numModels: nat, w: seq<int>, initN: Count, cand: nat): CompositeScore {
    WorstOver(oracle, w, cand, initN, numModels)
  }

  /** `b` is the candidate the inner loop keeps: an unused germ whose score
      beats the sentinel, no unused germ scores strictly lower, and every
      earlier unused germ scores strictly higher (ties go to the first). */
  predicate IsFirstBest(oracle: ScoreOracle, numModels: nat, w: seq<int>, initN: Count, b: nat) {
    && b < |w| && w[b] == 0
    && ScoreLt(GermScore(oracle, numModels, w, initN, b), BestStart)
    && (forall j :: 0 <= j < |w| && w[j] == 0 ==>
          !ScoreLt(GermScore(oracle, numModels, w, initN, j), GermScore(oracle, numModels, w, initN, b)))
    && (forall j :: 0 <= j < b && w[j] == 0 ==>
          ScoreLt(GermScore(oracle, numModels, w, initN, b), GermScore(oracle, numModels, w, initN, j)))
  }

  /** No unused germ beats the sentinel. */
  predicate NoneBeatsStart(oracle: ScoreOracle, numModels: nat, w: seq<int>, initN: Count) {
    forall j :: 0 <= j < |w| && w[j] == 0 ==> !ScoreLt(GermScore(oracle, numModels, w, initN, j), BestStart)
  }

  /** The first-best unused candidate is unique. */
  lemma FirstBestUnique(oracle: ScoreOracle, numModels: nat, w: seq<int>, initN: Count, a: nat, b: nat)
    requires IsFirstBest(oracle, numModels, w, initN, a)
    requires IsFirstBest(oracle, numModels, w, initN, b)
    ensures a == b
  {
    if a < b {
      ScoreLtAsymmetric(GermScore(oracle, numModels, w, initN, b), GermScore(oracle, numModels, w, initN, a));
    } else if b < a {
      ScoreLtAsymmetric(GermScore(oracle, numModels, w, initN, a), GermScore(oracle, numModels, w, initN, b));
    }
  }

  /** When every unused candidate fails the forced rank increase for some
      model, none beats the sentinel, so the source's search crashes. */
  lemma RankFailuresExhaustSearch(oracle: ScoreOracle, numModels: nat, w: seq<int>, initN: Count)
    requires forall j :: 0 <= j < |w| && w[j] == 0 ==>
               exists k :: 0 <= k < numModels && oracle(w, j, k, initN) == RankFailureScore
    ensures NoneBeatsStart(oracle, numModels, w, initN)
  {
    forall j | 0 <= j < |w| && w[j] == 0
      ensures !ScoreLt(GermScore(oracle, numModels, w, initN, j), BestStart)
    {
      var k :| 0 <= k < numModels && oracle(w, j, k, initN) == RankFailureScore;
      var g := GermScore(oracle, numModels, w, initN, j);
      assert !ScoreLt(g, RankFailureScore);
    }
  }

  /** The inner loop over candidates: strict `<` against the running best,
      which starts at the sentinel. */
  method PickBest(oracle: ScoreOracle, numModels: nat, w: seq<int>, initN: Count)
    returns (best: Option<nat>, bestScore: CompositeScore)
    ensures best.Some? ==> IsFirstBest(oracle, numModels, w, initN, best.value)
    ensures best.Some? ==> bestScore == GermScore(oracle, numModels, w, initN, best.value)
    ensures best.None? <==> NoneBeatsStart(oracle, numModels, w, initN)
  {
    best := None;
    bestScore := BestStart;
    var i := 0;
    while i < |w|
      invariant 0 <= i <= |w|
      invariant best.None? ==> bestScore == BestStart
      invariant best.None? ==> forall j :: 0 <= j < i && w[j] == 0 ==>
                  !ScoreLt(GermScore(oracle, numModels, w, initN, j), BestStart)
      invariant best.Some? ==> && best.value < i && w[best.value] == 0
                               && bestScore == GermScore(oracle, numModels, w, initN, best.value)
                               && ScoreLt(bestScore, BestStart)
      invariant best.Some? ==> forall j :: 0 <= j < i && w[j] == 0 ==>
                  !ScoreLt(GermScore(oracle, numModels, w, initN, j), bestScore)
      invariant best.Some? ==> forall j :: 0 <= j < best.value && w[j] == 0 ==>
                  ScoreLt(bestScore, GermScore(oracle, numModels, w, initN, j))
    {
      if w[i] == 0 {
        var s := GermScore(oracle, numModels, w, initN, i);
        if ScoreLt(s, bestScore) {
          forall j | 0 <= j < i && w[j] == 0
            ensures ScoreLt(s, GermScore(oracle, numModels, w, initN, j))
          {
            BelowNotBelow(s, bestScore, GermScore(oracle, numModels, w, initN, j));
          }
          if best.Some? {
            ScoreLtTransitive(s, bestScore, BestStart);
          }
          best := Some(i);
          bestScore := s;
        }
      }
      i := i + 1;
    }
  }

  /** The weight vector after marking `picks` in order. */
  function WeightsAfter(w0: seq<int>, picks: seq<nat>): (w: seq<int>)
    ensures |w| == |w0|
    decreases |picks|
  {
    if |picks| == 0 then w0
    else
      var w := WeightsAfter(w0, picks[..|picks| - 1]);
      var b := picks[|picks| - 1];
      if b < |w| then w[b := 1] else w
  }

  /** The `init_n` in force before step `j`: 1 at the start, afterwards
      the amplified count of the previous winner. */
  function InitNAt(scores: seq<CompositeScore>, j: nat): Count
    requires j <= |scores|
  {
    if j == 0 then Finite(1) else scores[j - 1].n
  }

  /** What the search returns, with its history: the final weight vector,
      the germ list, the candidates picked and their scores in order. */
  datatype Outcome = Outcome(weights: seq<int>, goodGerms: seq<Circuit>, picks: seq<nat>,
                             scores: seq<CompositeScore>, finalN: Count)

  /** Every recorded step picked the first-best candidate for the weights
      and `init_n` in force at that step. */
  predicate StepsOptimal(oracle: ScoreOracle, numModels: nat, w0: seq<int>, picks: seq<nat>,
                         scores: seq<CompositeScore>)
    requires |scores| == |picks|
  {
    forall j :: 0 <= j < |picks| ==>
      && IsFirstBest(oracle, numModels, WeightsAfter(w0, picks[..j]), InitNAt(scores, j), picks[j])
      && scores[j] == GermScore(oracle, numModels, WeightsAfter(w0, picks[..j]), InitNAt(scores, j), picks[j])
  }

  /** The search state between outer iterations. */
  datatype State = State(weights: seq<int>, goodGerms: seq<Circuit>, picks: seq<nat>,
                         scores: seq<CompositeScore>)

  /** The bookkeeping the loop keeps: the weights mark exactly the forced
      germs and the picks, every pick was an unused germ and none repeats,
      and `goodGerms` is the forced list followed by the picked germs in
      order. */
  predicate Consistent(germs: seq<Circuit>, start: Selection, st: State) {
    && |start.weights| == |germs| && |st.weights| == |germs| && |st.scores| == |st.picks|
    && (forall i :: 0 <= i < |germs| ==> start.weights[i] in {0, 1} && st.weights[i] in {0, 1})
    && (forall i :: 0 <= i < |germs| ==> (st.weights[i] == 1 <==> start.weights[i] == 1 || i in st.picks))
    && Distinct(st.picks)
    && (forall j :: 0 <= j < |st.picks| ==> st.picks[j] < |germs| && start.weights[st.picks[j]] == 0)
    && |st.goodGerms| == |start.goodGerms| + |st.picks|
    && st.goodGerms[..|start.goodGerms|] == start.goodGerms
    && (forall j :: 0 <= j < |st.picks| ==> st.goodGerms[|start.goodGerms| + j] == germs[st.picks[j]])
    && st.weights == WeightsAfter(start.weights, st.picks)
  }

  /** The greedy loop. `start` is the forced-germ selection (a 0/1 weight
      vector and the initial `goodGerms`). It stops when every germ is used
      or the amplified count equals the number of non-gauge parameters, and
      it takes no step once that count has been reached. `reached` is the
      search state where the loop stopped, whether it returned or crashed.
      The crash when no candidate beats the sentinel (the source indexes the
      germ list with `None`) is a TypeError, and it happens exactly there. */
  method FindGermsGreedy(germs: seq<Circuit>, start: Selection, numNonGauge: int, numModels: nat,
                         oracle: ScoreOracle) returns (r: Result<Outcome>, reached: Outcome)
    requires |start.weights| == |germs|
    requires forall i :: 0 <= i < |germs| ==> start.weights[i] in {0, 1}
    ensures Consistent(germs, start, State(reached.weights, reached.goodGerms, reached.picks, reached.scores))
    ensures reached.finalN == InitNAt(reached.scores, |reached.scores|)
    ensures StepsOptimal(oracle, numModels, start.weights, reached.picks, reached.scores)
    ensures r.Success? ==> r.value == reached
    ensures r.Success? ==> 0 !in reached.weights || reached.finalN == Finite(numNonGauge)
    ensures ShortOfTargetThroughout(reached.scores, Finite(numNonGauge))
    ensures r.Failure? ==>
              && r.error == TypeError
              && 0 in reached.weights && reached.finalN != Finite(numNonGauge)
              && NoneBeatsStart(oracle, numModels, reached.weights, reached.finalN)
  {
    var st := State(start.weights, start.goodGerms, [], []);
    var initN := Finite(1);
    StartConsistent(germs, start);
    while 0 in st.weights
      invariant Consistent(germs, start, st)
      invariant initN == InitNAt(st.scores, |st.scores|)
      invariant StepsOptimal(oracle, numModels, start.weights, st.picks, st.scores)
      invariant ShortOfTargetThroughout(st.scores, Finite(numNonGauge))
      decreases ZeroCount(st.weights)
    {
      if initN == Finite(numNonGauge) {
        break;
      }
      var best, bestScore := PickBest(oracle, numModels, st.weights, initN);
      if best.None? {
        return Failure(TypeError), Outcome(st.weights, st.goodGerms, st.picks, st.scores, initN);
      }
      var b := best.value;
      Step(oracle, numModels, start.weights, st.picks, st.scores, b, bestScore);
      ConsistentStep(germs, start, st, b, bestScore);
      ZeroCountDrops(st.weights, b);
      ShortOfTargetExtend(st.scores, bestScore, Finite(numNonGauge));
      st := State(st.weights[b := 1], st.goodGerms + [germs[b]], st.picks + [b], st.scores + [bestScore]);
      initN := bestScore.n;
    }
    reached := Outcome(st.weights, st.goodGerms, st.picks, st.scores, initN);
    return Success(reached), reached;
  }

  /** Every recorded step was taken while `init_n` was short of `target`. */
  predicate ShortOfTargetThroughout(scores: seq<CompositeScore>, target: Count) {
    forall j :: 0 <= j < |scores| ==> InitNAt(scores, j) != target
  }

  /** A step taken while `init_n` is short of `target` keeps every recorded
      step short of it: recording a step leaves the `init_n` of the earlier
      steps, and of the step just taken, as it was. */
  lemma ShortOfTargetExtend(scores: seq<CompositeScore>, s: CompositeScore, target: Count)
    requires ShortOfTargetThroughout(scores, target)
    requires InitNAt(scores, |scores|) != target
    ensures ShortOfTargetThroughout(scores + [s], target)
  {
    forall j | 0 <= j < |scores + [s]| ensures InitNAt(scores + [s], j) != target {
      if j > 0 {
        assert (scores + [s])[j - 1] == scores[j - 1];
      }
      assert InitNAt(scores + [s], j) == InitNAt(scores, j);
    }
  }

  lemma StartConsistent(germs: seq<Circuit>, start: Selection)
    requires |start.weights| == |germs|
    requires forall i :: 0 <= i < |germs| ==> start.weights[i] in {0, 1}
    ensures Consistent(germs, start, State(start.weights, start.goodGerms, [], []))
  {
    assert start.goodGerms[..|start.goodGerms|] == start.goodGerms;
  }

  /** The number of unused germs. */
  function ZeroCount(w: seq<int>): nat {
    if |w| == 0 then 0 else (if w[0] == 0 then 1 else 0) + ZeroCount(w[1..])
  }

  lemma {:induction false} ZeroCountDrops(w: seq<int>, b: nat)
    requires b < |w| && w[b] == 0
    ensures ZeroCount(w[b := 1]) < ZeroCount(w)
    decreases |w|
  {
    if b > 0 {
      assert w[b := 1][1..] == w[1..][b - 1 := 1];
      ZeroCountDrops(w[1..], b - 1);
    } else {
      assert w[b := 1][1..] == w[1..];
    }
  }

  /** Marking an unused germ keeps the bookkeeping consistent. */
  lemma ConsistentStep(germs: seq<Circuit>, start: Selection, st: State, b: nat, s: CompositeScore)
    requires Consistent(germs, start, st)
    requires b < |germs| && st.weights[b] == 0
    ensures Consistent(germs, start, State(st.weights[b := 1], st.goodGerms + [germs[b]],
                                           st.picks + [b], st.scores + [s]))
  {
    var next := State(st.weights[b := 1], st.goodGerms + [germs[b]], st.picks + [b], st.scores + [s]);
    assert b !in st.picks;
    assert next.picks[..|st.picks|] == st.picks;
    assert next.goodGerms[..|start.goodGerms|] == st.goodGerms[..|start.goodGerms|];
    forall j | 0 <= j < |next.picks|
      ensures next.goodGerms[|start.goodGerms| + j] == germs[next.picks[j]]
    {
    }
  }

  /** Appending the step's winner keeps the recorded history optimal. */
  lemma Step(oracle: ScoreOracle, numModels: nat, w0: seq<int>, picks: seq<nat>,
             scores: seq<CompositeScore>, b: nat, s: CompositeScore)
    requires |scores| == |picks|
    requires StepsOptimal(oracle, numModels, w0, picks, scores)
    requires IsFirstBest(oracle, numModels, WeightsAfter(w0, picks), InitNAt(scores, |scores|), b)
    requires s == GermScore(oracle, numModels, WeightsAfter(w0, picks), InitNAt(scores, |scores|), b)
    ensures StepsOptimal(oracle, numModels, w0, picks + [b], scores + [s])
    ensures WeightsAfter(w0, picks + [b]) == WeightsAfter(w0, picks)[b := 1]
  {
    var picks', scores' := picks + [b], scores + [s];
    assert picks'[..|picks|] == picks;
    forall j | 0 <= j < |picks'|
      ensures && IsFirstBest(oracle, numModels, WeightsAfter(w0, picks'[..j]), InitNAt(scores', j), picks'[j])
              && scores'[j] == GermScore(oracle, numModels, WeightsAfter(w0, picks'[..j]), InitNAt(scores', j), picks'[j])
    {
      if j < |picks| {
        assert picks'[..j] == picks[..j];
        assert InitNAt(scores', j) == InitNAt(scores, j);
      }
    }
  }
}

=== FILE: integer_slack.dfy ===
/** The discrete parts of `find_germs_integer_slack`: argument validation,
    the initial weight vector, the forced indices, the per-model slack score
    with its forced-germ guard and score cache, and the one-flip
    neighbourhood the local search explores. */
module IntegerSlack {
  import opened Outcomes
  import opened Seqs
  import opened ForcedGerms
  import CompositeScoring

  /** Python truthiness of an optional float: `None` and `0.0` are false. */
  predicate Truthy(x: Option<real>) {
    x.Some? && x.value != 0.0
  }

  /** Which slack the search uses. */
  datatype Slack = FixedSlack(amount: real) | SlackFraction(fraction: real)

  /** Exactly one of `fixed_slack` and `slack_frac` must be given (truthy). */
  function ValidateSlack(fixedSlack: Option<real>, slackFrac: Option<real>): (r: Result<Slack>)
    ensures r.Success? <==> Truthy(fixedSlack) != Truthy(slackFrac)
    ensures r.Failure? ==> r.error == ValueError
    ensures r.Success? && Truthy(fixedSlack) ==> r.value == FixedSlack(fixedSlack.value)
    ensures r.Success? && Truthy(slackFrac) ==> r.value == SlackFraction(slackFrac.value)
  {
    if (Truthy(fixedSlack) && Truthy(slackFrac)) || (!Truthy(fixedSlack) && !Truthy(slackFrac)) then
      Failure(ValueError)
    else if Truthy(fixedSlack) then Success(FixedSlack(fixedSlack.value))
    else Success(SlackFraction(slackFrac.value))
  }

  /** The starting weight vector: all ones by default; given weights must
      match the germ list in length and are normalised to 0/1 by truthiness. */
  function InitialWeights(numGerms: nat, initial: Option<seq<real>>): (r: Result<seq<int>>)
    ensures r.Failure? <==> initial.Some? && |initial.value| != numGerms
    ensures r.Failure? ==> r.error == ValueError
    ensures r.Success? ==> |r.value| == numGerms && IsBinary(r.value)
    ensures r.Success? && initial.None? ==> forall i :: 0 <= i < numGerms ==> r.value[i] == 1
    ensures r.Success? && initial.Some? ==>
              forall i :: 0 <= i < numGerms ==> (r.value[i] == 1 <==> initial.value[i] != 0.0)
  {
    match initial
    case None => Success(seq(numGerms, _ => 1))
    case Some(ws) =>
      if |ws| != numGerms then Failure(ValueError)
      else Success(seq(|ws|, i requires 0 <= i < |ws| => if ws[i] != 0.0 then 1 else 0))
  }

  /** Every entry is 0 or 1. */
  predicate IsBinary(w: seq<int>) {
    forall i :: 0 <= i < |w| ==> w[i] == 0 || w[i] == 1
  }

  /** The germ indices that must stay selected: none for an empty or absent
      `force`, the length-1 germs for "singletons", otherwise the position of
      each forced circuit (a ValueError when one is missing). */
  function ForceIndices(germs: seq<Circuit>, force: Force): (r: Result<Option<seq<nat>>>)
    ensures r.Failure? <==> force.Explicit? && exists c :: c in force.circuits && c !in germs
    ensures r.Failure? ==> r.error == ValueError
    ensures (force.NoForce? || force == Explicit([])) ==> r == Success(None)
    ensures force.Singletons? ==>
              && r.Success? && r.value.Some?
              && forall i :: 0 <= i < |germs| ==> (i in r.value.value <==> IsSingleton(germs[i]))
    ensures r.Success? && r.value.Some? ==> forall j :: 0 <= j < |r.value.value| ==> r.value.value[j] < |germs|
    ensures r.Success? && force.Explicit? && |force.circuits| > 0 ==>
              && r.value.Some? && |r.value.value| == |force.circuits|
              && forall j :: 0 <= j < |force.circuits| ==> germs[r.value.value[j]] == force.circuits[j]
  {
    match force
    case NoForce => Success(None)
    case Singletons => Success(Some(SingletonIndices(germs, 0)))
    case Explicit(cs) =>
      if |cs| == 0 then Success(None)
      else
        var idx :- IndicesOf(germs, cs);
        Success(Some(idx))
  }

  /** The positions `from..` of length-1 germs, ascending. */
  function SingletonIndices(germs: seq<Circuit>, from: nat): (r: seq<nat>)
    requires from <= |germs|
    ensures forall j :: 0 <= j < |r| ==> from <= r[j] < |germs|
    ensures forall i :: from <= i < |germs| ==> (i in r <==> IsSingleton(germs[i]))
    decreases |germs| - from
  {
    if from == |germs| then []
    else (if IsSingleton(germs[from]) then [from] else []) + SingletonIndices(germs, from + 1)
  }

  /** `[germs.index(c) for c in cs]`. */
  function IndicesOf(germs: seq<Circuit>, cs: seq<Circuit>): (r: Result<seq<nat>>)
    ensures r.Failure? <==> exists c :: c in cs && c !in germs
    ensures r.Failure? ==> r.error == ValueError
    ensures r.Success? ==>
              && |r.value| == |cs|
              && forall j :: 0 <= j < |cs| ==> r.value[j] < |germs| && germs[r.value[j]] == cs[j]
  {
    if |cs| == 0 then Success([])
    else match FirstIndex(germs, cs[0])
      case None => Failure(ValueError)
      case Some(i) =>
        var rest :- IndicesOf(germs, cs[1..]);
        assert forall c :: c in cs ==> c == cs[0] || c in cs[1..];
        Success([i] + rest)
  }

  function Sum(w: seq<int>): int {
    if |w| == 0 then 0 else w[0] + Sum(w[1..])
  }

  function Dot(a: seq<nat>, w: seq<int>): int
    requires |a| == |w|
  {
    if |a| == 0 then 0 else a[0] * w[0] + Dot(a[1..], w[1..])
  }

  /** The memo `score_dict`, keyed by model number and weight vector. */
  type ScoreCache = map<(nat, seq<int>), real>

  /** The fixed arguments of `_germ_set_score_slack`. `spectrum(w, k)` is the
      ascending spectrum of model k's weighted Gram sum. */
  datatype SlackParams = SlackParams(
    spectrum: (seq<int>, nat) -> seq<real>,
    scoreFn: seq<real> -> real,
    forceIndices: Option<seq<nat>>,
    forceScore: real,
    numGaugeParams: int,
    opPenalty: real,
    germLengths: seq<nat>,
    l1Penalty: real)

  /** Some forced germ is absent (weight `<= 0`). */
  predicate ForcedGermMissing(p: SlackParams, w: seq<int>)
    requires p.forceIndices.Some? ==> forall j :: 0 <= j < |p.forceIndices.value| ==> p.forceIndices.value[j] < |w|
  {
    p.forceIndices.Some? && exists j :: 0 <= j < |p.forceIndices.value| && w[p.forceIndices.value[j]] <= 0
  }

  /** The unpenalised spectrum score: the eigenvalues past the gauge ones. */
  function SpectrumScore(p: SlackParams, w: seq<int>, k: nat): real {
    p.scoreFn(CompositeScoring.PySliceFrom(p.spectrum(w, k), p.numGaugeParams))
  }

  /** `_germ_set_score_slack` for model `k`: the force score when a forced
      germ is missing, the penalised spectrum score otherwise; the score is
      also recorded in the cache when one is given. A forced index past the
      weight vector is an IndexError and mismatched germ lengths a
      ValueError. */
  function SlackScore(p: SlackParams, w: seq<int>, k: nat, cache: Option<ScoreCache>)
    : (r: Result<(real, Option<ScoreCache>)>)
    ensures r.Failure? <==>
              (p.forceIndices.Some? && exists j :: 0 <= j < |p.forceIndices.value| && p.forceIndices.value[j] >= |w|)
              || (!ForcedGuardHolds(p, w) && |p.germLengths| != |w|)
    ensures (p.forceIndices.Some? && exists j :: 0 <= j < |p.forceIndices.value| && p.forceIndices.value[j] >= |w|)
              ==> r == Failure(IndexError)
    ensures r.Failure? ==> r.error in {IndexError, ValueError}
    ensures r.Success? && ForcedGuardHolds(p, w) ==> r.value.0 == p.forceScore
    ensures r.Success? && !ForcedGuardHolds(p, w) ==>
              r.value.0 == SpectrumScore(p, w, k) + p.l1Penalty * Sum(w) as real
                           + p.opPenalty * Dot(p.germLengths, w) as real
    ensures r.Success? ==> (r.value.1.Some? <==> cache.Some?)
    ensures r.Success? && cache.Some? ==> r.value.1.value == cache.value[(k, w) := r.value.0]
  {
    if p.forceIndices.Some? && exists j :: 0 <= j < |p.forceIndices.value| && p.forceIndices.value[j] >= |w| then
      Failure(IndexError)
    else
      var s :- if ForcedGermMissing(p, w) then Success(p.forceScore)
               else if |p.germLengths| != |w| then Failure(ValueError)
               else Success(SpectrumScore(p, w, k) + p.l1Penalty * Sum(w) as real
                            + p.opPenalty * Dot(p.germLengths, w) as real);
      Success((s, if cache.Some? then Some(cache.value[(k, w) := s]) else None))
  }

  /** The guard applies: every forced index is in range and some forced
      germ is missing. */
  predicate ForcedGuardHolds(p: SlackParams, w: seq<int>) {
    && p.forceIndices.Some?
    && (forall j :: 0 <= j < |p.forceIndices.value| ==> p.forceIndices.value[j] < |w|)
    && ForcedGermMissing(p, w)
  }

  /** The guard makes the score independent of the Gram data: two weight
      vectors that both drop a forced germ score the same, whatever the
      spectra. */
  lemma MissingForcedGermScoresAlike(p: SlackParams, q: SlackParams, w: seq<int>, v: seq<int>, k: nat)
    requires p.forceIndices == q.forceIndices && p.forceScore == q.forceScore
    requires ForcedGuardHolds(p, w) && ForcedGuardHolds(q, v)
    ensures SlackScore(p, w, k, None) == SlackScore(q, v, k, None)
  {
  }

  /** Flipping weight `i` between 0 and 1. */
  function Toggle(v: seq<int>, i: nat): seq<int>
    requires i < |v|
  {
    v[i := (v[i] + 1) % 2]
  }

  /** `_get_neighbors`: the vectors one flip away, the i-th flipping entry i. */
  function GetNeighbors(v: seq<int>): (r: seq<seq<int>>)
    ensures |r| == |v|
    ensures forall i :: 0 <= i < |v| ==> |r[i]| == |v| && r[i][i] == (v[i] + 1) % 2
    ensures forall i, j :: 0 <= i < |v| && 0 <= j < |v| && j != i ==> r[i][j] == v[j]
  {
    seq(|v|, i requires 0 <= i < |v| => Toggle(v, i))
  }

  /** On 0/1 vectors the neighbourhood stays binary, each neighbour differs
      in exactly one entry, and flipping the same entry again returns the
      original vector, so neighbourhood is symmetric. */
  lemma NeighborsOfBinary(v: seq<int>)
    requires IsBinary(v)
    ensures forall i :: 0 <= i < |v| ==> IsBinary(GetNeighbors(v)[i])
    ensures forall i :: 0 <= i < |v| ==> GetNeighbors(v)[i][i] == 1 - v[i]
    ensures forall i :: 0 <= i < |v| ==> GetNeighbors(GetNeighbors(v)[i])[i] == v
    ensures forall i :: 0 <= i < |v| ==> v in GetNeighbors(GetNeighbors(v)[i])
  {
    var n := GetNeighbors(v);
    forall i | 0 <= i < |v|
      ensures IsBinary(n[i]) && n[i][i] == 1 - v[i]
      ensures GetNeighbors(n[i])[i] == v
    {
      assert GetNeighbors(n[i])[i] == Toggle(n[i], i);
    }
  }
}

=== FILE: low_rank_scores.dfy ===
/** Score and flag handling of the two compact-EVD scorers
    (`compute_composite_germ_set_score_compactevd` and
    `compute_composite_germ_set_score_low_rank_trace`).

    The low-rank numerics are oracles: the rank-revealing QR is summarised
    by the number of columns that survive its `1e-10` cut, and the updated
    spectrum and pseudo-inverse trace are given values. */
module LowRankScoring {
  import opened Scores
  import opened Outcomes
  import opened CompositeScoring

  /** `np.pad(e, (numParams - len(e), 0))`: zeros on the left of the
      ascending spectrum; a negative pad width is a ValueError. */
  function PadLeft(e: seq<real>, numParams: int): (r: Result<seq<real>>)
    ensures r.Success? <==> |e| <= numParams
    ensures r.Failure? ==> r.error == ValueError
    ensures r.Success? ==> |r.value| == numParams && r.value[numParams - |e|..] == e
    ensures r.Success? ==> forall i :: 0 <= i < numParams - |e| ==> r.value[i] == 0.0
  {
    if |e| > numParams then Failure(ValueError)
    else Success(seq(numParams - |e|, _ => 0.0) + e)
  }

  /** The score a rank-failing candidate receives: `N_AC = -inf`,
      minor `-inf`, hence major `+inf`. */
  const RankFailureScore := CompositeScore(PosInf, NegInf, NegInfinite)

  /** `compute_composite_germ_set_score_compactevd`. `survivingColumns` is the
      number of new directions the update adds; `updatedEigs` is the updated
      compact spectrum (used only when some column survived). */
  function CompactEvdScore(scoreFn: seq<real> -> real, thresholdAC: real, initN: int,
                           numParams: int, numNonGauge: int,
                           survivingColumns: nat, updatedEigs: seq<real>,
                           germLengths: Option<seq<nat>>, numGerms: Option<nat>,
                           opPenalty: real, l1Penalty: real): (r: Result<CompositeScore>)
    ensures germLengths.None? ==> r == Failure(ValueError)
    ensures germLengths.Some? && survivingColumns == 0 ==> r == Success(RankFailureScore)
    ensures germLengths.Some? && survivingColumns > 0 ==>
              (r.Success? <==> |updatedEigs| <= numParams)
    ensures r.Failure? ==> r.error == ValueError
    ensures r.Success? && survivingColumns > 0 ==>
              var pen := Penalties(opPenalty, l1Penalty, germLengths.value,
                                   if numGerms.Some? then numGerms.value else |germLengths.value|);
              r.value == ComposeScore(ScanParams(AsWritten, scoreFn, thresholdAC),
                                      seq(numParams - |updatedEigs|, _ => 0.0) + updatedEigs,
                                      numNonGauge, initN, pen)
  {
    if germLengths.None? then Failure(ValueError)
    else
      var pen := Penalties(opPenalty, l1Penalty, germLengths.value,
                           if numGerms.Some? then numGerms.value else |germLengths.value|);
      if survivingColumns == 0 then Success(RankFailureScore)
      else
        var padded :- PadLeft(updatedEigs, numParams);
        Success(ComposeScore(ScanParams(AsWritten, scoreFn, thresholdAC), padded, numNonGauge, initN, pen))
  }

  /** `compute_composite_germ_set_score_low_rank_trace`. The pseudo-inverse
      update gives up (flag False) only when no column survives AND a rank
      increase is forced; otherwise the updated rank is the old rank plus
      the surviving columns, and that rank is `N` directly (no threshold
      scan). */
  function LowRankTraceScore(origEigs: seq<real>, survivingColumns: nat, forceRankIncrease: bool,
                             inverseTrace: real, germLengths: Option<seq<nat>>, numGerms: Option<nat>,
                             opPenalty: real, l1Penalty: real): (r: Result<CompositeScore>)
    ensures r.Success? <==> germLengths.Some?
    ensures r.Success? ==>
              (r.value == RankFailureScore <==> survivingColumns == 0 && forceRankIncrease)
    ensures r.Success? && !(survivingColumns == 0 && forceRankIncrease) ==>
              && r.value.n == Finite(|origEigs| + survivingColumns)
              && r.value.n.k >= |origEigs|
              && r.value.minor == Fin(inverseTrace)
              && r.value.major == Fin(PenaltyOf(Penalties(opPenalty, l1Penalty, germLengths.value,
                                                          if numGerms.Some? then numGerms.value
                                                          else |germLengths.value|))
                                      - (|origEigs| + survivingColumns) as real)
  {
    if germLengths.None? then Failure(ValueError)
    else
      var pen := Penalties(opPenalty, l1Penalty, germLengths.value,
                           if numGerms.Some? then numGerms.value else |germLengths.value|);
      if survivingColumns == 0 && forceRankIncrease then Success(RankFailureScore)
      else
        var rank := |origEigs| + survivingColumns;
        Success(CompositeScore(MajorOf(Finite(rank), PenaltyOf(pen)), Fin(inverseTrace), Finite(rank)))
  }

  /** A rank-failing candidate is strictly worse than every score whose major
      part is finite, so it can never be preferred by a strict `<`. */
  lemma RankFailureIsWorst(s: CompositeScore)
    requires s.major.Fin?
    ensures ScoreLt(s, RankFailureScore)
    ensures !ScoreLt(RankFailureScore, s)
  {
  }

  /** With a forced rank increase, a successful low-rank score always counts
      strictly more amplified directions than the current spectrum. */
  lemma ForcedRankIncreaseGrowsRank(origEigs: seq<real>, survivingColumns: nat, inverseTrace: real,
                                    germLengths: seq<nat>, numGerms: Option<nat>,
                                    opPenalty: real, l1Penalty: real)
    requires LowRankTraceScore(origEigs, survivingColumns, true, inverseTrace, Some(germLengths),
                               numGerms, opPenalty, l1Penalty).value != RankFailureScore
    ensures var s := LowRankTraceScore(origEigs, survivingColumns, true, inverseTrace, Some(germLengths),
                                       numGerms, opPenalty, l1Penalty).value;
            s.n.Finite? && s.n.k > |origEigs|
  {
  }
}

=== FILE: memory.dfy ===
/** The memory pre-flight of `find_germs_breadthfirst_rev1`: byte estimates
    for the two Gram-cache modes and the resulting mode decision. */
module MemoryPreflight {
  import opened Outcomes

  /** The Gram-cache modes. `Unknown` stands for any other mode string; the
      pre-flight leaves it alone and the later dispatch rejects it. */
  datatype Mode = AllJac | SingleJac | CompactEvd | Unknown

  /** The sizes an estimate depends on. `floatSize` is the element size in
      bytes of the chosen floating type. */
  datatype Sizes = Sizes(floatSize: nat, numModels: nat, numGerms: nat, numParams: nat, dim: nat)

  /** All-Jac: every germ's Gram contribution plus the derivative stage. */
  function AllJacBytes(s: Sizes): nat {
    s.floatSize * s.numModels * s.numGerms * s.numParams * s.numParams
    + s.floatSize * s.numModels * s.numGerms * s.dim * s.dim * s.numParams
  }

  /** Single-Jac: current, test and best Gram matrices per model, plus the
      derivative stage, each three times. */
  function SingleJacBytes(s: Sizes): nat {
    s.floatSize * 3 * s.numModels * s.numParams * s.numParams
    + s.floatSize * 3 * s.numModels * s.dim * s.dim * s.numParams
  }

  /** The pre-flight: a MemoryError when even single-Jac exceeds the limit,
      a fall-back from all-Jac to single-Jac when all-Jac exceeds it, and
      the requested mode otherwise (always when there is no limit). */
  function ChooseMode(s: Sizes, requested: Mode, memLimit: Option<nat>): (r: Result<Mode>)
    ensures r.Failure? <==> memLimit.Some? && SingleJacBytes(s) > memLimit.value
    ensures r.Failure? ==> r.error == MemoryError
    ensures r.Success? ==>
              ((r.value == SingleJac && requested == AllJac)
                 <==> (requested == AllJac && memLimit.Some? && AllJacBytes(s) > memLimit.value))
    ensures r.Success? && r.value != requested ==> requested == AllJac && r.value == SingleJac
  {
    match memLimit
    case None => Success(requested)
    case Some(limit) =>
      if SingleJacBytes(s) > limit then Failure(MemoryError)
      else if requested == AllJac && AllJacBytes(s) > limit then Success(SingleJac)
      else Success(requested)
  }

  /** Whenever a limit is given and the pre-flight succeeds, the estimate of
      the mode it settles on fits within the limit. */
  lemma ChosenModeFits(s: Sizes, requested: Mode, limit: nat)
    requires ChooseMode(s, requested, Some(limit)).Success?
    ensures var m := ChooseMode(s, requested, Some(limit)).value;
            && (m == AllJac ==> AllJacBytes(s) <= limit)
            && (m == SingleJac ==> SingleJacBytes(s) <= limit)
  {
  }

  /** With at least three candidate germs the single-Jac estimate never
      exceeds the all-Jac one, so falling back never asks for more memory. */
  lemma SingleJacIsCheaper(s: Sizes)
    requires s.numGerms >= 3
    ensures SingleJacBytes(s) <= AllJacBytes(s)
  {
    var fm := s.floatSize * s.numModels;
    var a := s.numParams * s.numParams;
    var b := s.dim * s.dim * s.numParams;
    var x := fm * a + fm * b;
    AllJacShape(s);
    SingleJacShape(s);
    MulMonotone(x, 3, s.numGerms);
    assert 3 * x == x * 3 && s.numGerms * x == x * s.numGerms;
  }

  /** Both estimates are a multiplier times the per-model-and-germ cost. */
  lemma AllJacShape(s: Sizes)
    ensures AllJacBytes(s)
         == s.numGerms * (s.floatSize * s.numModels * (s.numParams * s.numParams)
                          + s.floatSize * s.numModels * (s.dim * s.dim * s.numParams))
  {
    var f, m, g := s.floatSize, s.numModels, s.numGerms;
    var a := s.numParams * s.numParams;
    var b := s.dim * s.dim * s.numParams;
    assert f * m * g * s.numParams * s.numParams == g * (f * m * a);
    assert f * m * g * s.dim * s.dim * s.numParams == g * (f * m * b);
  }

  lemma SingleJacShape(s: Sizes)
    ensures SingleJacBytes(s)
         == 3 * (s.floatSize * s.numModels * (s.numParams * s.numParams)
                 + s.floatSize * s.numModels * (s.dim * s.dim * s.numParams))
  {
    var f, m := s.floatSize, s.numModels;
    var a := s.numParams * s.numParams;
    var b := s.dim * s.dim * s.numParams;
    assert f * 3 * m * s.numParams * s.numParams == 3 * (f * m * a);
    assert f * 3 * m * s.dim * s.dim * s.numParams == 3 * (f * m * b);
  }

  lemma MulMonotone(x: nat, y: nat, z: nat)
    requires y <= z
    ensures x * y <= x * z
  {
  }

  /** Five models, a thousand germs, a hundred parameters, 16-byte complex
      elements, single-qubit superoperators (`dim = 4`): a 500-megabyte
      limit forces the fall-back from all-Jac to single-Jac. */
  lemma FallbackExample()
    ensures AllJacBytes(Sizes(16, 5, 1000, 100, 4)) == 928_000_000
    ensures SingleJacBytes(Sizes(16, 5, 1000, 100, 4)) == 2_784_000
    ensures ChooseMode(Sizes(16, 5, 1000, 100, 4), AllJac, Some(500_000_000)) == Success(SingleJac)
  {
  }
}

=== FILE: model_list.dfy ===
/** The model-list helpers of germ selection: the randomised neighbourhood
    (`randomize_model_list`), the completeness pre-check
    (`test_germs_list_completeness`) and the parameter-count consistency
    check (`_get_model_params`).

    Models are not represented: a randomisation is recorded as the index of
    the model it perturbs and the seed it uses, the per-model completeness
    test is a pass/fail oracle, and a SPAM-stripped model is its three
    counts. */
module ModelList {
  import opened Outcomes
  import opened Seqs

  /** `model_list[source].randomize_with_unitary(strength, seed=seed)`. */
  datatype Randomization = Randomization(source: nat, seed: Option<int>)

  function SeedFor(seed: Option<int>, i: nat): Option<int> {
    if seed.Some? then Some(seed.value + i) else None
  }

  /** The number of copies the single-model branch makes: `num_copies`, or
      1 when it is `None`; a negative count makes the range empty. */
  function CopyCount(numCopies: Option<int>): nat {
    var c := if numCopies.Some? then numCopies.value else 1;
    if c < 0 then 0 else c
  }

  /** `randomize_model_list`: several models are each randomised once;
      a single model is randomised `num_copies` times; asking for both is a
      ValueError, and asking for copies of an empty list is an IndexError. */
  function RandomizeModelList(numModels: nat, numCopies: Option<int>, seed: Option<int>)
    : (r: Result<seq<Randomization>>)
    ensures r.Failure? <==> (numModels > 1 && numCopies.Some?) || (numModels == 0 && CopyCount(numCopies) > 0)
    ensures r.Failure? ==> r.error == (if numModels > 1 then ValueError else IndexError)
    ensures r.Success? && numModels > 1 ==>
              |r.value| == numModels && forall i :: 0 <= i < numModels ==> r.value[i].source == i
    ensures r.Success? && numModels <= 1 ==>
              |r.value| == CopyCount(numCopies) && forall i :: 0 <= i < |r.value| ==> r.value[i].source == 0
    ensures r.Success? ==> forall i :: 0 <= i < |r.value| ==> r.value[i].seed == SeedFor(seed, i)
  {
    if numModels > 1 && numCopies.Some? then Failure(ValueError)
    else if numModels > 1 then
      Success(seq(numModels, (i: nat) => Randomization(i, SeedFor(seed, i))))
    else if numModels == 0 && CopyCount(numCopies) > 0 then Failure(IndexError)
    else Success(seq(CopyCount(numCopies), (i: nat) => Randomization(0, SeedFor(seed, i))))
  }

  /** With a seed, no two randomisations share one; without, all are
      unseeded. */
  lemma RandomizationSeedsDiffer(numModels: nat, numCopies: Option<int>, seed: Option<int>)
    requires RandomizeModelList(numModels, numCopies, seed).Success?
    ensures var rs := RandomizeModelList(numModels, numCopies, seed).value;
            && (seed.Some? ==> Distinct(Seeds(rs)))
            && (seed.None? ==> forall i :: 0 <= i < |rs| ==> rs[i].seed.None?)
  {
    var rs := RandomizeModelList(numModels, numCopies, seed).value;
    if seed.Some? {
      forall i, j | 0 <= i < j < |rs| ensures Seeds(rs)[i] != Seeds(rs)[j] {
        assert rs[i].seed == Some(seed.value + i);
        assert rs[j].seed == Some(seed.value + j);
      }
    }
  }

  function Seeds(rs: seq<Randomization>): (r: seq<Option<int>>)
    ensures |r| == |rs| && forall i :: 0 <= i < |rs| ==> r[i] == rs[i].seed
  {
    seq(|rs|, i requires 0 <= i < |rs| => rs[i].seed)
  }

  /** `test_germs_list_completeness`: the index of the first model on which
      the germ set is not amplificationally complete, or -1 when it is
      complete on all of them. */
  method TestGermsListCompleteness(numModels: nat, isComplete: nat -> bool) returns (r: int)
    ensures r == -1 <==> forall k :: 0 <= k < numModels ==> isComplete(k)
    ensures r != -1 ==> 0 <= r < numModels && !isComplete(r)
    ensures r != -1 ==> forall k :: 0 <= k < r ==> isComplete(k)
  {
    var k := 0;
    while k < numModels
      invariant 0 <= k <= numModels
      invariant forall j :: 0 <= j < k ==> isComplete(j)
    {
      if !isComplete(k) {
        return k;
      }
      k := k + 1;
    }
    return -1;
  }

  /** A SPAM-stripped model's gauge and non-gauge parameter counts and its
      number of gates. */
  datatype ParamCounts = ParamCounts(numGauge: int, numNonGauge: int, numOps: nat)

  /** `_get_model_params`: the counts shared by all models. An empty list
      fails on `list[0]`; a disagreement in any of the three counts is a
      ValueError (the three checks run in turn, all raising ValueError). */
  function GetModelParams(models: seq<ParamCounts>): (r: Result<ParamCounts>)
    ensures |models| == 0 <==> r == Failure(IndexError)
    ensures r.Success? <==> |models| > 0 && forall i :: 0 <= i < |models| ==> models[i] == models[0]
    ensures r.Failure? && |models| > 0 ==> r.error == ValueError
    ensures r.Success? ==> r.value == models[0]
  {
    if |models| == 0 then Failure(IndexError)
    else if exists i :: 1 <= i < |models| && models[i].numGauge != models[0].numGauge then Failure(ValueError)
    else if exists i :: 1 <= i < |models| && models[i].numNonGauge != models[0].numNonGauge then Failure(ValueError)
    else if exists i :: 1 <= i < |models| && models[i].numOps != models[0].numOps then Failure(ValueError)
    else Success(models[0])
  }

  /** The check does not depend on which model is listed first: reordering
      the list gives the same verdict and the same counts. */
  lemma GetModelParamsIgnoresOrder(models: seq<ParamCounts>, reordered: seq<ParamCounts>)
    requires multiset(models) == multiset(reordered)
    ensures GetModelParams(models) == GetModelParams(reordered)
  {
    if |models| > 0 {
      assert |reordered| == |models| by {
        assert |multiset(models)| == |models| && |multiset(reordered)| == |reordered|;
      }
      SameElements(models, reordered);
      if GetModelParams(models).Success? {
        assert reordered[0] in multiset(models);
        forall i | 0 <= i < |reordered| ensures reordered[i] == reordered[0] {
          assert reordered[i] in multiset(models);
        }
      } else if GetModelParams(reordered).Success? {
        assert models[0] in multiset(reordered);
        forall i | 0 <= i < |models| ensures models[i] == models[0] {
          assert models[i] in multiset(reordered);
        }
      }
    } else {
      assert |reordered| == 0 by {
        assert |multiset(reordered)| == 0;
      }
    }
  }

  lemma SameElements<T>(a: seq<T>, b: seq<T>)
    requires multiset(a) == multiset(b)
    ensures forall x :: x in a <==> x in b
  {
    forall x ensures x in a <==> x in b {
      assert x in a <==> x in multiset(a);
      assert x in b <==> x in multiset(b);
    }
  }
}

=== FILE: outcomes.dfy ===
/** Failure-compatible result types shared by every module of the model.
    A Python exception raised by the modelled code becomes a `Failure`
    carrying the exception's class; the model does not track messages. */
module Outcomes {

  /** The Python exception classes the modelled code can raise. */
  datatype Error =
    | ValueError
    | AssertionError
    | KeyError
    | IndexError
    | TypeError
    | NotImplementedError
    | MemoryError
    | NameError
    | OverflowError
    | AttributeError

  datatype Option<+T> = None | Some(value: T)

  datatype Result<+T> = Success(value: T) | Failure(error: Error) {
    predicate IsFailure() {
      Failure?
    }

    function PropagateFailure<U>(): Result<U>
      requires Failure?
    {
      Failure(error)
    }

    function Extract(): T
      requires Success?
    {
      value
    }
  }
}

=== FILE: processor_spec.dfy ===
/** `QubitProcessorSpec` construction: the gate table, the qubit graph and
    labels, and the per-gate availability with its defaults.

    Qubit labels are integers. Unitaries are represented by what the
    specification inspects: `None`, an integer (an idle on that many
    qubits), a matrix or a gate factory (its first dimension), or a factory
    without a `shape`. The standard gate-name table is a parameter
    mapping each standard name to its matrix dimension. */
module ProcessorSpecs {
  import opened Outcomes
  import opened Seqs
  import opened QubitGraphs
  import opened Combinatorics

  datatype Unitary =
    | NoUnitary
    | IdleOn(nq: int)
    | Matrix(dim: nat)
    | Factory(shape: seq<nat>)
    | FactoryWithoutShape

  /** An availability entry: a special string, an explicit list of target
      tuples (`None` standing for "all qubits"), or a boolean function. */
  datatype AvailEntry =
    | Named(name: string)
    | Listed(targets: seq<Option<seq<int>>>)
    | Predicate(test: Option<seq<int>> -> bool)

  /** The `geometry` argument: absent, a graph, or a named layout together
      with the graph `QubitGraph.common_graph` builds for it. */
  datatype Geometry = NoGeometry | Graph(g: QubitGraph) | NamedGeometry(name: string, built: QubitGraph)

  /** A constructed specification. */
  datatype Spec = Spec(gateNames: seq<string>, unitaries: map<string, Unitary>, graph: QubitGraph,
                       labels: seq<int>, availability: map<string, AvailEntry>)

  /** `num_qubits`: the number of qubit labels. */
  function NumQubits(s: Spec): nat {
    |s.labels|
  }

  predicate OccursAt(s: string, sub: string, i: int) {
    0 <= i <= |s| - |sub| && s[i..i + |sub|] == sub
  }

  predicate HasSubstring(s: string, sub: string) {
    exists i :: 0 <= i <= |s| - |sub| && OccursAt(s, sub, i)
  }

  /** `'idle' in gname`. */
  predicate IsIdleName(g: string) {
    HasSubstring(g, "idle")
  }

  /** Idle gates given as non-standard unitaries, and idles inferred from
      their name, default to the availability `[None]` rather than
      `'all-edges'`. */
  predicate IdleDefault(g: string, nonstd: map<string, Unitary>, std: map<string, nat>) {
    IsIdleName(g) && (g in nonstd || g !in std)
  }

  /** The availability a gate ends up with. */
  function DefaultAvailability(g: string, nonstd: map<string, Unitary>, std: map<string, nat>,
                               given: map<string, AvailEntry>): AvailEntry {
    if g in given then given[g]
    else if IdleDefault(g, nonstd, std) then Listed([None])
    else Named("all-edges")
  }

  /** The gate loop accepts `g`: a non-standard factory must have a 2-D
      `shape`, and a name that is neither non-standard nor standard must
      name an idle whose availability, if given, is a list. */
  predicate GateAccepted(g: string, nonstd: map<string, Unitary>, std: map<string, nat>,
                         avail: map<string, AvailEntry>) {
    if g in nonstd then !nonstd[g].FactoryWithoutShape? && (nonstd[g].Factory? ==> |nonstd[g].shape| == 2)
    else if g in std then true
    else IsIdleName(g) && (g in avail ==> avail[g].Listed?)
  }

  /** The exception a rejected gate raises. */
  function GateError(g: string, nonstd: map<string, Unitary>): Error {
    if g in nonstd then (if nonstd[g].FactoryWithoutShape? then ValueError else AssertionError)
    else if IsIdleName(g) then AssertionError
    else ValueError
  }

  /** The qubit count of an inferred idle: the length of its first listed
      target, or all qubits when the list is empty, starts with `None`, or
      is absent. */
  function IdleQubits(g: string, n: int, avail: map<string, AvailEntry>): int {
    if g in avail && avail[g].Listed? && |avail[g].targets| > 0 && avail[g].targets[0].Some? then
      |avail[g].targets[0].value|
    else n
  }

  function UnitaryFor(g: string, nonstd: map<string, Unitary>, std: map<string, nat>, n: int,
                      avail: map<string, AvailEntry>): Unitary {
    if g in nonstd then nonstd[g]
    else if g in std then Matrix(std[g])
    else IdleOn(IdleQubits(g, n, avail))
  }

  /** One iteration of the gate loop: the gate's unitary and the possibly
      extended availability. */
  function GateStep(g: string, nonstd: map<string, Unitary>, std: map<string, nat>, n: int,
                    avail: map<string, AvailEntry>): (r: Result<(Unitary, map<string, AvailEntry>)>)
    ensures r.Success? <==> GateAccepted(g, nonstd, std, avail)
    ensures r.Failure? ==> r.error == GateError(g, nonstd)
    ensures r.Success? ==> r.value.0 == UnitaryFor(g, nonstd, std, n, avail)
    ensures r.Success? ==>
              r.value.1 == if IdleDefault(g, nonstd, std) && g !in avail then avail[g := Listed([None])] else avail
  {
    if g in nonstd then
      var u := nonstd[g];
      if u.FactoryWithoutShape? then Failure(ValueError)
      else if u.Factory? && |u.shape| != 2 then Failure(AssertionError)
      else Success((u, if IsIdleName(g) && g !in avail then avail[g := Listed([None])] else avail))
    else if g in std then Success((Matrix(std[g]), avail))
    else if IsIdleName(g) then
      if g in avail then
        if !avail[g].Listed? then Failure(AssertionError)
        else Success((IdleOn(IdleQubits(g, n, avail)), avail))
      else Success((IdleOn(n), avail[g := Listed([None])]))
    else Failure(ValueError)
  }

  /** The given availability extended with `[None]` for the idle gates that
      default to it. */
  function WithIdleDefaults(names: seq<string>, nonstd: map<string, Unitary>, std: map<string, nat>,
                            avail: map<string, AvailEntry>): map<string, AvailEntry> {
    map g | g in avail.Keys + (set h | h in names && IdleDefault(h, nonstd, std)) ::
      if g in avail then avail[g] else Listed([None])
  }

  /** The gate loop over `gate_names`. */
  function GateLoop(names: seq<string>, nonstd: map<string, Unitary>, std: map<string, nat>, n: int,
                    avail: map<string, AvailEntry>): (r: Result<(map<string, Unitary>, map<string, AvailEntry>)>)
    ensures r.Success? <==> forall i :: 0 <= i < |names| ==> GateAccepted(names[i], nonstd, std, avail)
    decreases |names|
  {
    if |names| == 0 then
      Success((map[], avail))
    else
      var g := names[0];
      var step :- GateStep(g, nonstd, std, n, avail);
      StepKeepsAcceptance(g, nonstd, std, n, avail, step.1, names[1..]);
      assert forall i :: 1 <= i < |names| ==> names[1..][i - 1] == names[i];
      var rest :- GateLoop(names[1..], nonstd, std, n, step.1);
      Success((map[g := step.0] + rest.0, rest.1))
  }

  /** The gate table the loop builds. */
  lemma {:induction false} GateLoopUnitaries(names: seq<string>, nonstd: map<string, Unitary>,
                                             std: map<string, nat>, n: int, avail: map<string, AvailEntry>)
    requires GateLoop(names, nonstd, std, n, avail).Success?
    ensures GateLoop(names, nonstd, std, n, avail).value.0.Keys == set g | g in names
    ensures forall g :: g in names ==>
              GateLoop(names, nonstd, std, n, avail).value.0[g] == UnitaryFor(g, nonstd, std, n, avail)
    decreases |names|
  {
    if |names| > 0 {
      var step := GateStep(names[0], nonstd, std, n, avail).value;
      var us := GateLoop(names[1..], nonstd, std, n, step.1).value.0;
      GateLoopUnitaries(names[1..], nonstd, std, n, step.1);
      StepKeepsUnitaries(names[0], nonstd, std, n, avail, step.1, names);
      assert GateLoop(names, nonstd, std, n, avail).value.0 == map[names[0] := step.0] + us;
      assert forall h :: h in names <==> h == names[0] || h in names[1..];
    }
  }

  /** The availability the gate loop leaves behind. */
  lemma {:induction false} GateLoopDefaults(names: seq<string>, nonstd: map<string, Unitary>,
                                            std: map<string, nat>, n: int, avail: map<string, AvailEntry>)
    requires GateLoop(names, nonstd, std, n, avail).Success?
    ensures GateLoop(names, nonstd, std, n, avail).value.1 == WithIdleDefaults(names, nonstd, std, avail)
    decreases |names|
  {
    if |names| == 0 {
      assert WithIdleDefaults(names, nonstd, std, avail) == avail;
    } else {
      var a1 := GateStep(names[0], nonstd, std, n, avail).value.1;
      GateLoopDefaults(names[1..], nonstd, std, n, a1);
      StepKeepsDefaults(names, nonstd, std, avail, a1);
    }
  }

  /** The gate loop stops at the first rejected gate, with that gate's error. */
  lemma {:induction false} GateLoopError(names: seq<string>, nonstd: map<string, Unitary>,
                                         std: map<string, nat>, n: int, avail: map<string, AvailEntry>)
    requires GateLoop(names, nonstd, std, n, avail).Failure?
    ensures exists i :: && 0 <= i < |names| && !GateAccepted(names[i], nonstd, std, avail)
                        && (forall j :: 0 <= j < i ==> GateAccepted(names[j], nonstd, std, avail))
                        && GateLoop(names, nonstd, std, n, avail).error == GateError(names[i], nonstd)
    decreases |names|
  {
    var step := GateStep(names[0], nonstd, std, n, avail);
    if step.Success? {
      var a1 := step.value.1;
      StepKeepsAcceptance(names[0], nonstd, std, n, avail, a1, names[1..]);
      GateLoopError(names[1..], nonstd, std, n, a1);
      var i :| && 0 <= i < |names[1..]| && !GateAccepted(names[1..][i], nonstd, std, a1)
               && (forall j :: 0 <= j < i ==> GateAccepted(names[1..][j], nonstd, std, a1))
               && GateLoop(names[1..], nonstd, std, n, a1).error == GateError(names[1..][i], nonstd);
      assert !GateAccepted(names[i + 1], nonstd, std, avail);
      assert forall j :: 0 <= j < i + 1 ==> GateAccepted(names[j], nonstd, std, avail) by {
        forall j | 0 <= j < i + 1 ensures GateAccepted(names[j], nonstd, std, avail) {
          if j > 0 {
            assert names[j] == names[1..][j - 1];
          }
        }
      }
    } else {
      assert !GateAccepted(names[0], nonstd, std, avail);
    }
  }

  /** The loop-step's extension of the availability changes no later
      gate's acceptance. */
  lemma StepKeepsAcceptance(g: string, nonstd: map<string, Unitary>, std: map<string, nat>, n: int,
                            avail: map<string, AvailEntry>, a1: map<string, AvailEntry>, rest: seq<string>)
    requires a1 == if IdleDefault(g, nonstd, std) && g !in avail then avail[g := Listed([None])] else avail
    requires GateAccepted(g, nonstd, std, avail)
    ensures forall i :: 0 <= i < |rest| ==>
              (GateAccepted(rest[i], nonstd, std, a1) <==> GateAccepted(rest[i], nonstd, std, avail))
  {
  }

  lemma StepKeepsUnitaries(g: string, nonstd: map<string, Unitary>, std: map<string, nat>, n: int,
                           avail: map<string, AvailEntry>, a1: map<string, AvailEntry>, names: seq<string>)
    requires a1 == if IdleDefault(g, nonstd, std) && g !in avail then avail[g := Listed([None])] else avail
    ensures forall h :: h in names ==> UnitaryFor(h, nonstd, std, n, a1) == UnitaryFor(h, nonstd, std, n, avail)
  {
  }

  lemma StepKeepsDefaults(names: seq<string>, nonstd: map<string, Unitary>, std: map<string, nat>,
                          avail: map<string, AvailEntry>, a1: map<string, AvailEntry>)
    requires |names| > 0
    requires a1 == if IdleDefault(names[0], nonstd, std) && names[0] !in avail
                   then avail[names[0] := Listed([None])] else avail
    ensures WithIdleDefaults(names[1..], nonstd, std, a1) == WithIdleDefaults(names, nonstd, std, avail)
  {
    assert forall h :: h in names <==> h == names[0] || h in names[1..];
  }

  /** The labels the constructor settles on before its length check: the
      given ones, else the graph's nodes for a graph geometry, else
      `range(num_qubits)`. */
  function ChosenLabels(geometry: Geometry, n: int, qubitLabels: Option<seq<int>>): seq<int> {
    if qubitLabels.Some? then qubitLabels.value
    else if geometry.Graph? then geometry.g.nodes
    else Range(n)
  }

  function ChosenGraph(geometry: Geometry, labels: seq<int>): QubitGraph {
    match geometry
    case NoGeometry => EdgelessGraph(labels)
    case Graph(g) => g
    case NamedGeometry(_, built) => built
  }

  function FinalAvailability(names: seq<string>, avail: map<string, AvailEntry>): (r: map<string, AvailEntry>)
    ensures r.Keys == set g | g in names
  {
    map g | g in names :: if g in avail then avail[g] else Named("all-edges")
  }

  /** What every constructed specification satisfies: the gate table and
      the availability are keyed by exactly the gate names, and every
      factory has a 2-D shape. */
  predicate Valid(s: Spec) {
    && s.unitaries.Keys == (set g | g in s.gateNames)
    && s.availability.Keys == (set g | g in s.gateNames)
    && forall g :: g in s.unitaries ==>
         !s.unitaries[g].FactoryWithoutShape? && (s.unitaries[g].Factory? ==> |s.unitaries[g].shape| == 2)
  }

  function GetOr<T>(o: Option<T>, d: T): T {
    if o.Some? then o.value else d
  }

  /** `QubitProcessorSpec.__init__`. */
  function Init(numQubits: int, gateNames: seq<string>, nonstd: Option<map<string, Unitary>>,
                availability: Option<map<string, AvailEntry>>, geometry: Geometry,
                qubitLabels: Option<seq<int>>, std: map<string, nat>): (r: Result<Spec>)
    ensures numQubits > 1 && availability.None? && geometry.NoGeometry? ==> r == Failure(AssertionError)
    ensures r.Success? <==>
              && !(numQubits > 1 && availability.None? && geometry.NoGeometry?)
              && (forall i :: 0 <= i < |gateNames| ==>
                    GateAccepted(gateNames[i], GetOr(nonstd, map[]), std, GetOr(availability, map[])))
              && |ChosenLabels(geometry, numQubits, qubitLabels)| == numQubits
    ensures r.Success? ==>
              && Valid(r.value)
              && r.value.gateNames == gateNames
              && NumQubits(r.value) == numQubits
              && r.value.labels == ChosenLabels(geometry, numQubits, qubitLabels)
              && r.value.graph == ChosenGraph(geometry, r.value.labels)
    ensures r.Success? ==> forall g :: g in gateNames ==>
              && r.value.availability[g]
                   == DefaultAvailability(g, GetOr(nonstd, map[]), std, GetOr(availability, map[]))
              && r.value.unitaries[g]
                   == UnitaryFor(g, GetOr(nonstd, map[]), std, numQubits, GetOr(availability, map[]))
  {
    if numQubits > 1 && availability.None? && geometry.NoGeometry? then Failure(AssertionError)
    else
      var ns := GetOr(nonstd, map[]);
      var given := GetOr(availability, map[]);
      var (us, avail) :- GateLoop(gateNames, ns, std, numQubits, given);
      GateLoopDefaults(gateNames, ns, std, numQubits, given);
      GateLoopUnitaries(gateNames, ns, std, numQubits, given);
      var labels := ChosenLabels(geometry, numQubits, qubitLabels);
      if |labels| != numQubits then Failure(AssertionError)
      else
        LoopTableValid(gateNames, ns, std, numQubits, given);
        FinalAvailabilityDefaults(gateNames, ns, std, given);
        Success(Spec(gateNames, us, ChosenGraph(geometry, labels), labels, FinalAvailability(gateNames, avail)))
  }

  /** Every gate the loop accepts gets a well-shaped unitary. */
  lemma LoopTableValid(names: seq<string>, nonstd: map<string, Unitary>, std: map<string, nat>, n: int,
                       avail: map<string, AvailEntry>)
    requires GateLoop(names, nonstd, std, n, avail).Success?
    ensures var us := GateLoop(names, nonstd, std, n, avail).value.0;
            forall g :: g in us ==> !us[g].FactoryWithoutShape? && (us[g].Factory? ==> |us[g].shape| == 2)
  {
    GateLoopUnitaries(names, nonstd, std, n, avail);
    var us := GateLoop(names, nonstd, std, n, avail).value.0;
    forall g | g in us ensures !us[g].FactoryWithoutShape? && (us[g].Factory? ==> |us[g].shape| == 2) {
      var i :| 0 <= i < |names| && names[i] == g;
      assert GateAccepted(names[i], nonstd, std, avail);
    }
  }

  lemma FinalAvailabilityDefaults(names: seq<string>, nonstd: map<string, Unitary>, std: map<string, nat>,
                                  given: map<string, AvailEntry>)
    ensures forall g :: g in names ==>
              FinalAvailability(names, WithIdleDefaults(names, nonstd, std, given))[g]
                == DefaultAvailability(g, nonstd, std, given)
  {
  }

  /** Rebuilding a specification from its own gate table, availability,
      graph and labels gives it back unchanged (the shape in which `subset`,
      `map_qubit_labels` and deserialisation call the constructor). */
  lemma ReinitRoundTrip(s: Spec, std: map<string, nat>)
    requires Valid(s)
    ensures Init(NumQubits(s), s.gateNames, Some(s.unitaries), Some(s.availability), Graph(s.graph),
                 Some(s.labels), std) == Success(s)
  {
    var r := Init(NumQubits(s), s.gateNames, Some(s.unitaries), Some(s.availability), Graph(s.graph),
                  Some(s.labels), std);
    assert forall i :: 0 <= i < |s.gateNames| ==> s.gateNames[i] in s.unitaries;
    assert r.Success?;
    var t := r.value;
    assert t.unitaries == s.unitaries;
    assert t.availability == s.availability;
  }

  function Pow2(e: nat): (r: nat)
    ensures r >= 1
  {
    if e == 0 then 1 else 2 * Pow2(e - 1)
  }

  lemma {:induction false} Pow2Exceeds(e: nat)
    ensures Pow2(e) > e
  {
    if e > 0 {
      Pow2Exceeds(e - 1);
    }
  }

  lemma {:induction false} Pow2Monotone(a: nat, b: nat)
    requires a <= b
    ensures Pow2(a) <= Pow2(b)
    decreases b
  {
    if a < b {
      Pow2Monotone(a, b - 1);
    }
  }

  lemma {:induction false} Pow2Add(a: nat, b: nat)
    ensures Pow2(a) * Pow2(b) == Pow2(a + b)
    decreases a
  {
    if a > 0 {
      Pow2Add(a - 1, b);
    }
  }

  /** `round(log2(d))` for `d >= 1`: the `k` with
      `2^(k - 1/2) < d < 2^(k + 1/2)`, stated on `d * d` (the bounds are never
      met with equality, so Python's tie rule never applies). */
  predicate IsRoundedLog2(d: nat, k: nat) {
    d * d < Pow2(2 * k + 1) && (k == 0 || Pow2(2 * k - 1) <= d * d)
  }

  function RoundLog2From(d: nat, k: nat): (r: nat)
    requires k == 0 || Pow2(2 * k - 1) <= d * d
    ensures IsRoundedLog2(d, r)
    decreases d * d - k
  {
    Pow2Exceeds(2 * k + 1);
    if d * d < Pow2(2 * k + 1) then k else RoundLog2From(d, k + 1)
  }

  /** At most one `k` rounds `log2(d)`. */
  lemma RoundedLog2Unique(d: nat, k1: nat, k2: nat)
    requires IsRoundedLog2(d, k1) && IsRoundedLog2(d, k2)
    ensures k1 == k2
  {
    if k1 < k2 {
      Pow2Monotone(2 * k1 + 1, 2 * k2 - 1);
    } else if k2 < k1 {
      Pow2Monotone(2 * k2 + 1, 2 * k1 - 1);
    }
  }

  /** `int(round(np.log2(d)))`: `log2(0)` is `-inf`, which `round` cannot
      convert to an integer. */
  function QubitsOfDimension(d: nat): (r: Result<int>)
    ensures r.Failure? <==> d == 0
    ensures r.Failure? ==> r.error == OverflowError
    ensures r.Success? ==> r.value >= 0 && IsRoundedLog2(d, r.value)
  {
    if d == 0 then Failure(OverflowError) else Success(RoundLog2From(d, 0))
  }

  /** A `2^q`-dimensional unitary acts on `q` qubits. */
  lemma PowerOfTwoDimension(q: nat)
    ensures QubitsOfDimension(Pow2(q)) == Success(q)
  {
    var d := Pow2(q);
    Pow2Add(q, q);
    assert d * d == Pow2(2 * q);
    assert Pow2(2 * q + 1) == 2 * Pow2(2 * q);
    if q > 0 {
      assert Pow2(2 * q) == 2 * Pow2(2 * q - 1);
    }
    assert IsRoundedLog2(d, q);
    RoundedLog2Unique(d, q, QubitsOfDimension(d).value);
  }

  /** `gate_num_qubits`: all qubits for `None`, the integer itself for an
      integer, and the rounded `log2` of the first dimension otherwise. */
  function GateNumQubits(s: Spec, g: string): (r: Result<int>)
    ensures r.Failure? ==> r.error in {KeyError, OverflowError, IndexError, AttributeError}
    ensures g !in s.unitaries ==> r == Failure(KeyError)
    ensures g in s.unitaries && s.unitaries[g] == NoUnitary ==> r == Success(NumQubits(s))
    ensures g in s.unitaries && s.unitaries[g].IdleOn? ==> r == Success(s.unitaries[g].nq)
    ensures g in s.unitaries && s.unitaries[g].Matrix? ==> r == QubitsOfDimension(s.unitaries[g].dim)
    ensures Valid(s) && g in s.unitaries && s.unitaries[g].Factory? ==>
              r == QubitsOfDimension(s.unitaries[g].shape[0])
  {
    if g !in s.unitaries then Failure(KeyError)
    else match s.unitaries[g]
      case NoUnitary => Success(NumQubits(s))
      case IdleOn(nq) => Success(nq)
      case Matrix(d) => QubitsOfDimension(d)
      case Factory(shape) => if |shape| == 0 then Failure(IndexError) else QubitsOfDimension(shape[0])
      case FactoryWithoutShape => Failure(AttributeError)
  }
}

=== FILE: processor_transforms.dfy ===
/** The two ways of deriving a specification from another: `subset`
    (fewer gates, fewer qubits) and `map_qubit_labels` (renamed qubits).
    Both rebuild through the constructor with the derived gate table,
    availability, graph and labels. */
module ProcessorTransforms {
  import opened Outcomes
  import opened Seqs
  import opened QubitGraphs
  import opened ProcessorSpecs
  import opened Availability

  function Among(names: seq<string>): string -> bool {
    (g: string) => g in names
  }

  function AmongLabels(labels: seq<int>): int -> bool {
    (q: int) => q in labels
  }

  /** `keep_avail_tuple`: `None` always stays; a tuple stays when all its
      labels are kept. */
  function KeepTarget(labels: seq<int>): Option<seq<int>> -> bool {
    (t: Option<seq<int>>) => t.None? || Within(t.value, labels)
  }

  /** List entries lose the targets that leave the kept qubits; other
      entries are kept as they are. */
  function RestrictEntry(entry: AvailEntry, labels: seq<int>): (r: AvailEntry)
    ensures !entry.Listed? ==> r == entry
    ensures entry.Listed? ==> r.Listed? && forall t :: t in r.targets <==>
              t in entry.targets && (t.None? || Within(t.value, labels))
    ensures entry.Listed? ==> IsSubseq(r.targets, entry.targets)
  {
    if entry.Listed? then
      FilterIsSubseq(entry.targets, KeepTarget(labels));
      Listed(Filter(entry.targets, KeepTarget(labels)))
    else entry
  }

  /** `subset(gate_names_to_include, qubit_labels_to_keep)`; `None` stands
      for `'all'`. */
  function Subset(s: Spec, includeNames: Option<seq<string>>, keepLabels: Option<seq<int>>,
                  std: map<string, nat>): (r: Result<Spec>)
    requires Valid(s)
    ensures r.Success? <==> Within(GetOr(keepLabels, s.labels), s.labels)
    ensures r.Failure? ==> r.error == ValueError
    ensures r.Success? ==>
              && Valid(r.value)
              && r.value.labels == GetOr(keepLabels, s.labels)
              && IsSubseq(r.value.gateNames, GetOr(includeNames, s.gateNames))
              && (forall g :: g in r.value.gateNames <==> g in GetOr(includeNames, s.gateNames) && g in s.gateNames)
              && (forall g :: g in r.value.gateNames ==>
                    && r.value.unitaries[g] == s.unitaries[g]
                    && r.value.availability[g] == RestrictEntry(s.availability[g], r.value.labels))
              && r.value.graph.nodes == r.value.labels
              && r.value.graph.directed == s.graph.directed
              && (forall e :: e in r.value.graph.edges <==>
                    e in s.graph.edges && e.0 in r.value.labels && e.1 in r.value.labels)
  {
    var includeNames := GetOr(includeNames, s.gateNames);
    var keepLabels := GetOr(keepLabels, s.labels);
    var names := Filter(includeNames, Among(s.gateNames));
    FilterIsSubseq(includeNames, Among(s.gateNames));
    var labels := Filter(keepLabels, AmongLabels(s.labels));
    FilterDropsNothing(keepLabels, AmongLabels(s.labels));
    WithinByIndex(keepLabels, s.labels);
    if |labels| != |keepLabels| then Failure(ValueError)
    else
      var t := Restricted(s, names, labels);
      ReinitRoundTrip(t, std);
      Init(|labels|, names, Some(t.unitaries), Some(t.availability), Graph(t.graph), Some(labels), std)
  }

  /** The specification `subset` hands back to the constructor. */
  function Restricted(s: Spec, names: seq<string>, labels: seq<int>): Spec
    requires Valid(s)
    requires forall g :: g in names ==> g in s.gateNames
  {
    Spec(names, map g | g in names :: s.unitaries[g], Subgraph(s.graph, labels), labels,
         map g | g in names :: RestrictEntry(s.availability[g], labels))
  }

  lemma SubsetIsRestricted(s: Spec, std: map<string, nat>)
    requires Valid(s)
    ensures Subset(s, None, None, std)
         == Success(Restricted(s, Filter(s.gateNames, Among(s.gateNames)), Filter(s.labels, AmongLabels(s.labels))))
  {
    FilterAll(s.labels, AmongLabels(s.labels));
    var names := Filter(s.gateNames, Among(s.gateNames));
    var t := Restricted(s, names, s.labels);
    ReinitRoundTrip(t, std);
    WithinByIndex(s.labels, s.labels);
  }

  lemma WithinAt(xs: seq<int>, labels: seq<int>, i: int)
    requires Within(xs, labels) && 0 <= i < |xs|
    ensures xs[i] in labels
  {
    var x := xs[i];
    assert x in xs;
  }

  lemma WithinByIndex(xs: seq<int>, labels: seq<int>)
    ensures Within(xs, labels) <==> forall i :: 0 <= i < |xs| ==> AmongLabels(labels)(xs[i])
  {
    if forall i :: 0 <= i < |xs| ==> AmongLabels(labels)(xs[i]) {
      forall e | e in xs ensures e in labels {
        var i :| 0 <= i < |xs| && xs[i] == e;
        assert AmongLabels(labels)(xs[i]);
      }
    }
    if Within(xs, labels) {
      forall i | 0 <= i < |xs| ensures AmongLabels(labels)(xs[i]) {
        WithinAt(xs, labels, i);
      }
    }
  }

  /** A filter drops nothing exactly when every element passes, and then
      it keeps the list as it is. */
  lemma {:induction false} FilterDropsNothing<T(!new)>(xs: seq<T>, p: T -> bool)
    ensures |Filter(xs, p)| == |xs| <==> forall i :: 0 <= i < |xs| ==> p(xs[i])
    ensures |Filter(xs, p)| == |xs| ==> Filter(xs, p) == xs
    decreases |xs|
  {
    if |xs| > 0 {
      FilterDropsNothing(xs[1..], p);
      assert forall i :: 1 <= i < |xs| ==> xs[1..][i - 1] == xs[i];
    }
  }

  predicate ListedWithin(ts: seq<Option<seq<int>>>, labels: seq<int>) {
    forall i :: 0 <= i < |ts| && ts[i].Some? ==> Within(ts[i].value, labels)
  }

  /** A specification whose listed targets and graph stay within its own
      qubits. Every result of `subset` is one. */
  predicate SelfContained(s: Spec) {
    && s.graph.nodes == s.labels
    && (forall e :: e in s.graph.edges ==> e.0 in s.labels && e.1 in s.labels)
    && (forall g :: g in s.availability && s.availability[g].Listed? ==> ListedWithin(s.availability[g].targets, s.labels))
  }

  lemma SubsetIsSelfContained(s: Spec, includeNames: Option<seq<string>>, keepLabels: Option<seq<int>>,
                              std: map<string, nat>)
    requires Valid(s)
    requires Subset(s, includeNames, keepLabels, std).Success?
    ensures SelfContained(Subset(s, includeNames, keepLabels, std).value)
  {
    var keep := GetOr(keepLabels, s.labels);
    var names := Filter(GetOr(includeNames, s.gateNames), Among(s.gateNames));
    var labels := Filter(keep, AmongLabels(s.labels));
    FilterDropsNothing(keep, AmongLabels(s.labels));
    WithinByIndex(keep, s.labels);
    var t := Restricted(s, names, labels);
    RestrictedIsValid(s, names, labels);
    ReinitRoundTrip(t, std);
    assert Subset(s, includeNames, keepLabels, std) == Success(t);
    RestrictedIsSelfContained(s, names, labels);
  }

  lemma RestrictedIsValid(s: Spec, names: seq<string>, labels: seq<int>)
    requires Valid(s)
    requires forall g :: g in names ==> g in s.gateNames
    ensures Valid(Restricted(s, names, labels))
  {
  }

  lemma RestrictedIsSelfContained(s: Spec, names: seq<string>, labels: seq<int>)
    requires Valid(s)
    requires forall g :: g in names ==> g in s.gateNames
    ensures SelfContained(Restricted(s, names, labels))
  {
    var r := Restricted(s, names, labels);
    forall g | g in r.availability && r.availability[g].Listed?
      ensures ListedWithin(r.availability[g].targets, labels)
    {
      RestrictKeepsWithin(s.availability[g], labels);
    }
  }

  /** A restricted list entry only lists targets inside the kept qubits. */
  lemma RestrictKeepsWithin(entry: AvailEntry, labels: seq<int>)
    requires entry.Listed?
    ensures ListedWithin(RestrictEntry(entry, labels).targets, labels)
  {
    var ts := RestrictEntry(entry, labels).targets;
    forall i | 0 <= i < |ts| && ts[i].Some? ensures Within(ts[i].value, labels) {
      var t := ts[i];
      assert t in ts;
    }
  }

  /** A list entry already inside the kept qubits is restricted to itself. */
  lemma RestrictKeepsAll(entry: AvailEntry, labels: seq<int>)
    requires entry.Listed? && ListedWithin(entry.targets, labels)
    ensures RestrictEntry(entry, labels) == entry
  {
    forall t | t in entry.targets ensures KeepTarget(labels)(t) {
      var i :| 0 <= i < |entry.targets| && entry.targets[i] == t;
    }
    FilterAll(entry.targets, KeepTarget(labels));
  }

  /** `subset('all', 'all')` of a self-contained specification is the
      specification itself. */
  lemma SubsetOfAllIsIdentity(s: Spec, std: map<string, nat>)
    requires Valid(s) && SelfContained(s)
    ensures Subset(s, None, None, std) == Success(s)
  {
    SubsetIsRestricted(s, std);
    FilterAll(s.gateNames, Among(s.gateNames));
    FilterAll(s.labels, AmongLabels(s.labels));
    RestrictedOfAll(s);
  }

  lemma RestrictedOfAll(s: Spec)
    requires Valid(s) && SelfContained(s)
    ensures Restricted(s, s.gateNames, s.labels) == s
  {
    FilterAll(s.graph.edges, (e: (int, int)) => e.0 in s.labels && e.1 in s.labels);
    var r := Restricted(s, s.gateNames, s.labels);
    assert r.graph == s.graph;
    assert r.unitaries == s.unitaries;
    forall g | g in s.gateNames ensures r.availability[g] == s.availability[g] {
      if s.availability[g].Listed? {
        RestrictKeepsAll(s.availability[g], s.labels);
      }
    }
    assert r.availability == s.availability;
  }

  /** Relabels one target; `None` stays `None`. */
  function MapTarget(mapper: Mapper, t: Option<seq<int>>): (r: Result<Option<seq<int>>>)
    ensures r.Failure? ==> r.error == KeyError
    ensures mapper.MapFn? ==> r.Success?
    ensures r.Success? ==> (r.value.None? <==> t.None?)
    ensures t.Some? ==> (r.Success? <==> forall q :: q in t.value ==> Apply(mapper, q).Success?)
    ensures r.Success? && t.Some? ==>
              && |r.value.value| == |t.value|
              && forall i :: 0 <= i < |t.value| ==> Apply(mapper, t.value[i]) == Success(r.value.value[i])
  {
    if t.None? then Success(None)
    else
      var m :- ApplyAll(mapper, t.value);
      Success(Some(m))
  }

  function MapTargets(mapper: Mapper, ts: seq<Option<seq<int>>>): (r: Result<seq<Option<seq<int>>>>)
    ensures r.Failure? ==> r.error == KeyError
    ensures mapper.MapFn? ==> r.Success?
    ensures r.Failure? <==> exists i :: 0 <= i < |ts| && MapTarget(mapper, ts[i]).Failure?
    ensures r.Success? ==> |r.value| == |ts| && forall i :: 0 <= i < |ts| ==> MapTarget(mapper, ts[i]) == Success(r.value[i])
  {
    if |ts| == 0 then Success([])
    else
      assert forall i :: 1 <= i < |ts| ==> ts[1..][i - 1] == ts[i];
      var t :- MapTarget(mapper, ts[0]);
      var rest :- MapTargets(mapper, ts[1..]);
      Success([t] + rest)
  }

  /** List entries are relabelled target by target; other entries are kept. */
  function MapEntry(mapper: Mapper, entry: AvailEntry): (r: Result<AvailEntry>)
    ensures r.Failure? ==> r.error == KeyError
    ensures mapper.MapFn? ==> r.Success?
    ensures !entry.Listed? ==> r == Success(entry)
    ensures entry.Listed? ==>
              (r.Failure? <==> exists i :: 0 <= i < |entry.targets| && MapTarget(mapper, entry.targets[i]).Failure?)
    ensures entry.Listed? && r.Success? ==>
              && r.value.Listed? && |r.value.targets| == |entry.targets|
              && forall i :: 0 <= i < |entry.targets| ==> MapTarget(mapper, entry.targets[i]) == Success(r.value.targets[i])
  {
    if entry.Listed? then
      var ts :- MapTargets(mapper, entry.targets);
      Success(Listed(ts))
    else Success(entry)
  }

  function MapAvailability(mapper: Mapper, avail: map<string, AvailEntry>): (r: Result<map<string, AvailEntry>>)
    ensures r.Failure? ==> r.error == KeyError
    ensures mapper.MapFn? ==> r.Success?
    ensures r.Success? ==> r.value.Keys == avail.Keys
    ensures r.Success? ==> forall g :: g in avail ==> MapEntry(mapper, avail[g]) == Success(r.value[g])
  {
    if exists g :: g in avail && MapEntry(mapper, avail[g]).Failure? then Failure(KeyError)
    else Success(map g | g in avail :: MapEntry(mapper, avail[g]).value)
  }

  /** `map_qubit_labels(mapper)`. */
  function MapQubitLabels(s: Spec, mapper: Mapper, std: map<string, nat>): (r: Result<Spec>)
    requires Valid(s)
    ensures r.Failure? ==> r.error == KeyError
    ensures mapper.MapFn? ==> r.Success?
    ensures r.Success? ==>
              && Valid(r.value)
              && r.value.gateNames == s.gateNames
              && r.value.unitaries == s.unitaries
              && NumQubits(r.value) == NumQubits(s)
              && (forall i :: 0 <= i < |s.labels| ==> Apply(mapper, s.labels[i]) == Success(r.value.labels[i]))
              && (forall g :: g in s.gateNames ==> MapEntry(mapper, s.availability[g]) == Success(r.value.availability[g]))
              && MapGraph(s.graph, mapper) == Success(r.value.graph)
  {
    var labels :- ApplyAll(mapper, s.labels);
    var avail :- MapAvailability(mapper, s.availability);
    var graph :- MapGraph(s.graph, mapper);
    var t := Spec(s.gateNames, s.unitaries, graph, labels, avail);
    ReinitRoundTrip(t, std);
    Init(NumQubits(s), s.gateNames, Some(s.unitaries), Some(avail), Graph(graph), Some(labels), std)
  }

  /** With a total relabelling the result is the relabelled parts. */
  lemma MapIsRelabelled(s: Spec, f: int -> int, std: map<string, nat>)
    requires Valid(s)
    ensures MapQubitLabels(s, MapFn(f), std)
         == Success(Spec(s.gateNames, s.unitaries, MapGraph(s.graph, MapFn(f)).value,
                         ApplyAll(MapFn(f), s.labels).value, MapAvailability(MapFn(f), s.availability).value))
  {
    var t := Spec(s.gateNames, s.unitaries, MapGraph(s.graph, MapFn(f)).value,
                  ApplyAll(MapFn(f), s.labels).value, MapAvailability(MapFn(f), s.availability).value);
    ReinitRoundTrip(t, std);
  }

  lemma {:induction false} MapTargetsRoundTrip(ts: seq<Option<seq<int>>>, f: int -> int, h: int -> int)
    requires Undoes(h, f)
    ensures MapTargets(MapFn(h), MapTargets(MapFn(f), ts).value) == Success(ts)
    decreases |ts|
  {
    if |ts| > 0 {
      MapTargetsRoundTrip(ts[1..], f, h);
      if ts[0].Some? {
        ApplyAllRoundTrip(ts[0].value, f, h);
      }
      var m := MapTargets(MapFn(f), ts).value;
      assert m == [MapTarget(MapFn(f), ts[0]).value] + MapTargets(MapFn(f), ts[1..]).value;
      assert m[1..] == MapTargets(MapFn(f), ts[1..]).value;
      assert MapTargets(MapFn(h), m) == Success([MapTarget(MapFn(h), m[0]).value] + MapTargets(MapFn(h), m[1..]).value);
      assert [ts[0]] + ts[1..] == ts;
    }
  }

  /** Relabelling qubits by `f` and then by an inverse of `f` gives the
      specification back. */
  lemma MapQubitLabelsRoundTrip(s: Spec, f: int -> int, h: int -> int, std: map<string, nat>)
    requires Valid(s)
    requires Undoes(h, f)
    ensures MapQubitLabels(MapQubitLabels(s, MapFn(f), std).value, MapFn(h), std) == Success(s)
  {
    MapIsRelabelled(s, f, std);
    var m := MapQubitLabels(s, MapFn(f), std).value;
    MapIsRelabelled(m, h, std);
    var back := MapQubitLabels(m, MapFn(h), std).value;
    ApplyAllRoundTrip(s.labels, f, h);
    MapGraphRoundTrip(s.graph, f, h);
    forall g | g in s.gateNames ensures back.availability[g] == s.availability[g] {
      if s.availability[g].Listed? {
        MapTargetsRoundTrip(s.availability[g].targets, f, h);
      }
    }
    assert back.labels == s.labels;
    assert back.availability == s.availability;
  }
}

=== FILE: qubit_graph.dfy ===
/** The slice of `QubitGraph` the processor specification relies on: node
    labels, an edge list, edge enumeration, direct connection, taking a
    sub-graph and relabelling. `pygsti/baseobjs/qubitgraph.py` is not part
    of this model; these definitions state the behaviour the processor
    specification assumes of it. */
module QubitGraphs {
  import opened Outcomes
  import opened Seqs

  datatype QubitGraph = QubitGraph(nodes: seq<int>, edges: seq<(int, int)>, directed: bool)

  /** A graph on `nodes` with no edges. */
  function EdgelessGraph(nodes: seq<int>): QubitGraph {
    QubitGraph(nodes, [], false)
  }

  /** `edges(double_for_undirected=True)`: each stored edge, followed by its
      reverse when the graph is undirected. */
  function EdgeList(g: QubitGraph): (r: seq<(int, int)>)
    ensures g.directed ==> r == g.edges
  {
    if g.directed then g.edges else Doubled(g.edges)
  }

  function Doubled(es: seq<(int, int)>): (r: seq<(int, int)>)
    ensures forall e :: e in r <==> e in es || (e.1, e.0) in es
  {
    if |es| == 0 then []
    else [es[0], (es[0].1, es[0].0)] + Doubled(es[1..])
  }

  /** `is_directly_connected(a, b)`: an edge from `a` to `b`, in either
      direction when the graph is undirected. */
  predicate IsDirectlyConnected(g: QubitGraph, a: int, b: int) {
    (a, b) in EdgeList(g)
  }

  /** `subgraph(keep, reset_nodes=False)`: the kept nodes and the edges
      between them. */
  function Subgraph(g: QubitGraph, keep: seq<int>): (r: QubitGraph)
    ensures r.nodes == keep && r.directed == g.directed
    ensures forall e :: e in r.edges <==> e in g.edges && e.0 in keep && e.1 in keep
  {
    QubitGraph(keep, Filter(g.edges, (e: (int, int)) => e.0 in keep && e.1 in keep), g.directed)
  }

  /** A relabelling: a dict (a missing key is a KeyError) or a total
      function. */
  datatype Mapper = MapDict(m: map<int, int>) | MapFn(f: int -> int)

  function Apply(mapper: Mapper, x: int): (r: Result<int>)
    ensures r.Failure? <==> mapper.MapDict? && x !in mapper.m
    ensures r.Failure? ==> r.error == KeyError
  {
    match mapper
    case MapDict(m) => if x in m then Success(m[x]) else Failure(KeyError)
    case MapFn(f) => Success(f(x))
  }

  /** Relabels every element, failing on the first missing key. */
  function ApplyAll(mapper: Mapper, xs: seq<int>): (r: Result<seq<int>>)
    ensures r.Failure? <==> exists x :: x in xs && Apply(mapper, x).Failure?
    ensures r.Failure? ==> r.error == KeyError
    ensures r.Success? ==> |r.value| == |xs| && forall i :: 0 <= i < |xs| ==> Success(r.value[i]) == Apply(mapper, xs[i])
  {
    if |xs| == 0 then Success([])
    else
      var y :- Apply(mapper, xs[0]);
      var ys :- ApplyAll(mapper, xs[1..]);
      assert forall x :: x in xs ==> x == xs[0] || x in xs[1..];
      Success([y] + ys)
  }

  function ApplyEdges(mapper: Mapper, es: seq<(int, int)>): (r: Result<seq<(int, int)>>)
    ensures r.Failure? ==> r.error == KeyError
    ensures r.Success? ==> |r.value| == |es|
    ensures mapper.MapFn? ==> r.Success?
  {
    if |es| == 0 then Success([])
    else
      var a :- Apply(mapper, es[0].0);
      var b :- Apply(mapper, es[0].1);
      var rest :- ApplyEdges(mapper, es[1..]);
      Success([(a, b)] + rest)
  }

  /** `map_qubit_labels(mapper)`: nodes and edge endpoints relabelled. */
  function MapGraph(g: QubitGraph, mapper: Mapper): (r: Result<QubitGraph>)
    ensures r.Failure? ==> r.error == KeyError
    ensures r.Success? ==> |r.value.nodes| == |g.nodes| && r.value.directed == g.directed
    ensures mapper.MapFn? ==> r.Success?
  {
    var nodes :- ApplyAll(mapper, g.nodes);
    var edges :- ApplyEdges(mapper, g.edges);
    Success(QubitGraph(nodes, edges, g.directed))
  }

  /** `h` undoes `f`. */
  ghost predicate Undoes(h: int -> int, f: int -> int) {
    forall x :: h(f(x)) == x
  }

  lemma {:induction false} ApplyAllRoundTrip(xs: seq<int>, f: int -> int, h: int -> int)
    requires Undoes(h, f)
    ensures ApplyAll(MapFn(h), ApplyAll(MapFn(f), xs).value) == Success(xs)
    decreases |xs|
  {
    if |xs| > 0 {
      ApplyAllRoundTrip(xs[1..], f, h);
      var m := ApplyAll(MapFn(f), xs).value;
      assert m == [f(xs[0])] + ApplyAll(MapFn(f), xs[1..]).value;
      assert m[1..] == ApplyAll(MapFn(f), xs[1..]).value;
      assert ApplyAll(MapFn(h), m) == Success([h(m[0])] + ApplyAll(MapFn(h), m[1..]).value);
      assert [xs[0]] + xs[1..] == xs;
    }
  }

  lemma {:induction false} ApplyEdgesRoundTrip(es: seq<(int, int)>, f: int -> int, h: int -> int)
    requires Undoes(h, f)
    ensures ApplyEdges(MapFn(h), ApplyEdges(MapFn(f), es).value) == Success(es)
    decreases |es|
  {
    if |es| > 0 {
      ApplyEdgesRoundTrip(es[1..], f, h);
      var mapped := ApplyEdges(MapFn(f), es).value;
      assert mapped == [(f(es[0].0), f(es[0].1))] + ApplyEdges(MapFn(f), es[1..]).value;
      assert mapped[1..] == ApplyEdges(MapFn(f), es[1..]).value;
      assert ApplyEdges(MapFn(h), mapped)
          == Success([(h(mapped[0].0), h(mapped[0].1))] + ApplyEdges(MapFn(h), mapped[1..]).value);
      assert [es[0]] + es[1..] == es;
    }
  }

  /** Relabelling a graph by `f` and then by an inverse of `f` gives the
      graph back. */
  lemma MapGraphRoundTrip(g: QubitGraph, f: int -> int, h: int -> int)
    requires Undoes(h, f)
    ensures MapGraph(MapGraph(g, MapFn(f)).value, MapFn(h)) == Success(g)
  {
    ApplyAllRoundTrip(g.nodes, f, h);
    ApplyEdgesRoundTrip(g.edges, f, h);
  }
}

=== FILE: random_drop.dfy ===
/** `drop_random_germs`: keeping a random fraction of the candidate germs,
    optionally always keeping the bare one-gate germs in front.

    The random generator is a parameter: `shuffle(n)` is the permutation of
    `0..n-1` numpy draws for `rng.choice(arange(n), size, replace=False)`,
    which keeps its first `size` entries. */
module RandomDrop {
  import opened Outcomes
  import opened Seqs
  import opened ForcedGerms

  /** `p` lists distinct indices below `n`, `n` of them. */
  predicate IsPermutationOf(p: seq<nat>, n: nat) {
    |p| == n && Distinct(p) && forall i :: 0 <= i < |p| ==> p[i] < n
  }

  type Shuffler = nat -> seq<nat>

  ghost predicate ValidShuffler(shuffle: Shuffler) {
    forall n: nat :: IsPermutationOf(shuffle(n), n)
  }

  /** `len(indices) - floor(rand_frac * len(indices))`. */
  function NumToKeep(n: nat, frac: real): int {
    n - (frac * n as real).Floor
  }

  /** `rng.choice(arange(n), size, replace=False)`: a ValueError for a
      negative size or one larger than the population. */
  function Choice(shuffle: Shuffler, n: nat, size: int): (r: Result<seq<nat>>)
    requires ValidShuffler(shuffle)
    ensures r.Success? <==> 0 <= size <= n
    ensures r.Failure? ==> r.error == ValueError
    ensures r.Success? ==> |r.value| == size && Distinct(r.value)
    ensures r.Success? ==> forall i :: 0 <= i < |r.value| ==> r.value[i] < n
  {
    if size < 0 || size > n then Failure(ValueError)
    else
      assert IsPermutationOf(shuffle(n), n);
      Success(shuffle(n)[..size])
  }

  /** The entries of `pool` at the positions `idx`, in that order. */
  function Pick<T>(pool: seq<T>, idx: seq<nat>): (r: seq<T>)
    requires forall i :: 0 <= i < |idx| ==> idx[i] < |pool|
    ensures |r| == |idx|
  {
    seq(|idx|, i requires 0 <= i < |idx| => pool[idx[i]])
  }

  /** `list_all_circuits_onelen(ops, length=1)`: one bare circuit per gate. */
  function BareCircuits(ops: seq<string>): (r: seq<Circuit>)
    ensures |r| == |ops| && forall i :: 0 <= i < |ops| ==> r[i] == [ops[i]]
  {
    seq(|ops|, i requires 0 <= i < |ops| => [ops[i]])
  }

  /** The candidates the random draw chooses from. */
  function Pool(candidates: seq<Circuit>, ops: seq<string>, keepBare: bool): seq<Circuit> {
    if keepBare then Filter(candidates, NotBare(ops)) else candidates
  }

  function NotBare(ops: seq<string>): Circuit -> bool {
    c => c !in BareCircuits(ops)
  }

  /** `drop_random_germs`. `ops` are the gate labels of the target model. */
  function DropRandomGerms(candidates: seq<Circuit>, frac: real, ops: seq<string>, keepBare: bool,
                           shuffle: Shuffler): (r: Result<seq<Circuit>>)
    requires ValidShuffler(shuffle)
    ensures var m := |Pool(candidates, ops, keepBare)|;
            r.Success? <==> 0 <= NumToKeep(m, frac) <= m
    ensures r.Failure? ==> r.error == ValueError
    ensures r.Success? ==>
              var pool := Pool(candidates, ops, keepBare);
              var head := if keepBare then |ops| else 0;
              && |r.value| == head + NumToKeep(|pool|, frac)
              && (keepBare ==> r.value[..head] == BareCircuits(ops))
              && (keepBare ==> forall c :: c in pool ==> c !in BareCircuits(ops))
              && multiset(r.value[head..]) <= multiset(pool)
              && (frac == 0.0 ==> multiset(r.value[head..]) == multiset(pool))
  {
    var pool := Pool(candidates, ops, keepBare);
    var idx :- Choice(shuffle, |pool|, NumToKeep(|pool|, frac));
    var kept := Pick(pool, idx);
    DrawnBag(pool, idx);
    var head := if keepBare then BareCircuits(ops) else [];
    assert (head + kept)[|head|..] == kept;
    Success(head + kept)
  }

  /** Drawing distinct positions never takes an element more often than the
      pool holds it. */
  lemma {:induction false} PickIsSubMultiset<T>(pool: seq<T>, idx: seq<nat>)
    requires Distinct(idx)
    requires forall i :: 0 <= i < |idx| ==> idx[i] < |pool|
    ensures multiset(Pick(pool, idx)) <= multiset(pool)
    decreases |pool|
  {
    if |pool| > 0 {
      var last := |pool| - 1;
      var init := pool[..last];
      assert pool == init + [pool[last]];
      if t :| 0 <= t < |idx| && idx[t] == last {
        var idx' := idx[..t] + idx[t + 1..];
        DropPosition(idx, t, |pool|);
        PickIsSubMultiset(init, idx');
        PickRemove(pool, idx, t);
        PickPrefix(pool, last, idx');
      } else {
        forall i | 0 <= i < |idx| ensures idx[i] < last {
        }
        PickIsSubMultiset(init, idx);
        PickPrefix(pool, last, idx);
      }
    }
  }

  /** Removing the position that draws the last pool element leaves
      distinct positions that all lie before it. */
  lemma DropPosition(idx: seq<nat>, t: nat, n: nat)
    requires Distinct(idx)
    requires forall i :: 0 <= i < |idx| ==> idx[i] < n
    requires t < |idx| && idx[t] == n - 1
    ensures var idx' := idx[..t] + idx[t + 1..];
            && Distinct(idx')
            && forall i :: 0 <= i < |idx'| ==> idx'[i] < n - 1
  {
    var idx' := idx[..t] + idx[t + 1..];
    forall i | 0 <= i < |idx'| ensures idx'[i] < n - 1 {
      if i < t { assert idx'[i] == idx[i]; } else { assert idx'[i] == idx[i + 1]; }
    }
    forall i, j | 0 <= i < j < |idx'| ensures idx'[i] != idx'[j] {
      var a := if i < t then i else i + 1;
      var b := if j < t then j else j + 1;
      assert idx'[i] == idx[a] && idx'[j] == idx[b];
    }
  }

  /** Positions inside a prefix draw the same elements from the prefix. */
  lemma PickPrefix<T>(pool: seq<T>, k: nat, idx: seq<nat>)
    requires k <= |pool|
    requires forall i :: 0 <= i < |idx| ==> idx[i] < k
    ensures Pick(pool, idx) == Pick(pool[..k], idx)
  {
  }

  /** Taking out one drawn position takes out one copy of its element. */
  lemma PickRemove<T>(pool: seq<T>, idx: seq<nat>, t: nat)
    requires forall i :: 0 <= i < |idx| ==> idx[i] < |pool|
    requires t < |idx|
    ensures var idx' := idx[..t] + idx[t + 1..];
            multiset(Pick(pool, idx)) == multiset(Pick(pool, idx')) + multiset{pool[idx[t]]}
  {
    var idx' := idx[..t] + idx[t + 1..];
    assert Pick(pool, idx) == Pick(pool, idx[..t]) + [pool[idx[t]]] + Pick(pool, idx[t + 1..]);
    assert Pick(pool, idx') == Pick(pool, idx[..t]) + Pick(pool, idx[t + 1..]);
  }

  /** The bag of drawn elements: within the pool's, and all of it when
      every position is drawn. */
  lemma DrawnBag<T>(pool: seq<T>, idx: seq<nat>)
    requires Distinct(idx)
    requires forall i :: 0 <= i < |idx| ==> idx[i] < |pool|
    ensures multiset(Pick(pool, idx)) <= multiset(pool)
    ensures |idx| == |pool| ==> multiset(Pick(pool, idx)) == multiset(pool)
  {
    PickIsSubMultiset(pool, idx);
    if |idx| == |pool| {
      FullPickIsPermutation(pool, idx);
    }
  }

  /** Drawing as many distinct positions as the pool has reorders the pool. */
  lemma FullPickIsPermutation<T>(pool: seq<T>, idx: seq<nat>)
    requires Distinct(idx) && |idx| == |pool|
    requires forall i :: 0 <= i < |idx| ==> idx[i] < |pool|
    ensures multiset(Pick(pool, idx)) == multiset(pool)
  {
    PickIsSubMultiset(pool, idx);
    SubMultisetOfSameSize(multiset(Pick(pool, idx)), multiset(pool));
  }

  lemma SubMultisetOfSameSize<T>(a: multiset<T>, b: multiset<T>)
    requires a <= b && |a| == |b|
    ensures a == b
  {
    var d := b - a;
    assert b == a + d;
    assert |d| == 0;
  }

  /** A fraction between 0 and 1 never makes the draw fail. */
  lemma FractionInRangeSucceeds(candidates: seq<Circuit>, frac: real, ops: seq<string>, keepBare: bool,
                                shuffle: Shuffler)
    requires ValidShuffler(shuffle)
    requires 0.0 <= frac <= 1.0
    ensures DropRandomGerms(candidates, frac, ops, keepBare, shuffle).Success?
  {
    KeepInRange(|Pool(candidates, ops, keepBare)|, frac);
  }

  lemma KeepInRange(n: nat, frac: real)
    requires 0.0 <= frac <= 1.0
    ensures 0 <= NumToKeep(n, frac) <= n
  {
    var x := frac * n as real;
    MulBounds(frac, n as real);
    FloorBounds(x);
    assert 0 <= x.Floor <= n;
  }

  lemma FloorBounds(x: real)
    ensures x.Floor as real <= x < x.Floor as real + 1.0
  {
  }

  lemma MulBounds(f: real, x: real)
    requires 0.0 <= f <= 1.0 && 0.0 <= x
    ensures 0.0 <= f * x <= x
  {
  }

  /** A negative fraction asks for more germs than the pool holds, and so
      does a fraction that drops at least one germ more than the whole pool. */
  lemma FractionOutOfRangeFails(candidates: seq<Circuit>, frac: real, ops: seq<string>, keepBare: bool,
                                shuffle: Shuffler)
    requires ValidShuffler(shuffle)
    requires DropsTooMuch(frac, |Pool(candidates, ops, keepBare)|)
    ensures DropRandomGerms(candidates, frac, ops, keepBare, shuffle) == Failure(ValueError)
  {
    var m := |Pool(candidates, ops, keepBare)|;
    KeepOutOfRange(m, frac);
    var k := NumToKeep(m, frac);
    assert !(0 <= k <= m);
    var r := DropRandomGerms(candidates, frac, ops, keepBare, shuffle);
    assert r.Failure?;
  }

  /** A negative fraction of a non-empty pool, or a fraction that drops at
      least one germ more than the `n` the pool holds. */
  predicate DropsTooMuch(frac: real, n: nat) {
    (frac < 0.0 && n > 0) || (frac - 1.0) * n as real >= 1.0
  }

  lemma KeepOutOfRange(n: nat, frac: real)
    requires DropsTooMuch(frac, n)
    ensures NumToKeep(n, frac) < 0 || NumToKeep(n, frac) > n
  {
    var x := frac * n as real;
    ScaleOutOfRange(frac, n as real);
    FloorBounds(x);
    assert x.Floor < 0 || x.Floor > n;
  }

  lemma ScaleOutOfRange(f: real, x: real)
    requires (f < 0.0 && x > 0.0) || (f - 1.0) * x >= 1.0
    ensures f * x < 0.0 || f * x >= x + 1.0
  {
    if f < 0.0 && x > 0.0 {
    } else {
      assert (f - 1.0) * x == f * x - x;
    }
  }
}

=== FILE: scores.dfy ===
/** Extended reals and the composite score that germ selection compares.
    Python floats are modelled as `real`; the only non-finite values the
    modelled code produces on purpose are `+inf` and `-inf`, so those are
    the two extra points. */
module Scores {

  datatype ExtReal = NegInf | Fin(v: real) | PosInf

  predicate Lt(a: ExtReal, b: ExtReal) {
    match (a, b)
    case (NegInf, NegInf) => false
    case (NegInf, _) => true
    case (Fin(x), Fin(y)) => x < y
    case (Fin(_), PosInf) => true
    case (_, _) => false
  }

  /** The amplified-parameter count carried by a score: a number, `-inf`
      (a candidate that failed to raise the rank), or `None` (the sentinel
      scores the greedy loop starts from). */
  datatype Count = Finite(k: int) | NegInfinite | Unset

  /** `(major, minor, N)`; lower is better, compared on `(major, minor)`. */
  datatype CompositeScore = CompositeScore(major: ExtReal, minor: ExtReal, n: Count)

  /** Lexicographic strict order on `(major, minor)`. */
  predicate ScoreLt(a: CompositeScore, b: CompositeScore) {
    Lt(a.major, b.major) || (a.major == b.major && Lt(a.minor, b.minor))
  }

  /** `-N + penalty`, where `N = -inf` gives `+inf`. */
  function MajorOf(n: Count, penalty: real): (m: ExtReal)
    requires !n.Unset?
    ensures n.Finite? ==> m == Fin(penalty - n.k as real)
    ensures n.NegInfinite? ==> m == PosInf
  {
    match n
    case Finite(k) => Fin(-(k as real) + penalty)
    case NegInfinite => PosInf
  }

  lemma LtIrreflexive(a: ExtReal)
    ensures !Lt(a, a)
  {
  }

  lemma LtTransitive(a: ExtReal, b: ExtReal, c: ExtReal)
    requires Lt(a, b) && Lt(b, c)
    ensures Lt(a, c)
  {
  }

  lemma LtTrichotomy(a: ExtReal, b: ExtReal)
    ensures Lt(a, b) || a == b || Lt(b, a)
  {
  }

  lemma ScoreLtTransitive(a: CompositeScore, b: CompositeScore, c: CompositeScore)
    requires ScoreLt(a, b) && ScoreLt(b, c)
    ensures ScoreLt(a, c)
  {
  }

  lemma ScoreLtAsymmetric(a: CompositeScore, b: CompositeScore)
    requires ScoreLt(a, b)
    ensures !ScoreLt(b, a)
  {
  }

  /** Two scores neither of which is below the other agree on `(major, minor)`. */
  lemma ScoreLtTotal(a: CompositeScore, b: CompositeScore)
    ensures ScoreLt(a, b) || ScoreLt(b, a) || (a.major == b.major && a.minor == b.minor)
  {
  }

  /** Python `max(a, b)`: `b` only when `b > a`, so ties keep `a`. */
  function PyMax(a: CompositeScore, b: CompositeScore): (r: CompositeScore)
    ensures r == a || r == b
    ensures !ScoreLt(r, a) && !ScoreLt(r, b)
    ensures ScoreLt(a, b) <==> r == b && r != a
  {
    if ScoreLt(a, b) then b else a
  }
}

=== FILE: seqs.dfy ===
/** Sequence vocabulary used across the model: distinctness, order-preserving
    sub-sequences, and counting. */
module Seqs {

  /** No element occurs twice. */
  predicate Distinct<T(==)>(s: seq<T>) {
    forall i, j :: 0 <= i < j < |s| ==> s[i] != s[j]
  }

  /** `a` is obtained from `b` by deleting elements, keeping the order. */
  predicate IsSubseq<T(==)>(a: seq<T>, b: seq<T>)
    decreases |b|
  {
    |a| == 0 ||
    (|b| > 0 && ((a[0] == b[0] && IsSubseq(a[1..], b[1..])) || IsSubseq(a, b[1..])))
  }

  lemma {:induction false} SubseqRefl<T>(a: seq<T>)
    ensures IsSubseq(a, a)
    decreases |a|
  {
    if |a| > 0 {
      SubseqRefl(a[1..]);
    }
  }

  /** Elements of a sub-sequence come from the enclosing sequence. */
  lemma {:induction false} SubseqMembers<T>(a: seq<T>, b: seq<T>)
    requires IsSubseq(a, b)
    ensures forall x :: x in a ==> x in b
    ensures |a| <= |b|
    decreases |b|
  {
    if |a| > 0 {
      if a[0] == b[0] && IsSubseq(a[1..], b[1..]) {
        SubseqMembers(a[1..], b[1..]);
        forall x | x in a ensures x in b {
          if x != a[0] {
            assert x in a[1..];
          }
        }
      } else {
        SubseqMembers(a, b[1..]);
      }
    }
  }

  lemma {:induction false} SubseqTrans<T>(a: seq<T>, b: seq<T>, c: seq<T>)
    requires IsSubseq(a, b) && IsSubseq(b, c)
    ensures IsSubseq(a, c)
    decreases |c|
  {
    if |a| == 0 {
    } else if |b| == 0 {
    } else if b[0] == c[0] && IsSubseq(b[1..], c[1..]) {
      if a[0] == b[0] && IsSubseq(a[1..], b[1..]) {
        SubseqTrans(a[1..], b[1..], c[1..]);
      } else {
        SubseqTrans(a, b[1..], c[1..]);
      }
    } else {
      SubseqTrans(a, b, c[1..]);
    }
  }

  /** Prepending the same element keeps the sub-sequence relation. */
  lemma SubseqCons<T>(x: T, a: seq<T>, b: seq<T>)
    requires IsSubseq(a, b)
    ensures IsSubseq([x] + a, [x] + b)
  {
    assert ([x] + a)[1..] == a;
    assert ([x] + b)[1..] == b;
  }

  /** Prepending an element to the enclosing sequence keeps the relation. */
  lemma SubseqSkip<T>(x: T, a: seq<T>, b: seq<T>)
    requires IsSubseq(a, b)
    ensures IsSubseq(a, [x] + b)
  {
    assert ([x] + b)[1..] == b;
  }

  /** The number of elements satisfying `p`. */
  function CountWhere<T>(s: seq<T>, p: T -> bool): (n: nat)
    ensures n <= |s|
  {
    if |s| == 0 then 0 else (if p(s[0]) then 1 else 0) + CountWhere(s[1..], p)
  }

  /** The elements satisfying `p`, in their original order. */
  function Filter<T(!new)>(s: seq<T>, p: T -> bool): (r: seq<T>)
    ensures |r| <= |s|
    ensures forall x :: x in r <==> x in s && p(x)
  {
    if |s| == 0 then []
    else if p(s[0]) then [s[0]] + Filter(s[1..], p)
    else Filter(s[1..], p)
  }

  lemma {:induction false} FilterIsSubseq<T(!new)>(s: seq<T>, p: T -> bool)
    ensures IsSubseq(Filter(s, p), s)
    decreases |s|
  {
    if |s| > 0 {
      FilterIsSubseq(s[1..], p);
      if p(s[0]) {
        SubseqCons(s[0], Filter(s[1..], p), s[1..]);
        assert [s[0]] + s[1..] == s;
      } else {
        SubseqSkip(s[0], Filter(s[1..], p), s[1..]);
        assert [s[0]] + s[1..] == s;
      }
    }
  }

  /** Filtering keeps every element when all of them satisfy `p`. */
  lemma {:induction false} FilterAll<T(!new)>(s: seq<T>, p: T -> bool)
    requires forall i :: 0 <= i < |s| ==> p(s[i])
    ensures Filter(s, p) == s
    decreases |s|
  {
    if |s| > 0 {
      FilterAll(s[1..], p);
    }
  }
}
